=== FILE: README.md ===
# article-scraper text core in Dafny

This project models the text-processing and extractive-summarisation core of the
`article-scraper` repository (a defence-news scraper and analyser). The model covers:

- the two `TextProcessor` classes;
- the two summarisers `ArticleSummarizer` and `TextSummarizer`;
- the two pure fragments of `DataStorage`: the in-memory filter and the WHERE-clause builder;
- the analysis steps of `DefenseNewsAnalyzer` that need neither the network nor the disk.

It then proves what these operations promise: cleaning invariants, sentence-splitting
invariants, keyword ranking, the selection and reassembly of summaries, the filter
semantics and the pair enumeration.

There is one module per source file:

| module | source |
|---|---|
| `Processor` | `src/processor.py` |
| `TextProcessor` | `src/text_processor.py` |
| `Summarizer` | `src/summarizer.py` |
| `TextSummarizer` | `src/text_summarizer.py` |
| `Storage` | `src/storage.py` |
| `RunAnalyzer` | `run_analyzer.py` |

Shared modules hold the Python primitives these files lean on:

- `PyStr`: `str.split()`, `strip`, `split(sep)`, `join`, `lower`, `replace`, and the `in` test between strings.
- `Seqs`: `Counter` counts, the key order of a dict, `list.index`, slices `xs[:k]` with negative `k`, and list comprehensions with `if`.
- `Ranking`: stable `sorted(..., reverse=True)` and the top-k selection.
- `Counter`: `most_common(n)`.
- `Rounding`: the built-in `round`, half to even.
- `Normalize`: the regular-expression substitutions shared by the two cleaners.
- `Stats`: the statistics dictionaries.
- `Wrappers`: `Option`/`Result`.

Modelling choices:

- **Stopwords.** The NLTK English stopword list is a parameter `stop`. `src/text_processor.py` has a fixed 25-word list, which is the constant `TextProcessor.Stopwords`.
- **Numbers.** Floats are exact rationals (`real`).
  - In `src/summarizer.py` the heuristic scores (0.3, 0.3, 0.1 per keyword) are whole numbers of tenths.
  - The position test `i < n*0.2 or i > n*0.8` is `5i < n || 5i > 4n`.
- **Character classes.** `\s`/`isspace`, `\w`, `isalpha`, `isalnum` and `lower` follow Python on ASCII.
- **Exceptions.** They become explicit values: `Option`/`Result`, or the fallback branch the `except` clause takes. The `ValueError` of `ArticleSummarizer.summarize` on empty text is `Failure(EmptyText)`. A division by zero in the word-count target is `None`, which falls back. `{}` for an empty article list is `None`. The `IndexError` of the site name of a URL without `//` is `None`.
- **Statefulness.** Loops that build a list or a dictionary step by step are methods with loop invariants, each proved equal to a function that states the result:
  - `Processor.SplitIntoSentences`;
  - both `ScoreSentences`;
  - `Storage.ApplyFilters` and `Storage.BuildQuery`;
  - the counting loops and the nested pair loop of `RunAnalyzer`.
- **Dictionaries.** A `defaultdict(int)` is the `Dict` datatype: its keys in insertion order, and a map to counts.

Some of the code's behaviour is surprising. The model keeps it as written:

- **`clean` is not idempotent.** Removing `@` from `"a @ b"` leaves `"a  b"`, and cleaning that again collapses the two spaces (`Processor.CleanNotIdempotent`).
- **The `<` and `>` substitutions are identities.** `src/processor.py:53-54` and `src/text_processor.py:33-34` substitute `<` by `<` and `>` by `>`. The model does exactly that, so literal `&lt;`/`&gt;` entities are kept. The `&` of such an entity is then removed as a special character.
- **Sentence splitting differs between the two processors.** `src/processor.py` drops pieces of three words or fewer; `src/text_processor.py` keeps every non-blank piece. `TextProcessor.SplittersAgree` states how the two results relate.

## Model

| member | source | states |
|---|---|---|
| PyStr.Lower | article-scraper/src/processor.py:29 | `str.lower()` keeps the length, leaves no upper-case letter and maps each character on its own |
| PyStr.Split | article-scraper/src/processor.py:88 | `str.split()` returns whitespace-free non-empty tokens |
| PyStr.SplitAround | article-scraper/src/processor.py:88 | splitting around a whitespace character splits both sides separately |
| PyStr.SplitJoin | article-scraper/src/summarizer.py:119 | the words of a space-joined list are the words of its parts, in order |
| PyStr.Strip | article-scraper/src/processor.py:79 | `strip()` is the input minus a blank prefix and a blank suffix; it is empty exactly for blank text, has no whitespace at either end, and leaves already-stripped text alone |
| PyStr.SplitOn | article-scraper/src/processor.py:78 | `split('.')` returns at least one piece, none holding the separator, each made of characters of the input |
| PyStr.SplitOnCount | article-scraper/src/processor.py:78 | `split(sep)` returns one more piece than there are separators |
| PyStr.JoinSplitOn | article-scraper/src/processor.py:78 | joining the pieces of `split(sep)` with `sep` gives the text back |
| PyStr.ReplaceChar | article-scraper/src/processor.py:73-74 | `replace(a, b)` changes exactly the `a` characters into `b`, so none is left |
| PyStr.ReplaceCharCount | article-scraper/src/processor.py:73-74 | after `replace(a, b)`, `b` occurs once for each former `a` or `b` |
| PyStr.ReplaceCharCountOther | article-scraper/src/processor.py:73-74 | `replace(a, b)` leaves the count of every other character unchanged |
| PyStr.JoinExcludes | article-scraper/src/summarizer.py:119 | a character in neither the separator nor any part is absent from the joined text |
| PyStr.JoinCountSep | article-scraper/src/text_summarizer.py:61 | a character once in the separator and never in a part occurs once between each two parts |
| PyStr.JoinCountEach | article-scraper/src/storage.py:228-229 | a character once in every part and never in the separator occurs once per part |
| PyStr.LowerJoin | article-scraper/src/text_summarizer.py:70 | lower-casing a joined text lower-cases each part and the separator |
| PyStr.ContainsInEmpty | article-scraper/src/storage.py:248 | only the empty string occurs in the empty string |
| Seqs.Count | article-scraper/src/processor.py:95 | the `Counter` value of `x` is at most the length and is 0 exactly when `x` is absent |
| Seqs.CountAppend | article-scraper/run_analyzer.py:127-130 | counts over a concatenation add up |
| Seqs.IndexOf | article-scraper/src/summarizer.py:115 | `list.index` finds the first occurrence |
| Seqs.Distinct | article-scraper/run_analyzer.py:128-130 | the keys of a dict filled from `s` are the elements of `s`, each once |
| Seqs.DistinctOrder | article-scraper/run_analyzer.py:128-130 | the keys of a dict filled from `s` are in order of first occurrence in `s`, in both directions |
| Seqs.SliceAll | article-scraper/src/summarizer.py:116 | `xs[:k]` with `k` at least the length is the whole list |
| Seqs.SliceDropLast | article-scraper/src/summarizer.py:116 | `xs[:-j]` for `0 < j <= n` is the list without its last `j` elements: putting them back gives the list |
| Seqs.Filter | article-scraper/src/storage.py:246-249 | a list comprehension with `if` keeps only elements that pass the test |
| Seqs.FilterMembership | article-scraper/src/storage.py:246-249 | an element is kept exactly when it is in the list and passes the test |
| Seqs.FilterAppend | article-scraper/src/storage.py:246-249 | filtering distributes over concatenation |
| Seqs.FilterCount | article-scraper/src/storage.py:246-249 | filtering keeps every occurrence of an element that passes the test and none of one that fails |
| Seqs.FilterAll | article-scraper/src/storage.py:243 | a test that always holds keeps the whole list |
| Seqs.FilterFilter | article-scraper/src/storage.py:245-249 | when every element passing `q` also passes `p`, filtering by `p` and then by `q` equals filtering by `q` alone |
| Seqs.FilterAnd | article-scraper/src/storage.py:245-249 | two successive filters are one filter by their conjunction |
| Seqs.FilterCongruent | article-scraper/src/storage.py:245-249 | tests that agree on every element filter alike |
| Seqs.FilterNoDup | article-scraper/run_analyzer.py:133 | filtering keeps distinctness |
| Seqs.FilterIsSubsequence | article-scraper/src/storage.py:246-249 | the filtered list is a subsequence of the input, in the input's order |
| Seqs.IncreasingPickSubsequence | article-scraper/src/summarizer.py:221 | picking at strictly increasing positions gives a subsequence |
| Seqs.PickRange | article-scraper/src/summarizer.py:239 | picking the positions `range(m)` is the slice `xs[:m]` |
| Seqs.FlattenMember | article-scraper/run_analyzer.py:127 | every element of every part is in the concatenation |
| Ranking.Insert | article-scraper/src/summarizer.py:215-217 | one insertion step of the stable descending sort adds exactly one element |
| Ranking.SortDesc | article-scraper/src/summarizer.py:215-217 | `sorted(..., reverse=True)` is a permutation of its input |
| Ranking.InsertAt | article-scraper/src/summarizer.py:215-217 | an inserted element lands after every larger key and before every key no larger |
| Ranking.SortDescSorted | article-scraper/src/summarizer.py:215-217 | the result is in non-increasing key order |
| Ranking.SortDescMembers | article-scraper/src/summarizer.py:215-217 | the result has the same members as the input |
| Ranking.SortDescNoDup | article-scraper/src/summarizer.py:215-217 | sorting distinct elements keeps them distinct |
| Ranking.SortDescStable | article-scraper/src/summarizer.py:215-217 | elements with equal keys keep their input order (the sort is stable) |
| Ranking.SortDescCongruent | article-scraper/src/summarizer.py:215-217 | keys that agree on the elements give the same order |
| Ranking.SortAsc | article-scraper/src/summarizer.py:114 | `sorted` on indices is an ascending permutation |
| Ranking.SortAscDistinct | article-scraper/src/summarizer.py:214-218 | sorting distinct indices gives a strictly increasing list with the same members |
| Ranking.TopIndices | article-scraper/src/text_summarizer.py:52-58 | the selected indices are `min(k, n)` many, strictly ascending and in range; each chosen index has a higher score than each one left out, or an equal score and a lower index |
| Ranking.TopChosen | article-scraper/src/summarizer.py:214-217 | in a stable descending ranking cut at `m`, each chosen index outranks each one left out |
| Ranking.TopIndicesProperties | article-scraper/src/summarizer.py:214-218 | the ranked, cut and re-sorted indices are strictly ascending, in range, and top-scoring with ties to the lower index |
| Ranking.TopSelectionUnique | article-scraper/src/summarizer.py:214-218 | two top selections of `min(k, n)` ascending positions for the same scores are equal, so the selection is determined by the scores |
| Counter.MostCommon | article-scraper/src/processor.py:95-98 | `most_common(n)` returns `min(n, distinct)` distinct elements of the input, nothing for `n <= 0`; they come by non-increasing count, ties by first occurrence, and every element left out is outranked by every element kept (counted less often, or as often and first seen later) |
| Counter.MostCommonComplete | article-scraper/src/processor.py:95-98 | asking for at least as many elements as there are distinct ones returns every element |
| Counter.PrefixTop | article-scraper/src/processor.py:98 | every element left out of a prefix of the ranking is outranked by every element in it: counted less often, or as often and first seen later |
| Rounding.RoundHalfEven | article-scraper/src/processor.py:106 | `round` gives an integer within 0.5 of its argument, and an even one on a tie |
| Rounding.RoundMonotone | article-scraper/src/summarizer.py:111 | `round` preserves order |
| Rounding.RoundInteger | article-scraper/src/processor.py:106 | `round` of an integer is that integer |
| Rounding.RoundUnique | article-scraper/src/text_summarizer.py:45-49 | an integer within 0.5 of `x`, even at an exact half, is `round(x)` |
| Rounding.CappedRoundUnique | article-scraper/src/summarizer.py:104-109 | an integer at most `n`, at most `x + 0.5`, within 0.5 of `x` when below `n`, and even at an exact half is `min(n, round(x))` |
| Stats.ReadingTime | article-scraper/src/processor.py:106 | `max(1, round(words / 200))` is at least 1, is 1 up to 100 words, above that is within half a minute of `words / 200`, and is even at an exact half |
| Stats.MakeTextStats | article-scraper/src/processor.py:108-113 | the average sentence length is 0 without sentences and words per sentence otherwise; the reading time is as above |
| Stats.CompressionRatio | article-scraper/src/summarizer.py:255-258 | summary words per original word, 0 for an original without words, non-negative, at most 1 when the summary is no longer |
| Stats.MakeSummaryStats | article-scraper/src/summarizer.py:260-266 | the summary statistics carry both word counts, their ratio and both reading times |
| Normalize.RemoveTags | article-scraper/src/processor.py:48 | `re.sub(r'<[^>]+>', '', s)` never lengthens the text and only keeps its characters |
| Normalize.RemoveTagsDrop | article-scraper/src/processor.py:48 | a `<`, at least one character other than `>` and the first `>` after them are deleted together, and scanning resumes after that `>` |
| Normalize.RemoveTagsPlainPrefix | article-scraper/src/processor.py:48 | text without `<` in front of the rest is kept as it is |
| Normalize.TagDeleted | article-scraper/src/processor.py:48 | `a<b>c` becomes `ac` |
| Normalize.EmptyTagKept | article-scraper/src/processor.py:48 | `a<>c` is not a tag and is kept |
| Normalize.RemoveTagsKeep | article-scraper/src/processor.py:48 | a first character that does not open a tag is kept |
| Normalize.RemoveTagsPlain | article-scraper/src/processor.py:48 | text without `<` has no tag to remove |
| Normalize.ReplaceAll | article-scraper/src/processor.py:51-54 | a literal `re.sub` only produces characters of the text or of the replacement |
| Normalize.ReplaceAllMatch | article-scraper/src/processor.py:51-54 | an occurrence of the pattern at the front is replaced, and scanning resumes after it |
| Normalize.ReplaceAllSkip | article-scraper/src/processor.py:51-54 | a first character that does not start an occurrence is kept, and scanning resumes after it |
| Normalize.ReplaceAllPlainPrefix | article-scraper/src/processor.py:51-54 | text in which the pattern cannot start is kept as it is |
| Normalize.ReplaceAllOccurrence | article-scraper/src/processor.py:51-54 | the first occurrence of the pattern is replaced by the replacement when nothing before it can start one |
| Normalize.ReplaceSelf | article-scraper/src/processor.py:53-54 | substituting a character by itself (`<` by `<`, `>` by `>`) changes nothing |
| Normalize.ReplaceAllAbsent | article-scraper/src/processor.py:51-52 | a pattern whose first character is absent is never replaced |
| Normalize.RemoveHtml | article-scraper/src/processor.py:45-56 | `_remove_html` only produces characters of its input, spaces and `&` |
| Normalize.RemoveHtmlPlain | article-scraper/src/processor.py:45-56 | text without `<` or `&` passes `_remove_html` unchanged |
| Normalize.RemoveHtmlTag | article-scraper/src/processor.py:45-56 | a tag between plain texts is deleted |
| Normalize.RemoveHtmlAmp | article-scraper/src/processor.py:45-56 | `&amp;` between plain texts becomes `&` |
| Normalize.RemoveHtmlNbsp | article-scraper/src/processor.py:45-56 | `&nbsp;` between plain texts becomes a space |
| Normalize.CollapseSpace | article-scraper/src/processor.py:58-60 | `re.sub(r'\s+', ' ', s)` leaves only single spaces as whitespace, never two whitespace characters in a row, never lengthens the text, and starts with whitespace exactly when the input does |
| Normalize.CollapseSpaceKeeps | article-scraper/src/processor.py:58-60 | collapsing whitespace keeps every non-whitespace character of the input, in order |
| Normalize.CollapseSpaceRun | article-scraper/src/processor.py:58-60 | a whole whitespace run becomes a single space |
| Normalize.CollapseSpaceKeep | article-scraper/src/processor.py:58-60 | a first character other than whitespace is kept, and the rest is collapsed on its own |
| Normalize.CollapseSpacePlainPrefix | article-scraper/src/processor.py:58-60 | text without whitespace in front of the rest is kept as it is |
| Normalize.CollapseSpaceBetween | article-scraper/src/processor.py:58-60 | a whitespace run between a word and the rest becomes exactly one space |
| Normalize.RemoveSpecialChars | article-scraper/src/processor.py:62-64 | `_remove_special_chars` keeps exactly the characters of the input that are `\w`, whitespace or `. , ! ? -`: every occurrence of those and none of the others, in order |
| Normalize.NormalizeParagraphs | article-scraper/src/processor.py:66-68 | the result is never longer than the text, and it holds a line feed only when the text does |
| Normalize.BreakEndRun | article-scraper/src/processor.py:66-68 | a line feed, any whitespace and a closing line feed before a non-whitespace character (or the end) form one paragraph break, ending just after the closing line feed |
| Normalize.NormalizeParagraphsBreak | article-scraper/src/processor.py:66-68 | a line feed, any whitespace and a closing line feed, followed by a non-whitespace character or the end, become exactly two line feeds, and what follows is normalised on its own |
| Normalize.NormalizeParagraphsKeep | article-scraper/src/processor.py:66-68 | a first character other than a line feed is kept, and the rest is normalised on its own |
| Normalize.NormalizeParagraphsPlainPrefix | article-scraper/src/processor.py:66-68 | text without a line feed in front of the rest is kept unchanged |
| Normalize.NormalizeParagraphsIdentity | article-scraper/src/processor.py:66-68 | without a line feed `_normalize_paragraphs` changes nothing |
| Normalize.TerminatorPieces | article-scraper/src/processor.py:73-78 | the `.`-pieces after `!`/`?` became `.` hold no `.`, `!` or `?` |
| Normalize.TerminatorPiecesCount | article-scraper/src/processor.py:73-78 | there is one more piece than `.`, `!` and `?` together |
| Normalize.TerminatorPiecesNone | article-scraper/src/text_processor.py:47-51 | a text without terminators is one piece |
| Normalize.Scrub | article-scraper/src/processor.py:29-38 | lower-case, tags, whitespace and special characters leave only spaces and lower-case `\w` or `. , ! ? -` characters of the lower-cased text |
| Processor.Clean | article-scraper/src/processor.py:23-43 | `clean("")` is `""`; the result has no upper-case letter, only `\w`, spaces and `. , ! ? -`, only spaces or characters of the lower-cased input, no `<`, `>`, `&`, newline or tab, and no space at either end |
| Processor.CleanCharsKept | article-scraper/src/processor.py:41-43 | stripping the normalised text keeps every cleaning invariant |
| Processor.CleanCharsExclude | article-scraper/src/processor.py:48-64 | clean characters exclude upper case, `<`, `>`, `&`, newline and tab |
| Processor.NormalizeParagraphsInert | article-scraper/src/processor.py:58-68 | after whitespace collapsing there is no newline, so `_normalize_paragraphs` changes nothing |
| Processor.CleanNotIdempotent | article-scraper/src/processor.py:60-64 | `clean("a @ b")` is `"a  b"`, whose cleaning is `"a b"`: cleaning twice differs from cleaning once |
| Processor.KeepSentences | article-scraper/src/processor.py:77-81 | the kept sentences are no more than the pieces and each has more than three words |
| Processor.SentencesWellFormed | article-scraper/src/processor.py:72-81 | every sentence is stripped, non-empty, longer than three words and free of `.`, `!`, `?`; there is at most one more sentence than there are terminators |
| Processor.KeepSentencesStep | article-scraper/src/processor.py:78-81 | one loop round appends the stripped piece exactly when it passes the filter |
| Processor.KeepSentencesFilter | article-scraper/src/processor.py:77-83 | the sentences are exactly the stripped pieces that pass the filter, in their order |
| Processor.KeepSentencesComplete | article-scraper/src/processor.py:79-81 | every piece whose stripped form passes the filter is a sentence |
| Processor.SplitIntoSentences | article-scraper/src/processor.py:70-83 | the loop returns the filtered stripped pieces, each well-formed |
| Processor.KeywordCandidates | article-scraper/src/processor.py:88-92 | the counted words are exactly the alphabetic non-stopword tokens of the lower-cased text |
| Processor.ExtractKeywords | article-scraper/src/processor.py:85-98 | exactly `min(n, distinct)` distinct alphabetic non-stopword tokens of the text, none for `n <= 0`, by non-increasing count with ties by first occurrence; every candidate left out is outranked by every word kept |
| Processor.KeywordsAllWhenFew | article-scraper/src/processor.py:85-98 | when there are no more distinct candidates than asked for, every candidate is returned |
| Processor.GetTextStats | article-scraper/src/processor.py:100-113 | sentence count of the splitter, whitespace-token count, words per sentence or 0 without sentences, and the reading time `max(1, round(words / 200))` of that many words |
| Processor.WordSet | article-scraper/src/processor.py:118-121 | the compared words are alphabetic, lower-case and not stopwords |
| Processor.Jaccard | article-scraper/src/processor.py:123-127 | `intersection / union` or 0 lies in [0, 1] and is 1 exactly when both sets are equal and non-empty |
| Processor.JaccardBounds | article-scraper/src/processor.py:124-125 | the intersection is no larger than the union, which is empty exactly when both sets are |
| Processor.RatioBounds | article-scraper/src/processor.py:127 | a part over a positive total lies in [0, 1], is 1 exactly at the total and 0 exactly at 0 |
| Processor.CalculateSimilarity | article-scraper/src/processor.py:115-127 | the similarity lies in [0, 1], is 0 when both word sets are empty, and is 1 exactly when the word sets coincide and are non-empty |
| Processor.SimilaritySymmetric | article-scraper/src/processor.py:115-127 | the similarity does not depend on the order of the texts |
| TextProcessor.Clean | article-scraper/src/text_processor.py:19-42 | `clean("")` is `""`; the result satisfies the same invariants as `src/processor.py`'s `clean` |
| TextProcessor.CleanersAgree | article-scraper/src/text_processor.py:19-42 | both cleaners return the same text for every input |
| TextProcessor.Sentences | article-scraper/src/text_processor.py:44-53 | every sentence is non-empty, stripped and free of `.`, `!` and `?` |
| TextProcessor.SentencesMembership | article-scraper/src/text_processor.py:51 | a text is a sentence exactly when it is a non-empty stripped piece |
| TextProcessor.SentencesCount | article-scraper/src/text_processor.py:47-51 | there is at most one more sentence than there are `.`, `!` and `?` |
| TextProcessor.SentencesSingle | article-scraper/src/text_processor.py:47-53 | a non-blank text without terminators is one sentence: itself, stripped |
| TextProcessor.SplittersAgree | article-scraper/src/text_processor.py:51 | `src/processor.py`'s sentences are exactly those of this splitter with more than three words, in order |
| TextProcessor.ExtractKeywords | article-scraper/src/text_processor.py:55-68 | exactly `min(n, distinct)` distinct alphabetic tokens outside the 25 fixed stopwords, none for `n <= 0`, by non-increasing count with ties by first occurrence; every candidate left out is outranked by every word kept |
| TextProcessor.GetTextStats | article-scraper/src/text_processor.py:70-83 | sentence and word counts, words per sentence or 0, and the reading time `max(1, round(words / 200))` of that many words |
| Summarizer.FreqWords | article-scraper/src/summarizer.py:55-62 | the counted words are exactly the alphanumeric non-stopword tokens of the lower-cased text |
| Summarizer.FreqSum | article-scraper/src/summarizer.py:67 | the summed frequency is 0 exactly when no word is alphanumeric and counted |
| Summarizer.ScoreSentence | article-scraper/src/summarizer.py:64-68 | a sentence's score is non-negative, 0 without words, and 0 exactly when none of its words is counted |
| Summarizer.TotalWordsLong | article-scraper/src/summarizer.py:152 | sentences of more than three words have at least four words each in total |
| Summarizer.WordTarget | article-scraper/src/summarizer.py:104-109 | the word-count target fails exactly without words; otherwise it is at most `n` and at most `word_count * n / total + 0.5` (even when equal to it), below `n` it is within 0.5 of that value and even at an exact half, and it is at most 0 for a non-positive word count (no lower bound) |
| Summarizer.WordTargetPinned | article-scraper/src/summarizer.py:104-109 | any value meeting `WordTarget`'s clauses is its result, so the contract fixes `min(n, round(word_count / (total / n)))` |
| Summarizer.RatioTarget | article-scraper/src/summarizer.py:111 | `max(1, round(n * ratio))` is 1 when `n * ratio <= 0.5`; above that it is within 0.5 of `n * ratio` and even at an exact half |
| Summarizer.RatioTargetMonotone | article-scraper/src/summarizer.py:111 | a larger ratio never asks for fewer sentences |
| Summarizer.TargetCount | article-scraper/src/summarizer.py:104-111 | a non-zero word count takes precedence; an absent or zero word count uses the ratio |
| Summarizer.GensimSelection | article-scraper/src/summarizer.py:101-117 | the joined positions are `min(k, n)` many, non-decreasing and in range, and each is the first occurrence of its sentence text |
| Summarizer.GensimSelectionTop | article-scraper/src/summarizer.py:101-117 | as a multiset the joined positions are the first occurrences (`sentences.index`) of the top-`k` positions by score, ties to the lower position; with their order this fixes them, so a repeated sentence chosen twice is joined twice at its first position |
| Summarizer.RankedTop | article-scraper/src/summarizer.py:101-116 | the ranked and cut positions are `min(k, n)` many, in range, and as a multiset exactly the top-`k` selection `TopIndices(scores, k)` |
| Summarizer.FirstPositionsPermutation | article-scraper/src/summarizer.py:114-116 | mapping positions through `sentences.index` takes two orderings of the same positions to two orderings of the same first positions |
| Seqs.MapPermutation | article-scraper/src/summarizer.py:114-116 | mapping a function over two permutations of one list gives two permutations of one list |
| Summarizer.FirstPositions | article-scraper/src/summarizer.py:115 | `sentences.index` maps each position to the first position holding the same text |
| Summarizer.GensimDistinct | article-scraper/src/summarizer.py:101-117 | with no repeated sentence, the gensim positions are the top-k positions by score, ties to the lower one |
| Summarizer.JoinAt | article-scraper/src/summarizer.py:119 | the words of the joined sentences are theirs, in order |
| Summarizer.JoinAtNoTerminator | article-scraper/src/summarizer.py:119 | joining sentences never brings in `.`, `!` or `?` |
| Summarizer.GensimSummarize | article-scraper/src/summarizer.py:70-124 | no sentences give `""`; otherwise the summary is non-empty; it never holds `.`, `!` or `?` |
| Summarizer.GensimWords | article-scraper/src/summarizer.py:114-120 | when positions are chosen, the gensim summary is exactly the sentences at those positions joined with spaces, so its words are theirs, in position order |
| Summarizer.GensimFallback | article-scraper/src/summarizer.py:120-124 | without a length target, or with nothing chosen, gensim returns the positional fallback |
| Summarizer.JoinedNonEmpty | article-scraper/src/summarizer.py:120 | joining at least one sentence is never empty, so the `summary if summary` test only fails with nothing chosen |
| Summarizer.PositionBonusEnds | article-scraper/src/summarizer.py:187 | the first sentence always gets the position bonus; the last one exactly when it is alone or among more than five |
| Summarizer.KeywordCount | article-scraper/src/summarizer.py:191-192 | a sentence has at most 10 keywords |
| Summarizer.SentenceScore | article-scraper/src/summarizer.py:177-196 | the score is a whole number of tenths in [0, 16]; at least 3 with the position or length bonus, at most 10 with neither |
| Summarizer.ScoreSentences | article-scraper/src/summarizer.py:167-196 | the loop returns one score per sentence, each the heuristic score and in [0, 1.6] |
| Summarizer.SelectSentences | article-scraper/src/summarizer.py:198-221 | the result is the input sentences at a top selection of `min(k, n)` ascending positions: each chosen position has a higher score than each one left out, or an equal score and a lower position |
| Summarizer.ExtractiveSummarize | article-scraper/src/summarizer.py:126-165 | no sentences give `""`; it never fails and never holds `.`, `!` or `?` |
| Summarizer.ExtractiveSelects | article-scraper/src/summarizer.py:148-165 | the length target exists and the summary is exactly the `_select_sentences` choice joined with spaces, so its words are those of the choice, in order |
| Summarizer.JoinAtPick | article-scraper/src/summarizer.py:221 | the words of the joined sentences at `idx` are those of the picked sentences |
| Summarizer.ZeroTargetExtractive | article-scraper/src/summarizer.py:151-165 | a word count that rounds to zero sentences makes the extractive summary `""` |
| Summarizer.ZeroTargetGensim | article-scraper/src/summarizer.py:104-120 | a word count that rounds to zero sentences makes gensim fall back |
| Summarizer.Fallback | article-scraper/src/summarizer.py:223-239 | `""` exactly without sentences, never holding `.`, `!` or `?` |
| Summarizer.FallbackWords | article-scraper/src/summarizer.py:234-239 | the fallback is exactly the first `max(1, round(n * ratio))` sentences joined with spaces, at least one sentence, with their words in order |
| Summarizer.JoinFirstWords | article-scraper/src/summarizer.py:239 | the words of the first `m` sentences joined with spaces are theirs, in order |
| Summarizer.Summarize | article-scraper/src/summarizer.py:17-53 | only an empty text fails; otherwise the cleaned text goes to `gensim`, `extractive` or, for any other method, the fallback; no summary holds `.`, `!` or `?` |
| Summarizer.GetSummaryStats | article-scraper/src/summarizer.py:241-266 | word counts of both texts, their ratio or 0 for an original without words, and each reading time is `max(1, round(words / 200))` of its text's word count |
| TextSummarizer.AllWordsMember | article-scraper/src/text_summarizer.py:70 | every lower-cased word of a sentence is among the counted words |
| TextSummarizer.FreqTotalAtLeast | article-scraper/src/text_summarizer.py:79 | when every word is counted, the summed frequency is at least the number of words |
| TextSummarizer.PositionScore | article-scraper/src/text_summarizer.py:83-86 | 0.3 exactly in the first fifth, 0.2 exactly in the last fifth outside it, 0 otherwise: the two bonuses exclude each other |
| TextSummarizer.PositionScoreEnds | article-scraper/src/text_summarizer.py:83-86 | the first sentence gets 0.3; the last gets 0.3 alone, 0.2 among more than five, nothing among two to five |
| TextSummarizer.SentenceScore | article-scraper/src/text_summarizer.py:74-93 | a score is at least its position bonus, and at least 0.5 more for a sentence with words |
| TextSummarizer.WordScoreAtLeastOne | article-scraper/src/text_summarizer.py:79 | the mean frequency of a sentence's words is at least 1 |
| TextSummarizer.ScoreSentences | article-scraper/src/text_summarizer.py:65-95 | the loop returns one score per sentence, each the heuristic score |
| TextSummarizer.TargetCount | article-scraper/src/text_summarizer.py:45-49 | `k <= n`, `k >= min(min_sentences, n)`; `k` is `min(min_sentences, n)` when `round(n * ratio)` is at most `min_sentences`, `n` when it is at least `n`, and otherwise the rounded `n * ratio`, even at an exact half |
| TextSummarizer.TargetCountPinned | article-scraper/src/text_summarizer.py:45-49 | any value meeting `TargetCount`'s clauses is its result, so the contract fixes `min(max(min_sentences, round(n * ratio)), n)` |
| TextSummarizer.TargetCountMonotone | article-scraper/src/text_summarizer.py:45-49 | a larger ratio never selects fewer sentences |
| TextSummarizer.TargetCountDefaults | article-scraper/src/text_summarizer.py:45-49 | with ratio 0.3 and at least 3: 10 sentences give 3, 20 give 6, 2 give 2 |
| TextSummarizer.Summarize | article-scraper/src/text_summarizer.py:15-63 | `""` for empty text or no sentences; otherwise the summary is the sentences at a top selection of the target count (highest scores, ties to the lower position, in position order) joined with `'. '` plus a final `.`; it ends with `.` and holds one `.` per selected sentence (one when none is selected) |
| TextSummarizer.SummaryOf | article-scraper/src/text_summarizer.py:52-63 | the summary is the sentences at a top selection of `min(k, n)` positions joined with `'. '` plus a final `.`; it ends with `.` and holds `max(1, min(k, n))` dots |
| TextSummarizer.ZeroTargetDot | article-scraper/src/text_summarizer.py:61-63 | selecting no sentence gives `"."` |
| TextSummarizer.SummaryDots | article-scraper/src/text_summarizer.py:61-63 | a `'. '` join of parts without `.`, with the final-`.` rule, ends with `.` and holds one `.` per part (one when there is none) |
| TextSummarizer.GetSummaryStats | article-scraper/src/text_summarizer.py:97-122 | word counts, ratio or 0 for an original without words, and each reading time is `max(1, round(words / 200))` of its text's word count |
| TextSummarizer.SummaryStatsAgree | article-scraper/src/text_summarizer.py:97-122 | both summarizers report the same statistics for the same texts |
| Storage.Filtered | article-scraper/src/storage.py:245-249 | every kept article passes every filter |
| Storage.ApplyFilters | article-scraper/src/storage.py:241-251 | the loop of list comprehensions returns the articles passing all filters |
| Storage.FilterStep | article-scraper/src/storage.py:246-249 | one more comprehension filters by one more filter |
| Storage.FilteredSubsequence | article-scraper/src/storage.py:241-251 | the result is a subsequence of the input, in the input's order |
| Storage.FilteredMembership | article-scraper/src/storage.py:245-249 | an article is kept exactly when it is in the input and passes every filter |
| Storage.NoFilters | article-scraper/src/storage.py:243-251 | without filters the articles come back unchanged |
| Storage.FilterOrderIrrelevant | article-scraper/src/storage.py:245-249 | listing the same filters in another order keeps the same articles |
| Storage.MissingKey | article-scraper/src/storage.py:248 | a filter on a missing field keeps the article exactly when its value's text is empty |
| Storage.BuildQuery | article-scraper/src/storage.py:218-229 | one `key LIKE ?` condition and one `%value%` parameter per filter on url, title or author, in order, joined with ` AND ` after ` WHERE ` |
| Storage.SearchableStep | article-scraper/src/storage.py:223-226 | one loop round adds a condition exactly for a searchable key |
| Storage.NoSearchableFilter | article-scraper/src/storage.py:228-229 | without a searchable filter there is no WHERE clause |
| Storage.PlaceholdersMatchParameters | article-scraper/src/storage.py:224-229 | the query holds exactly one `?` per parameter |
| Storage.ConditionPlaceholder | article-scraper/src/storage.py:225 | each condition holds one placeholder |
| RunAnalyzer.BumpAllAppend | article-scraper/run_analyzer.py:129-130 | counting one list after another is counting their concatenation |
| RunAnalyzer.TallyCounts | article-scraper/run_analyzer.py:128-130 | the counting dict maps exactly the words of the list, each to its number of occurrences, with keys in order of first occurrence |
| RunAnalyzer.TallyInto | article-scraper/run_analyzer.py:129-130 | the counting loop adds each word to the dict |
| RunAnalyzer.CountKeywords | article-scraper/run_analyzer.py:145-148 | the nested loops count every keyword of every article |
| RunAnalyzer.TalliedSort | article-scraper/run_analyzer.py:150-154 | sorting the dict's keys by their counts is `Counter` ranking |
| RunAnalyzer.CommonTallied | article-scraper/run_analyzer.py:150-154 | the ten keys of largest stored count are the ten most common keywords, with their counts |
| RunAnalyzer.GetCommonKeywords | article-scraper/run_analyzer.py:143-154 | at most ten keywords with their total counts, by non-increasing count, ties by first appearance, none left out counted more than one kept |
| RunAnalyzer.AnalyzeArticles | article-scraper/run_analyzer.py:91-104 | nothing for no articles; otherwise the article count and the common keywords |
| RunAnalyzer.ThemesMembership | article-scraper/run_analyzer.py:127-136 | a `(keyword, count)` pair is a theme exactly when the keyword occurs more than once, with that count |
| RunAnalyzer.ThemeKeysMembership | article-scraper/run_analyzer.py:132-136 | a keyword is a theme key exactly when it occurs more than once |
| RunAnalyzer.CountsOfMembership | article-scraper/run_analyzer.py:133 | a pair is listed exactly when its key is listed, with its count |
| RunAnalyzer.ThemesOrdered | article-scraper/run_analyzer.py:132-136 | themes come by non-increasing count |
| RunAnalyzer.ThemesDistinct | article-scraper/run_analyzer.py:132-136 | no keyword is a theme twice |
| RunAnalyzer.CommonThemes | article-scraper/run_analyzer.py:127-136 | the counting loop and the filtered sort give the themes |
| RunAnalyzer.TalliedThemes | article-scraper/run_analyzer.py:132-136 | sorting the dict's repeated keys by their counts gives the themes |
| RunAnalyzer.PairsUpToBounds | article-scraper/run_analyzer.py:113-114 | every visited pair has `i < j < n` |
| RunAnalyzer.PairsUpToOrdered | article-scraper/run_analyzer.py:113-114 | pairs are visited in strictly increasing lexicographic order, so none twice |
| RunAnalyzer.PairsUpToComplete | article-scraper/run_analyzer.py:113-114 | every pair `i < j < n` is visited |
| RunAnalyzer.AllPairsMembership | article-scraper/run_analyzer.py:113-114 | a pair is visited exactly when `i < j < n` |
| RunAnalyzer.Similarity | article-scraper/run_analyzer.py:115-118 | the similarity of two articles lies in [0, 1] |
| RunAnalyzer.Report | article-scraper/run_analyzer.py:119-124 | every reported pair is more than 0.3 similar |
| RunAnalyzer.ReportStep | article-scraper/run_analyzer.py:119-124 | visiting one more pair adds its entry exactly when it is similar |
| RunAnalyzer.SimilarPairs | article-scraper/run_analyzer.py:112-124 | the nested loops report the similar pairs among all pairs `i < j`, in visiting order |
| RunAnalyzer.SimilarInRow | article-scraper/run_analyzer.py:114-124 | the inner loop reports the similar pairs of one row |
| RunAnalyzer.SimilarPairsMembership | article-scraper/run_analyzer.py:112-124 | a pair is reported exactly when `i < j < n` and it is more than 0.3 similar |
| RunAnalyzer.CompareArticles | article-scraper/run_analyzer.py:106-141 | nothing for no articles; otherwise the similar pairs and the themes |
| RunAnalyzer.FirstSlash | article-scraper/run_analyzer.py:49 | `split("/")[0]` ends before the first `/` |
| RunAnalyzer.FindDoubleSlash | article-scraper/run_analyzer.py:49 | finds the first `//`, or proves there is none |
| RunAnalyzer.SiteName | article-scraper/run_analyzer.py:49 | the site name fails exactly without `//` and never holds `/` |
| RunAnalyzer.SiteNameUpToSlash | article-scraper/run_analyzer.py:49 | the site name is the text after the first `//` up to the next `/` |
| RunAnalyzer.SiteNameOfHost | article-scraper/run_analyzer.py:49 | `scheme//host` with no `/` in either part has site name `host` |
| RunAnalyzer.SiteNameExample | article-scraper/run_analyzer.py:174 | `https://idrw.org` has site name `idrw.org` |
| RunAnalyzer.SiteNameMissing | article-scraper/run_analyzer.py:49 | a URL without `//` has no site name |

## Left out

- Scrapers, HTTP, random delays and retries (`src/scraper.py`, `src/news_scraper.py`, `src/enhanced_scraper.py`): network and foreign libraries.
- File, CSV, JSON, SQLite and pandas I/O of `src/storage.py`, `export_data`, `get_stats`, timestamps: only `_apply_filters` and the WHERE builder of `_load_sqlite` are pure. The SQL is modelled as text; executing it is not.
- `process_website` and `main` of `run_analyzer.py`, the CLI and demo scripts, NLTK downloads and logging: orchestration and I/O. From them only the site-name slice is modelled.
- The `np.mean` averages `avg_length` and `avg_summary_length` (`run_analyzer.py:99-100`): `RunAnalyzer.Analysis` omits them.
- Floating point: scores, ratios and the similarity are exact rationals. Python floats can order near-ties differently and can round `n * ratio` differently at exact halves. In particular the tenths scores of `_score_sentences` (`src/summarizer.py:177-194`) can break what is an exact tie in the model: a sentence with the length and position bonuses and no keyword scores `0.3 + 0.3 == 0.6`, while one with the length bonus and three keywords scores `0.3 + 3 * 0.1 == 0.6000000000000001`. Python's stable sort then ranks the second first even at a higher index, where the model's lower index wins.
- Unicode: character classes and `lower` follow ASCII.
- Exceptions are values (`Option`/`Result`); a raised exception's message and the logging are not modelled.
- Record values are their `str()` text, and the filter dict is a list of `(key, str(value))` pairs in iteration order.
- `src/__init__.py:6` and `run_analyzer.py:16` import `TextSummarizer` from `src/summarizer.py`, which defines only `ArticleSummarizer`. That import fails, so neither file is modelled as a caller.
- Summarizer.GensimSelection: the in-place `list.sort` of `(sentence, score)` pairs is modelled as a stable sort of sentence positions by score. This gives the same order, because `sort` is stable.
- Summarizer.KeywordCount: states the bound of at most 10 keywords. The count itself is `Processor.ExtractKeywords` of the sentence.
- RemoveTags: its own contract only bounds the characters of the result. What is deleted and what is kept is stated step by step by `RemoveTagsDrop`, `RemoveTagsKeep` and `RemoveTagsPlainPrefix`.
- ReplaceAll: its own contract only bounds the characters of the result. Replacement is stated step by step by `ReplaceAllMatch`, `ReplaceAllSkip` and `ReplaceAllOccurrence`.
- RemoveHtml: its own contract only bounds the characters of the result. Its effect is stated by `RemoveHtmlTag`, `RemoveHtmlAmp`, `RemoveHtmlNbsp` and `RemoveHtmlPlain`, each for one tag or entity between texts without `<` or `&`; texts with several tags or entities follow from the step lemmas of the stages but are not stated as one lemma.
- CollapseSpace: its own contract states only the shape of the result. The substitution itself is stated by `CollapseSpaceKeeps`, `CollapseSpaceRun`, `CollapseSpacePlainPrefix` and `CollapseSpaceBetween`.
- NormalizeParagraphs: its own contract only bounds the result. The substitution is stated by `NormalizeParagraphsBreak`, `NormalizeParagraphsKeep`, `NormalizeParagraphsPlainPrefix` and `NormalizeParagraphsIdentity`, one break or one kept character at a time; a text with several breaks follows by chaining them but is not stated as one lemma.

=== FILE: counter.dfy ===
/** Python's `collections.Counter` and its `most_common(n)`. */
module Counter {
  import opened Seqs
  import opened Ranking

  /** `y` comes before `x` in `most_common`: counted more often, or as often and seen first. */
  predicate Outranks<T(==)>(s: seq<T>, y: T, x: T)
    requires x in s && y in s
  {
    Count(s, x) < Count(s, y) || (Count(s, x) == Count(s, y) && IndexOf(s, y) < IndexOf(s, x))
  }

  /** The count of an element, as a sort key. */
  function CountKey<T(==)>(s: seq<T>): (key: T -> real)
  {
    (x: T) => Count(s, x) as real
  }

  /**
   * The keys of `Counter(s).most_common(n)`: at most `n` distinct elements of `s`, by
   * descending count, equal counts in order of first occurrence; an element left out is
   * counted less often than every element kept, or as often but first seen later; nothing
   * when `n <= 0`.
   */
  function MostCommon<T(==)>(s: seq<T>, n: int): (r: seq<T>)
    ensures |r| == if n <= 0 then 0 else SliceLen(|Distinct(s)|, n)
    ensures NoDup(r)
    ensures forall i :: 0 <= i < |r| ==> r[i] in s
    ensures forall i, j :: 0 <= i < j < |r| ==> Count(s, r[i]) >= Count(s, r[j])
    ensures forall i, j :: 0 <= i < j < |r| && Count(s, r[i]) == Count(s, r[j]) ==> IndexOf(s, r[i]) < IndexOf(s, r[j])
    ensures forall x, i :: x in s && x !in r && 0 <= i < |r| ==>
              Outranks(s, r[i], x)
  {
    if n <= 0 then []
    else
      var ranked := SortDesc(Distinct(s), CountKey(s));
      var r := Slice(ranked, n);
      MostCommonProperties(s, ranked, r);
      r
  }

  lemma MostCommonProperties<T>(s: seq<T>, ranked: seq<T>, r: seq<T>)
    requires ranked == SortDesc(Distinct(s), CountKey(s)) && |r| <= |ranked| && r == ranked[..|r|]
    ensures NoDup(r)
    ensures forall i :: 0 <= i < |r| ==> r[i] in s
    ensures forall i, j :: 0 <= i < j < |r| ==> Count(s, r[i]) >= Count(s, r[j])
    ensures forall i, j :: 0 <= i < j < |r| && Count(s, r[i]) == Count(s, r[j]) ==> IndexOf(s, r[i]) < IndexOf(s, r[j])
    ensures forall x, i :: x in s && x !in r && 0 <= i < |r| ==>
              Outranks(s, r[i], x)
  {
    PrefixMembers(s, ranked, r);
    PrefixOrdered(s, ranked, r);
    PrefixStable(s, ranked, r);
    PrefixTop(s, ranked, r);
  }

  lemma PrefixMembers<T>(s: seq<T>, ranked: seq<T>, r: seq<T>)
    requires ranked == SortDesc(Distinct(s), CountKey(s)) && |r| <= |ranked| && r == ranked[..|r|]
    ensures NoDup(r)
    ensures forall i :: 0 <= i < |r| ==> r[i] in s
  {
    var d := Distinct(s);
    SortDescNoDup(d, CountKey(s));
    SortDescMembers(d, CountKey(s));
    forall i | 0 <= i < |r| ensures r[i] in s {
      assert r[i] == ranked[i];
      var t :| 0 <= t < |d| && d[t] == ranked[i];
    }
  }

  lemma PrefixOrdered<T>(s: seq<T>, ranked: seq<T>, r: seq<T>)
    requires ranked == SortDesc(Distinct(s), CountKey(s)) && |r| <= |ranked| && r == ranked[..|r|]
    ensures forall i, j :: 0 <= i < j < |r| ==> Count(s, r[i]) >= Count(s, r[j])
  {
    var key := CountKey(s);
    SortDescSorted(Distinct(s), key);
    forall i, j | 0 <= i < j < |r| ensures Count(s, r[i]) >= Count(s, r[j]) {
      assert key(ranked[i]) >= key(ranked[j]);
    }
  }

  lemma PrefixStable<T>(s: seq<T>, ranked: seq<T>, r: seq<T>)
    requires ranked == SortDesc(Distinct(s), CountKey(s)) && |r| <= |ranked| && r == ranked[..|r|]
    requires forall i :: 0 <= i < |r| ==> r[i] in s
    ensures forall i, j :: 0 <= i < j < |r| && Count(s, r[i]) == Count(s, r[j]) ==> IndexOf(s, r[i]) < IndexOf(s, r[j])
  {
    var d := Distinct(s);
    var key := CountKey(s);
    SortDescStable(d, key);
    forall i, j | 0 <= i < j < |r| && Count(s, r[i]) == Count(s, r[j])
      ensures IndexOf(s, r[i]) < IndexOf(s, r[j])
    {
      assert r[i] == ranked[i] && r[j] == ranked[j];
      assert key(ranked[i]) == key(ranked[j]);
      assert IndexOf(d, r[i]) < IndexOf(d, r[j]);
      DistinctOrder(s, r[i], r[j]);
    }
  }

  /** A left-out element is counted less often than a kept one, or as often but first seen later. */
  lemma PrefixTop<T>(s: seq<T>, ranked: seq<T>, r: seq<T>)
    requires ranked == SortDesc(Distinct(s), CountKey(s)) && |r| <= |ranked| && r == ranked[..|r|]
    requires forall i :: 0 <= i < |r| ==> r[i] in s
    ensures forall x, i :: x in s && x !in r && 0 <= i < |r| ==>
              Outranks(s, r[i], x)
  {
    var d := Distinct(s);
    var key := CountKey(s);
    SortDescSorted(d, key);
    SortDescStable(d, key);
    forall x, i | x in s && x !in r && 0 <= i < |r|
      ensures Outranks(s, r[i], x)
    {
      var q := RankedAfter(s, ranked, r, x);
      assert r[i] == ranked[i];
      assert key(ranked[i]) >= key(ranked[q]);
      if Count(s, x) == Count(s, r[i]) {
        assert key(ranked[i]) == key(ranked[q]);
        assert IndexOf(d, r[i]) < IndexOf(d, x);
        DistinctOrder(s, r[i], x);
      }
    }
  }

  /** An element of `s` missing from the prefix `r` is ranked after it. */
  lemma RankedAfter<T>(s: seq<T>, ranked: seq<T>, r: seq<T>, x: T) returns (q: nat)
    requires ranked == SortDesc(Distinct(s), CountKey(s)) && |r| <= |ranked| && r == ranked[..|r|]
    requires x in s && x !in r
    ensures |r| <= q < |ranked| && ranked[q] == x
  {
    var d := Distinct(s);
    SortDescMembers(d, CountKey(s));
    assert x in d;
    assert d[IndexOf(d, x)] in ranked;
    q :| 0 <= q < |ranked| && ranked[q] == x;
    assert forall u :: 0 <= u < |r| ==> ranked[u] != x;
  }

  /** Asking for at least as many elements as there are distinct ones returns every element. */
  lemma MostCommonComplete<T>(s: seq<T>, n: int, x: T)
    requires |Distinct(s)| <= n && x in s
    ensures x in MostCommon(s, n)
  {
    var d := Distinct(s);
    var ranked := SortDesc(d, CountKey(s));
    var k :| 0 <= k < |s| && s[k] == x;
    assert x in d;
    assert MostCommon(s, n) == ranked;
    SortDescMembers(d, CountKey(s));
    var t :| 0 <= t < |d| && d[t] == x;
  }
}

=== FILE: normalize.dfy ===
/**
 * The regular-expression substitutions of the cleaning pipeline, shared by
 * `src/processor.py` and `src/text_processor.py`, and the "terminators become
 * `.`, then split on `.`" step shared by their sentence splitters.
 */
module Normalize {
  import opened Seqs
  import opened PyStr

  /**
   * `re.sub(r'<[^>]+>', '', s)`: scanning left to right, a `<` followed by at least
   * one character other than `>` and then a `>` is deleted up to and including that `>`.
   */
  function RemoveTags(s: String): (r: String)
    ensures |r| <= |s|
    ensures forall i :: 0 <= i < |r| ==> r[i] in s
    decreases |s|
  {
    if s == [] then []
    else if s[0] == '<' && |s| >= 2 && s[1] != '>' && '>' in s[1..] then
      var k := IndexOf(s[1..], '>');
      var rest := RemoveTags(s[k + 2..]);
      assert forall i :: 0 <= i < |rest| ==> rest[i] in s by {
        forall i | 0 <= i < |rest| ensures rest[i] in s {
          var j :| 0 <= j < |s[k + 2..]| && s[k + 2..][j] == rest[i];
          assert s[k + 2 + j] == rest[i];
        }
      }
      rest
    else
      var rest := RemoveTags(s[1..]);
      assert forall i :: 0 <= i < |rest| ==> rest[i] in s by {
        forall i | 0 <= i < |rest| ensures rest[i] in s {
          var j :| 0 <= j < |s[1..]| && s[1..][j] == rest[i];
          assert s[1 + j] == rest[i];
        }
      }
      [s[0]] + rest
  }

  /** A first character that does not open a tag is kept. */
  lemma RemoveTagsKeep(s: String)
    requires s != [] && !(s[0] == '<' && |s| >= 2 && s[1] != '>' && '>' in s[1..])
    ensures RemoveTags(s) == [s[0]] + RemoveTags(s[1..])
  {
  }

  /**
   * A `<`, at least one character other than `>`, and the first `>` after them are deleted
   * together; scanning resumes after that `>`.
   */
  lemma RemoveTagsDrop(t: String, b: String)
    requires t != [] && '>' !in t
    ensures RemoveTags("<" + t + ">" + b) == RemoveTags(b)
  {
    var s := "<" + t + ">" + b;
    assert s[1..] == t + ">" + b;
    assert s[1..][|t|] == '>';
    assert IndexOf(s[1..], '>') == |t|;
    assert s[|t| + 2..] == b;
  }

  /** Text without `<` before the rest is kept as it is. */
  lemma {:induction false} RemoveTagsPlainPrefix(a: String, x: String)
    requires '<' !in a
    ensures RemoveTags(a + x) == a + RemoveTags(x)
    decreases |a|
  {
    if a != [] {
      assert a[0] != '<' by {
        assert a[0] in a;
      }
      RemoveTagsKeep(a + x);
      assert (a + x)[1..] == a[1..] + x;
      RemoveTagsPlainPrefix(a[1..], x);
      assert a + RemoveTags(x) == [a[0]] + (a[1..] + RemoveTags(x));
    } else {
      assert a + x == x;
    }
  }

  /** A well-formed tag is deleted whole. */
  lemma TagDeleted()
    ensures RemoveTags("a<b>c") == "ac"
  {
    var s := "a<b>c";
    RemoveTagsKeep(s[4..]);
    assert s[4..][1..] == [];
    assert s[1..][1..] == "b>c" && IndexOf("b>c", '>') == 1 && s[1..][3..] == s[4..];
    RemoveTagsKeep(s);
  }

  /** `<>` is not a tag. */
  lemma EmptyTagKept()
    ensures RemoveTags("a<>c") == "a<>c"
  {
    var s := "a<>c";
    RemoveTagsKeep(s[3..]);
    assert s[3..][1..] == [];
    RemoveTagsKeep(s[2..]);
    assert s[2..][1..] == s[3..];
    RemoveTagsKeep(s[1..]);
    assert s[1..][1..] == s[2..];
    RemoveTagsKeep(s);
  }

  /** `re.sub(pat, rep, s)` for a literal pattern: leftmost non-overlapping occurrences are replaced. */
  function ReplaceAll(s: String, pat: String, rep: String): (r: String)
    requires |pat| > 0
    ensures forall i :: 0 <= i < |r| ==> r[i] in s || r[i] in rep
    decreases |s|
  {
    if |s| < |pat| then s
    else if s[..|pat|] == pat then
      var rest := ReplaceAll(s[|pat|..], pat, rep);
      assert forall i :: 0 <= i < |rest| ==> rest[i] in s || rest[i] in rep by {
        forall i | 0 <= i < |rest| ensures rest[i] in s || rest[i] in rep {
          if rest[i] !in rep {
            var j :| 0 <= j < |s[|pat|..]| && s[|pat|..][j] == rest[i];
            assert s[|pat| + j] == rest[i];
          }
        }
      }
      rep + rest
    else
      var rest := ReplaceAll(s[1..], pat, rep);
      assert forall i :: 0 <= i < |rest| ==> rest[i] in s || rest[i] in rep by {
        forall i | 0 <= i < |rest| ensures rest[i] in s || rest[i] in rep {
          if rest[i] !in rep {
            var j :| 0 <= j < |s[1..]| && s[1..][j] == rest[i];
            assert s[1 + j] == rest[i];
          }
        }
      }
      [s[0]] + rest
  }

  /** An occurrence of the pattern at the front is replaced, and scanning resumes after it. */
  lemma ReplaceAllMatch(pat: String, rep: String, x: String)
    requires |pat| > 0
    ensures ReplaceAll(pat + x, pat, rep) == rep + ReplaceAll(x, pat, rep)
  {
    assert (pat + x)[..|pat|] == pat && (pat + x)[|pat|..] == x;
  }

  /** A first character that does not start the pattern is kept, and scanning resumes after it. */
  lemma ReplaceAllSkip(s: String, pat: String, rep: String)
    requires |pat| > 0 && s != [] && (|s| < |pat| || s[..|pat|] != pat)
    ensures ReplaceAll(s, pat, rep) == [s[0]] + ReplaceAll(s[1..], pat, rep)
  {
    if |s| < |pat| {
      assert s == [s[0]] + s[1..];
    }
  }

  /** Text in which the pattern cannot start is kept as it is, wherever it stands. */
  lemma {:induction false} ReplaceAllPlainPrefix(a: String, x: String, pat: String, rep: String)
    requires |pat| > 0 && pat[0] !in a
    ensures ReplaceAll(a + x, pat, rep) == a + ReplaceAll(x, pat, rep)
    decreases |a|
  {
    if a != [] {
      var s := a + x;
      assert a[0] != pat[0] by {
        assert a[0] in a;
      }
      assert |s| < |pat| || s[..|pat|][0] != pat[0];
      ReplaceAllSkip(s, pat, rep);
      assert s[1..] == a[1..] + x;
      ReplaceAllPlainPrefix(a[1..], x, pat, rep);
      var t := ReplaceAll(x, pat, rep);
      assert [a[0]] + (a[1..] + t) == a + t;
    } else {
      assert a + x == x;
    }
  }

  /** The first occurrence of the pattern is replaced when nothing before it can start one. */
  lemma ReplaceAllOccurrence(a: String, pat: String, rep: String, b: String)
    requires |pat| > 0 && pat[0] !in a
    ensures ReplaceAll(a + pat + b, pat, rep) == a + rep + ReplaceAll(b, pat, rep)
  {
    ReplaceAllPlainPrefix(a, pat + b, pat, rep);
    ReplaceAllMatch(pat, rep, b);
    assert a + pat + b == a + (pat + b);
  }

  /** Replacing a single character by itself changes nothing. */
  lemma {:induction false} ReplaceSelf(s: String, c: char)
    ensures ReplaceAll(s, [c], [c]) == s
    decreases |s|
  {
    if |s| >= 1 {
      ReplaceSelf(s[1..], c);
      if s[..1] == [c] {
        assert s == [c] + s[1..];
      } else {
        assert s == [s[0]] + s[1..];
      }
    }
  }

  /**
   * The tag and entity step (`_remove_html`): tags removed, `&nbsp;` to a space, `&amp;` to `&`,
   * then `<` and `>` each substituted by themselves.
   */
  function RemoveHtml(s: String): (r: String)
    ensures forall i :: 0 <= i < |r| ==> r[i] in s || r[i] in " &"
  {
    var t1 := RemoveTags(s);
    var t2 := ReplaceAll(t1, "&nbsp;", " ");
    var t3 := ReplaceAll(t2, "&amp;", "&");
    var t4 := ReplaceAll(t3, "<", "<");
    var t5 := ReplaceAll(t4, ">", ">");
    ReplaceSelf(t3, '<');
    ReplaceSelf(t4, '>');
    assert forall i :: 0 <= i < |t2| ==> t2[i] in s || t2[i] == ' ';
    assert forall i :: 0 <= i < |t3| ==> t3[i] in s || t3[i] == ' ' || t3[i] == '&';
    t5
  }

  /** Text without `<` has no tag to remove. */
  lemma {:induction false} RemoveTagsPlain(s: String)
    requires '<' !in s
    ensures RemoveTags(s) == s
    decreases |s|
  {
    if s != [] {
      RemoveTagsPlain(s[1..]);
      assert s == [s[0]] + s[1..];
    }
  }

  /** A pattern whose first character does not occur is never replaced. */
  lemma {:induction false} ReplaceAllAbsent(s: String, pat: String, rep: String)
    requires |pat| > 0 && pat[0] !in s
    ensures ReplaceAll(s, pat, rep) == s
    decreases |s|
  {
    if |s| >= |pat| {
      assert s[..|pat|][0] == s[0];
      ReplaceAllAbsent(s[1..], pat, rep);
      assert s == [s[0]] + s[1..];
    }
  }

  /** A tag between plain texts is removed. */
  lemma RemoveHtmlTag(a: String, t: String, b: String)
    requires '<' !in a && '&' !in a && '<' !in b && '&' !in b
    requires t != [] && '>' !in t
    ensures RemoveHtml(a + "<" + t + ">" + b) == a + b
  {
    var s := a + "<" + t + ">" + b;
    assert s == a + ("<" + t + ">" + b);
    RemoveTagsPlainPrefix(a, "<" + t + ">" + b);
    RemoveTagsDrop(t, b);
    RemoveTagsPlain(b);
    assert RemoveTags(s) == a + b;
    assert '&' !in a + b;
    ReplaceAllAbsent(a + b, "&nbsp;", " ");
    ReplaceAllAbsent(a + b, "&amp;", "&");
    ReplaceSelf(a + b, '<');
    ReplaceSelf(a + b, '>');
  }

  /** Replacing `&nbsp;` leaves `&amp;` between plain texts alone. */
  lemma NbspLeavesAmp(a: String, b: String)
    requires '&' !in a && '&' !in b
    ensures ReplaceAll(a + "&amp;" + b, "&nbsp;", " ") == a + "&amp;" + b
  {
    var t := "&amp;" + b;
    assert a + "&amp;" + b == a + t;
    ReplaceAllPlainPrefix(a, t, "&nbsp;", " ");
    assert |t| < 6 || t[..6][1] != "&nbsp;"[1];
    ReplaceAllSkip(t, "&nbsp;", " ");
    assert t[1..] == "amp;" + b;
    ReplaceAllAbsent("amp;" + b, "&nbsp;", " ");
    assert "&" + ("amp;" + b) == t;
  }

  /** `&amp;` between plain texts becomes `&`. */
  lemma RemoveHtmlAmp(a: String, b: String)
    requires '<' !in a && '&' !in a && '<' !in b && '&' !in b
    ensures RemoveHtml(a + "&amp;" + b) == a + "&" + b
  {
    var s := a + "&amp;" + b;
    assert '<' !in s;
    RemoveTagsPlain(s);
    NbspLeavesAmp(a, b);
    ReplaceAllOccurrence(a, "&amp;", "&", b);
    ReplaceAllAbsent(b, "&amp;", "&");
    ReplaceSelf(a + "&" + b, '<');
    ReplaceSelf(a + "&" + b, '>');
  }

  /** `&nbsp;` between plain texts becomes a space. */
  lemma RemoveHtmlNbsp(a: String, b: String)
    requires '<' !in a && '&' !in a && '<' !in b && '&' !in b
    ensures RemoveHtml(a + "&nbsp;" + b) == a + " " + b
  {
    var s := a + "&nbsp;" + b;
    assert '<' !in s;
    RemoveTagsPlain(s);
    ReplaceAllOccurrence(a, "&nbsp;", " ", b);
    ReplaceAllAbsent(b, "&nbsp;", " ");
    assert '&' !in a + " " + b;
    ReplaceAllAbsent(a + " " + b, "&amp;", "&");
    ReplaceSelf(a + " " + b, '<');
    ReplaceSelf(a + " " + b, '>');
  }

  /** Text without `<` or `&` passes `_remove_html` unchanged. */
  lemma RemoveHtmlPlain(s: String)
    requires '<' !in s && '&' !in s
    ensures RemoveHtml(s) == s
  {
    RemoveTagsPlain(s);
    ReplaceAllAbsent(s, "&nbsp;", " ");
    ReplaceAllAbsent(s, "&amp;", "&");
    ReplaceSelf(s, '<');
    ReplaceSelf(s, '>');
  }

  /** `re.sub(r'\s+', ' ', s)`: every whitespace run becomes one space. */
  function CollapseSpace(s: String): (r: String)
    ensures forall i :: 0 <= i < |r| ==> r[i] == ' ' || (r[i] in s && !IsSpace(r[i]))
    ensures |r| <= |s|
    ensures r != [] ==> (IsSpace(r[0]) <==> IsSpace(s[0]))
    ensures forall i :: 0 <= i < |r| - 1 ==> !(IsSpace(r[i]) && IsSpace(r[i + 1]))
    decreases |s|
  {
    if s == [] then []
    else if IsSpace(s[0]) then
      var n := LeadingSpace(s);
      var rest := CollapseSpace(s[n..]);
      assert forall i :: 0 <= i < |rest| ==> rest[i] == ' ' || (rest[i] in s && !IsSpace(rest[i])) by {
        forall i | 0 <= i < |rest| && rest[i] != ' ' ensures rest[i] in s && !IsSpace(rest[i]) {
          var j :| 0 <= j < |s[n..]| && s[n..][j] == rest[i];
          assert s[n + j] == rest[i];
        }
      }
      [' '] + rest
    else
      var rest := CollapseSpace(s[1..]);
      assert forall i :: 0 <= i < |rest| ==> rest[i] == ' ' || (rest[i] in s && !IsSpace(rest[i])) by {
        forall i | 0 <= i < |rest| && rest[i] != ' ' ensures rest[i] in s && !IsSpace(rest[i]) {
          var j :| 0 <= j < |s[1..]| && s[1..][j] == rest[i];
          assert s[1 + j] == rest[i];
        }
      }
      [s[0]] + rest
  }

  /** A whitespace run followed by a non-whitespace character (or nothing) is exactly the run. */
  lemma {:induction false} LeadingSpaceRun(w: String, x: String)
    requires forall i :: 0 <= i < |w| ==> IsSpace(w[i])
    requires x == [] || !IsSpace(x[0])
    ensures LeadingSpace(w + x) == |w|
    decreases |w|
  {
    if w != [] {
      assert (w + x)[1..] == w[1..] + x;
      LeadingSpaceRun(w[1..], x);
    } else {
      assert w + x == x;
    }
  }

  /** A whole whitespace run becomes a single space. */
  lemma CollapseSpaceRun(w: String, x: String)
    requires w != [] && forall i :: 0 <= i < |w| ==> IsSpace(w[i])
    requires x == [] || !IsSpace(x[0])
    ensures CollapseSpace(w + x) == " " + CollapseSpace(x)
  {
    LeadingSpaceRun(w, x);
    assert (w + x)[|w|..] == x;
  }

  /** A first character other than whitespace is kept. */
  lemma CollapseSpaceKeep(s: String)
    requires s != [] && !IsSpace(s[0])
    ensures CollapseSpace(s) == [s[0]] + CollapseSpace(s[1..])
  {
  }

  /** Text without whitespace in front of the rest is kept as it is. */
  lemma {:induction false} CollapseSpacePlainPrefix(a: String, x: String)
    requires forall i :: 0 <= i < |a| ==> !IsSpace(a[i])
    ensures CollapseSpace(a + x) == a + CollapseSpace(x)
    decreases |a|
  {
    if a != [] {
      var s := a + x;
      assert s[0] == a[0] && s[1..] == a[1..] + x;
      CollapseSpaceKeep(s);
      CollapseSpacePlainPrefix(a[1..], x);
      var t := CollapseSpace(x);
      assert [a[0]] + (a[1..] + t) == a + t;
    } else {
      assert a + x == x;
    }
  }

  /** A whitespace run between a word and the rest becomes exactly one space. */
  lemma CollapseSpaceBetween(a: String, w: String, b: String)
    requires forall i :: 0 <= i < |a| ==> !IsSpace(a[i])
    requires w != [] && forall i :: 0 <= i < |w| ==> IsSpace(w[i])
    requires b == [] || !IsSpace(b[0])
    ensures CollapseSpace(a + w + b) == a + " " + CollapseSpace(b)
  {
    var c := CollapseSpace(b);
    assert a + w + b == a + (w + b);
    CollapseSpacePlainPrefix(a, w + b);
    CollapseSpaceRun(w, b);
    assert a + (" " + c) == a + " " + c;
  }

  /** Collapsing whitespace keeps every other character, in order. */
  lemma {:induction false} CollapseSpaceKeeps(s: String)
    ensures Filter(CollapseSpace(s), NotSpace) == Filter(s, NotSpace)
    decreases |s|
  {
    if s != [] {
      if IsSpace(s[0]) {
        var n := LeadingSpace(s);
        CollapseSpaceKeeps(s[n..]);
        FilterCons(' ', CollapseSpace(s[n..]), NotSpace);
        BlankPrefixFilter(s, n);
      } else {
        CollapseSpaceKeeps(s[1..]);
        FilterCons(s[0], CollapseSpace(s[1..]), NotSpace);
        FilterCons(s[0], s[1..], NotSpace);
        assert s == [s[0]] + s[1..];
      }
    }
  }

  lemma FilterCons(c: char, x: String, p: char -> bool)
    ensures Filter([c] + x, p) == (if p(c) then [c] else []) + Filter(x, p)
  {
    FilterAppend([c], x, p);
    FilterSingle(c, p);
  }

  /** Dropping a blank prefix does not change the non-whitespace characters. */
  lemma BlankPrefixFilter(s: String, n: nat)
    requires n <= |s| && forall i :: 0 <= i < n ==> IsSpace(s[i])
    ensures Filter(s, NotSpace) == Filter(s[n..], NotSpace)
  {
    assert s == s[..n] + s[n..];
    FilterAppend(s[..n], s[n..], NotSpace);
    FilterNone(s[..n], NotSpace);
  }

  /** A test that fails everywhere keeps nothing. */
  lemma {:induction false} FilterNone(s: String, p: char -> bool)
    requires forall i :: 0 <= i < |s| ==> !p(s[i])
    ensures Filter(s, p) == []
    decreases |s|
  {
    if s != [] {
      FilterNone(s[..|s| - 1], p);
    }
  }

  /** The characters `_remove_special_chars` keeps: `\w`, whitespace and `. , ! ? -`. */
  predicate IsKept(c: char) {
    IsWordChar(c) || IsSpace(c) || c in ".,!?-"
  }

  /**
   * `re.sub(r'[^\w\s.,!?-]', '', s)`: the input with every character outside the class
   * deleted and every character inside it kept, in order.
   */
  function RemoveSpecialChars(s: String): (r: String)
    ensures forall i :: 0 <= i < |r| ==> r[i] in s && IsKept(r[i])
    ensures forall c :: c in r <==> c in s && IsKept(c)
    ensures forall c :: Count(r, c) == if IsKept(c) then Count(s, c) else 0
    ensures IsSubsequence(r, s)
  {
    var r := Filter(s, IsKept);
    forall c ensures c in r <==> c in s && IsKept(c) {
      FilterMembership(s, IsKept, c);
    }
    forall c ensures Count(r, c) == if IsKept(c) then Count(s, c) else 0 {
      FilterCount(s, IsKept, c);
    }
    FilterIsSubsequence(s, IsKept);
    r
  }

  function LastIndexOf(s: String, c: char): (k: nat)
    requires c in s
    ensures k < |s| && s[k] == c
    ensures forall j :: k < j < |s| ==> s[j] != c
  {
    if s[|s| - 1] == c then |s| - 1
    else
      assert c in s[..|s| - 1] by {
        var j :| 0 <= j < |s| && s[j] == c;
        assert s[..|s| - 1][j] == c;
      }
      LastIndexOf(s[..|s| - 1], c)
  }

  /**
   * Where a paragraph break `\n\s*\n` starting at the front of `s` ends: 0 when `s` does not
   * start with one, otherwise the index just after the last line feed of the whitespace run.
   */
  function BreakEnd(s: String): (k: nat)
    ensures k == 0 || 2 <= k <= |s|
    ensures k > 0 ==> s[0] == '\n'
  {
    if s == [] || s[0] != '\n' then 0
    else
      var run := s[1..1 + LeadingSpace(s[1..])];
      if '\n' in run then LastIndexOf(run, '\n') + 2 else 0
  }

  /**
   * `re.sub(r'\n\s*\n', '\n\n', s)`: a line feed, the whitespace after it, up to the last
   * line feed of that whitespace, becomes two line feeds.
   */
  function NormalizeParagraphs(s: String): (r: String)
    ensures |r| <= |s|
    ensures '\n' in r ==> '\n' in s
    decreases |s|
  {
    if s == [] then []
    else
      var k := BreakEnd(s);
      if k > 0 then
        "\n\n" + NormalizeParagraphs(s[k..])
      else
        var rest := NormalizeParagraphs(s[1..]);
        assert '\n' in rest ==> '\n' in s by {
          if '\n' in rest {
            var j :| 0 <= j < |s[1..]| && s[1..][j] == '\n';
            assert s[1 + j] == '\n';
          }
        }
        [s[0]] + rest
  }

  /** A line feed, whitespace and a closing line feed before a non-whitespace character end at that character. */
  lemma BreakEndRun(w: String, b: String)
    requires forall i :: 0 <= i < |w| ==> IsSpace(w[i])
    requires b == [] || !IsSpace(b[0])
    ensures BreakEnd("\n" + w + "\n" + b) == |w| + 2
  {
    var s := "\n" + w + "\n" + b;
    var run := w + "\n";
    assert s[1..] == run + b;
    LeadingSpaceRun(run, b);
    assert s[1..1 + |run|] == run && run[|w|] == '\n';
    assert LastIndexOf(run, '\n') == |w|;
  }

  /**
   * A line feed, a run of whitespace and a closing line feed followed by a non-whitespace
   * character (or nothing) become exactly two line feeds.
   */
  lemma NormalizeParagraphsBreak(w: String, b: String)
    requires forall i :: 0 <= i < |w| ==> IsSpace(w[i])
    requires b == [] || !IsSpace(b[0])
    ensures NormalizeParagraphs("\n" + w + "\n" + b) == "\n\n" + NormalizeParagraphs(b)
  {
    var s := "\n" + w + "\n" + b;
    BreakEndRun(w, b);
    assert s[|w| + 2..] == b;
  }

  /** A first character other than a line feed is kept. */
  lemma NormalizeParagraphsKeep(s: String)
    requires s != [] && s[0] != '\n'
    ensures NormalizeParagraphs(s) == [s[0]] + NormalizeParagraphs(s[1..])
  {
  }

  /** Text without a line feed in front of the rest is kept as it is. */
  lemma {:induction false} NormalizeParagraphsPlainPrefix(a: String, x: String)
    requires '\n' !in a
    ensures NormalizeParagraphs(a + x) == a + NormalizeParagraphs(x)
    decreases |a|
  {
    if a != [] {
      assert a[0] != '\n' by {
        assert a[0] in a;
      }
      var s := a + x;
      assert s[0] == a[0] && s[1..] == a[1..] + x;
      NormalizeParagraphsKeep(s);
      NormalizeParagraphsPlainPrefix(a[1..], x);
      var t := NormalizeParagraphs(x);
      assert [a[0]] + (a[1..] + t) == a + t;
    } else {
      assert a + x == x;
    }
  }

  /** Without a line feed there is nothing for `_normalize_paragraphs` to do. */
  lemma {:induction false} NormalizeParagraphsIdentity(s: String)
    requires '\n' !in s
    ensures NormalizeParagraphs(s) == s
    decreases |s|
  {
    if s != [] {
      NormalizeParagraphsIdentity(s[1..]);
      assert s == [s[0]] + s[1..];
    }
  }

  /** `!` and `?` become `.`, then the text is cut at every `.` (`text.split('.')`). */
  function TerminatorPieces(text: String): (pieces: seq<String>)
    ensures forall i :: 0 <= i < |pieces| ==> '.' !in pieces[i] && '!' !in pieces[i] && '?' !in pieces[i]
  {
    var t := ReplaceChar(ReplaceChar(text, '!', '.'), '?', '.');
    var pieces := SplitOn(t, '.');
    forall i, j | 0 <= i < |pieces| && 0 <= j < |pieces[i]| ensures pieces[i][j] != '!' && pieces[i][j] != '?' {
      assert pieces[i][j] in t;
    }
    pieces
  }

  /** Each piece stripped (`s.strip()` for each `s` in the pieces). */
  function StripAll(pieces: seq<String>): (r: seq<String>)
    ensures |r| == |pieces|
  {
    seq(|pieces|, i requires 0 <= i < |pieces| => Strip(pieces[i]))
  }

  /** `.`, `!` and `?` each start a new piece: one more piece than terminators. */
  lemma TerminatorPiecesCount(text: String)
    ensures |TerminatorPieces(text)| == 1 + Count(text, '.') + Count(text, '!') + Count(text, '?')
  {
    var t1 := ReplaceChar(text, '!', '.');
    var t := ReplaceChar(t1, '?', '.');
    assert TerminatorPieces(text) == SplitOn(t, '.');
    SplitOnCount(t, '.');
    ReplaceCharCount(t1, '?', '.');
    ReplaceCharCount(text, '!', '.');
    ReplaceCharCountOther(text, '!', '.', '?');
    assert Count(t, '.') == Count(t1, '?') + Count(t1, '.');
    assert Count(t1, '.') == Count(text, '!') + Count(text, '.');
  }

  /** A text without terminators is a single piece. */
  lemma TerminatorPiecesNone(text: String)
    requires '.' !in text && '!' !in text && '?' !in text
    ensures TerminatorPieces(text) == [text]
  {
    var t1 := ReplaceChar(text, '!', '.');
    var t := ReplaceChar(t1, '?', '.');
    assert t1 == text;
    assert t == text;
  }

  /** A character that may appear in cleaned text: a space, or a lower-case `\w` character or `. , ! ? -`. */
  predicate IsCleanChar(c: char) {
    c == ' ' || (!IsUpper(c) && (IsWordChar(c) || c in ".,!?-"))
  }

  /** A non-space character left by the cleaning stages is a kept, non-whitespace character of their input. */
  lemma CleanStagesChar(t1: String, c: char)
    requires NoUpper(t1)
    requires c in RemoveSpecialChars(CollapseSpace(RemoveHtml(t1))) && c != ' '
    ensures c in t1 && !IsSpace(c) && IsKept(c) && !IsUpper(c)
  {
    var t2 := RemoveHtml(t1);
    var t3 := CollapseSpace(t2);
    assert c in t3 && IsKept(c);
    var j :| 0 <= j < |t3| && t3[j] == c;
    assert t3[j] in t2 && !IsSpace(c);
    var k :| 0 <= k < |t2| && t2[k] == c;
    assert c != '&';
    assert t2[k] in t1;
    var m :| 0 <= m < |t1| && t1[m] == c;
  }

  /**
   * The steps both cleaners share, in their order: lower-case, remove tags and entities,
   * collapse whitespace, drop special characters. What is left is spaces and characters
   * of the lower-cased text that are `\w` or `. , ! ? -`.
   */
  function Scrub(text: String): (r: String)
    ensures forall i :: 0 <= i < |r| ==> r[i] == ' ' || (r[i] in Lower(text) && !IsSpace(r[i]) && IsKept(r[i]))
    ensures forall i :: 0 <= i < |r| ==> IsCleanChar(r[i])
  {
    var t1 := Lower(text);
    var t4 := RemoveSpecialChars(CollapseSpace(RemoveHtml(t1)));
    forall i | 0 <= i < |t4| && t4[i] != ' '
      ensures t4[i] in t1 && !IsSpace(t4[i]) && IsKept(t4[i]) && !IsUpper(t4[i])
    {
      CleanStagesChar(t1, t4[i]);
    }
    t4
  }
}

=== FILE: processor.dfy ===
/**
 * `TextProcessor` of src/processor.py: cleaning, sentence splitting with a length filter,
 * keyword extraction, text statistics and Jaccard similarity. The NLTK stopword list is
 * the parameter `stop`.
 */
module Processor {
  import opened Seqs
  import opened PyStr
  import opened Normalize
  import opened Counter
  import opened Stats

  /**
   * `clean`: the empty text stays empty; otherwise the text is lower-cased, stripped of tags
   * and entities, whitespace-collapsed, freed of special characters, paragraph-normalised and
   * stripped. What is left has no upper-case letter, no whitespace but single-character
   * spaces, no `<`, `>` or `&`, and no space at either end.
   */
  function Clean(text: String): (r: String)
    ensures text == [] ==> r == []
    ensures Cleaned(text, r)
  {
    if text == [] then []
    else
      var s := Scrub(text);
      var r := Strip(NormalizeParagraphs(s));
      CleanCharsKept(text, s, r);
      r
  }

  /**
   * What cleaning leaves of `text`: no upper-case letter, only clean characters, each a space
   * or a character of the lower-cased text, no `<`, `>`, `&`, newline or tab, and no space at
   * either end.
   */
  predicate Cleaned(text: String, r: String) {
    NoUpper(r) &&
    (forall i :: 0 <= i < |r| ==> IsCleanChar(r[i])) &&
    (forall i :: 0 <= i < |r| ==> r[i] == ' ' || r[i] in Lower(text)) &&
    '<' !in r && '>' !in r && '&' !in r && '\n' !in r && '\t' !in r &&
    (r != [] ==> r[0] != ' ' && r[|r| - 1] != ' ')
  }

  /** Stripping keeps every property of the characters `Scrub` leaves. */
  lemma CleanCharsKept(text: String, s: String, r: String)
    requires s == Scrub(text) && r == Strip(NormalizeParagraphs(s))
    ensures Cleaned(text, r)
  {
    NormalizeParagraphsInert(s);
    forall i | 0 <= i < |r| ensures IsCleanChar(r[i]) {
      var j :| 0 <= j < |s| && s[j] == r[i];
    }
    forall i | 0 <= i < |r| ensures r[i] == ' ' || r[i] in Lower(text) {
      var j :| 0 <= j < |s| && s[j] == r[i];
    }
    CleanCharsExclude(r);
  }

  /** Text made of clean characters has no upper-case letter, tag bracket, ampersand, newline or tab. */
  lemma CleanCharsExclude(r: String)
    requires forall i :: 0 <= i < |r| ==> IsCleanChar(r[i])
    ensures NoUpper(r)
    ensures '<' !in r && '>' !in r && '&' !in r && '\n' !in r && '\t' !in r
  {
  }

  /** `clean` on a non-empty text whose pipeline stages are known. */
  lemma CleanStages(text: String, lowered: String, plain: String, collapsed: String, kept: String)
    requires text != []
    requires Lower(text) == lowered && RemoveHtml(lowered) == plain && CollapseSpace(plain) == collapsed
    requires RemoveSpecialChars(collapsed) == kept && '\n' !in kept
    ensures Clean(text) == Strip(kept)
  {
    assert Scrub(text) == kept;
    NormalizeParagraphsIdentity(kept);
  }

  /** `_normalize_paragraphs` changes nothing in `clean`: whitespace is collapsed before it runs. */
  lemma NormalizeParagraphsInert(s: String)
    requires forall i :: 0 <= i < |s| ==> IsCleanChar(s[i])
    ensures '\n' !in s
    ensures NormalizeParagraphs(s) == s
  {
    assert !IsCleanChar('\n');
    NormalizeParagraphsIdentity(s);
  }

  /**
   * `clean` is not idempotent: removing `@` leaves the two spaces around it, which a second
   * cleaning collapses.
   */
  lemma CleanNotIdempotent()
    ensures Clean("a @ b") == "a  b"
    ensures Clean("a  b") == "a b"
    ensures Clean(Clean("a @ b")) != Clean("a @ b")
  {
    CleanAtSign();
    CleanDoubleSpace();
  }

  lemma CleanAtSign()
    ensures Clean("a @ b") == "a  b"
  {
    AtSignUnmarked();
    CollapseAtSign();
    RemoveAtSign();
    DoubleSpaceStripped();
    CleanStages("a @ b", "a @ b", "a @ b", "a @ b", "a  b");
  }

  lemma CleanDoubleSpace()
    ensures Clean("a  b") == "a b"
  {
    DoubleSpaceUnmarked();
    CollapseDoubleSpace();
    SingleSpaceKept();
    SingleSpaceStripped();
    CleanStages("a  b", "a  b", "a  b", "a b", "a b");
  }

  lemma AtSignUnmarked()
    ensures Lower("a @ b") == "a @ b" && RemoveHtml("a @ b") == "a @ b"
  {
    LowerPlain("a @ b");
    RemoveHtmlPlain("a @ b");
  }

  lemma DoubleSpaceUnmarked()
    ensures Lower("a  b") == "a  b" && RemoveHtml("a  b") == "a  b"
  {
    LowerPlain("a  b");
    RemoveHtmlPlain("a  b");
  }

  lemma DoubleSpaceStripped()
    ensures '\n' !in "a  b" && Strip("a  b") == "a  b"
  {
  }

  lemma SingleSpaceStripped()
    ensures '\n' !in "a b" && Strip("a b") == "a b"
  {
  }

  lemma SingleSpaceKept()
    ensures RemoveSpecialChars("a b") == "a b"
  {
    var s := "a b";
    assert forall i :: 0 <= i < |s| ==> IsKept(s[i]) by {
      assert s[0] == 'a' && s[1] == ' ' && s[2] == 'b';
    }
    FilterAll(s, IsKept);
  }

  lemma LowerPlain(s: String)
    requires NoUpper(s)
    ensures Lower(s) == s
  {
  }

  lemma CollapseAtSign()
    ensures CollapseSpace("a @ b") == "a @ b"
  {
    var s := "a @ b";
    assert s[1..] == " @ b" && s[1..][1..] == "@ b" && s[2..][1..] == " b" && s[3..][1..] == "b";
    assert LeadingSpace(" @ b") == 1 && LeadingSpace(" b") == 1;
  }

  lemma CollapseDoubleSpace()
    ensures CollapseSpace("a  b") == "a b"
  {
    var s := "a  b";
    assert s[1..] == "  b" && "  b"[1..] == " b" && " b"[1..] == "b";
    assert LeadingSpace("  b") == 2;
    assert "  b"[2..] == "b";
  }

  lemma RemoveAtSign()
    ensures RemoveSpecialChars("a @ b") == "a  b"
  {
    var s := "a @ b";
    assert IsKept('a') && IsKept(' ') && !IsKept('@') && IsKept('b');
    assert s[..4][..3] == s[..3] && s[..3][..2] == s[..2] && s[..2][..1] == s[..1] && s[..1][..0] == [];
    assert Filter(s[..1], IsKept) == "a";
    assert Filter(s[..2], IsKept) == "a ";
    assert Filter(s[..3], IsKept) == "a ";
    assert Filter(s[..4], IsKept) == "a  ";
    assert s[..5] == s;
  }

  /** `split_into_sentences` keeps a stripped piece when it is non-empty and has more than three words. */
  predicate IsLongSentence(s: String) {
    s != [] && |Split(s)| > 3
  }

  /** The stripped pieces among `pieces` that pass the filter, in their order. */
  function KeepSentences(pieces: seq<String>): (r: seq<String>)
    ensures |r| <= |pieces|
    ensures forall i :: 0 <= i < |r| ==> IsLongSentence(r[i])
  {
    if pieces == [] then []
    else
      var t := Strip(pieces[|pieces| - 1]);
      KeepSentences(pieces[..|pieces| - 1]) + (if IsLongSentence(t) then [t] else [])
  }

  /** What `split_into_sentences` returns for `text`. */
  function Sentences(text: String): seq<String>
  {
    KeepSentences(TerminatorPieces(text))
  }

  /** A sentence as `split_into_sentences` emits it. */
  predicate WellFormedSentence(s: String) {
    IsLongSentence(s) && !IsSpace(s[0]) && !IsSpace(s[|s| - 1])
    && '.' !in s && '!' !in s && '?' !in s
  }

  /**
   * Every sentence is stripped, non-empty, longer than three words and free of `.`, `!`, `?`;
   * there are at most as many sentences as pieces.
   */
  lemma {:induction false} SentencesWellFormed(text: String)
    ensures |Sentences(text)| <= 1 + Count(text, '.') + Count(text, '!') + Count(text, '?')
    ensures forall i :: 0 <= i < |Sentences(text)| ==> WellFormedSentence(Sentences(text)[i])
  {
    TerminatorPiecesCount(text);
    KeptWellFormed(TerminatorPieces(text));
  }

  lemma {:induction false} KeptWellFormed(pieces: seq<String>)
    requires forall i :: 0 <= i < |pieces| ==> '.' !in pieces[i] && '!' !in pieces[i] && '?' !in pieces[i]
    ensures forall i :: 0 <= i < |KeepSentences(pieces)| ==> WellFormedSentence(KeepSentences(pieces)[i])
  {
    if pieces != [] {
      var init := pieces[..|pieces| - 1];
      assert forall i :: 0 <= i < |init| ==> init[i] == pieces[i];
      KeptWellFormed(init);
      var t := Strip(pieces[|pieces| - 1]);
      assert '.' !in t && '!' !in t && '?' !in t;
      var r0 := KeepSentences(init);
      var r := KeepSentences(pieces);
      assert r == r0 + (if IsLongSentence(t) then [t] else []);
      forall i | 0 <= i < |r| ensures WellFormedSentence(r[i]) {
        if i < |r0| {
          assert r[i] == r0[i];
        }
      }
    }
  }

  /**
   * A piece that passes the filter is kept, one that does not is dropped, and the kept ones
   * come out in the order of the pieces.
   */
  lemma {:induction false} KeepSentencesStep(pieces: seq<String>, i: nat)
    requires i < |pieces|
    ensures KeepSentences(pieces[..i + 1]) ==
      KeepSentences(pieces[..i]) + (if IsLongSentence(Strip(pieces[i])) then [Strip(pieces[i])] else [])
  {
    assert pieces[..i + 1][..i] == pieces[..i];
  }

  /**
   * The sentences are exactly the stripped pieces that pass the filter, in their order
   * (the list the loop builds equals a filter over the stripped pieces).
   */
  lemma {:induction false} KeepSentencesFilter(pieces: seq<String>)
    ensures KeepSentences(pieces) == Filter(StripAll(pieces), IsLongSentence)
  {
    if pieces != [] {
      var n := |pieces|;
      KeepSentencesFilter(pieces[..n - 1]);
      var stripped := StripAll(pieces);
      assert stripped[..n - 1] == StripAll(pieces[..n - 1]);
      assert stripped[n - 1] == Strip(pieces[n - 1]);
      FilterLast(stripped, IsLongSentence);
    }
  }

  /** Every piece whose stripped form passes the filter appears among the sentences. */
  lemma {:induction false} KeepSentencesComplete(pieces: seq<String>, i: nat)
    requires i < |pieces| && IsLongSentence(Strip(pieces[i]))
    ensures Strip(pieces[i]) in KeepSentences(pieces)
  {
    if i < |pieces| - 1 {
      KeepSentencesComplete(pieces[..|pieces| - 1], i);
    }
  }

  /** `split_into_sentences`: the loop over the `.`-pieces after `!` and `?` become `.`. */
  method SplitIntoSentences(text: String) returns (sentences: seq<String>)
    ensures sentences == Sentences(text)
    ensures forall i :: 0 <= i < |sentences| ==> WellFormedSentence(sentences[i])
  {
    var pieces := TerminatorPieces(text);
    sentences := [];
    for i := 0 to |pieces|
      invariant sentences == KeepSentences(pieces[..i])
    {
      var sentence := Strip(pieces[i]);
      KeepSentencesStep(pieces, i);
      if IsLongSentence(sentence) {
        sentences := sentences + [sentence];
      }
    }
    assert pieces[..|pieces|] == pieces;
    SentencesWellFormed(text);
  }

  /** The filter of `extract_keywords`: alphabetic and not a stopword. */
  function IsCandidate(stop: set<String>): (p: String -> bool)
  {
    (w: String) => IsAlphaWord(w) && w !in stop
  }

  /** The words `extract_keywords` counts: lower-cased tokens that are alphabetic and not stopwords. */
  function KeywordCandidates(text: String, stop: set<String>): (words: seq<String>)
    ensures forall i :: 0 <= i < |words| ==> IsAlphaWord(words[i]) && words[i] !in stop
    ensures forall w :: w in words <==> w in Split(Lower(text)) && IsAlphaWord(w) && w !in stop
  {
    var words := Filter(Split(Lower(text)), IsCandidate(stop));
    forall w ensures w in words <==> w in Split(Lower(text)) && IsAlphaWord(w) && w !in stop {
      FilterMembership(Split(Lower(text)), IsCandidate(stop), w);
    }
    words
  }

  /**
   * `extract_keywords`: `min(n, d)` of the `d` distinct alphabetic non-stopword tokens of the
   * lower-cased text, by descending count, equal counts in order of first occurrence; every
   * word left out is outranked by every word kept.
   */
  function ExtractKeywords(text: String, n: int, stop: set<String>): (r: seq<String>)
    ensures n <= 0 ==> r == []
    ensures |r| == if n <= 0 then 0 else SliceLen(|Distinct(KeywordCandidates(text, stop))|, n)
    ensures NoDup(r)
    ensures forall i :: 0 <= i < |r| ==> IsAlphaWord(r[i]) && r[i] !in stop && r[i] in Split(Lower(text))
    ensures forall i, j :: 0 <= i < j < |r| ==>
      Count(KeywordCandidates(text, stop), r[i]) >= Count(KeywordCandidates(text, stop), r[j])
    ensures forall i, j :: 0 <= i < j < |r| && Count(KeywordCandidates(text, stop), r[i]) == Count(KeywordCandidates(text, stop), r[j]) ==>
      IndexOf(KeywordCandidates(text, stop), r[i]) < IndexOf(KeywordCandidates(text, stop), r[j])
    ensures forall w, i :: w in KeywordCandidates(text, stop) && w !in r && 0 <= i < |r| ==>
      Outranks(KeywordCandidates(text, stop), r[i], w)
  {
    MostCommon(KeywordCandidates(text, stop), n)
  }

  /** Every candidate comes back when no more distinct candidates exist than are asked for. */
  lemma KeywordsAllWhenFew(text: String, n: int, stop: set<String>, w: String)
    requires |Distinct(KeywordCandidates(text, stop))| <= n
    requires w in Split(Lower(text)) && IsAlphaWord(w) && w !in stop
    ensures w in ExtractKeywords(text, n, stop)
  {
    MostCommonComplete(KeywordCandidates(text, stop), n, w);
  }

  /**
   * `get_text_stats`: the sentence count of `split_into_sentences`, the whitespace-token count,
   * words per sentence (0 without sentences) and the reading time of that many words.
   */
  function GetTextStats(text: String): (st: TextStats)
    ensures st.numSentences == |Sentences(text)| && st.numWords == |Split(text)|
    ensures st.numSentences == 0 ==> st.avgSentenceLength == 0.0
    ensures st.numSentences > 0 ==> st.avgSentenceLength == st.numWords as real / st.numSentences as real
    ensures st.readingTime == ReadingTime(st.numWords)
    ensures st.readingTime >= 1
    ensures st.numWords <= 100 ==> st.readingTime == 1
  {
    MakeTextStats(|Sentences(text)|, |Split(text)|)
  }

  /** The words `calculate_similarity` compares: alphabetic tokens, lower-cased, minus stopwords. */
  function WordSet(text: String, stop: set<String>): (ws: set<String>)
    ensures forall w :: w in ws ==> IsAlphaWord(w) && NoUpper(w) && w !in stop
  {
    set w | w in Split(text) && IsAlphaWord(w) && Lower(w) !in stop :: Lower(w)
  }

  /**
   * `calculate_similarity`: the Jaccard index of the two word sets, 0 when both are empty.
   * It lies in [0, 1] and is 1 exactly when the two non-empty word sets coincide.
   */
  function CalculateSimilarity(text1: String, text2: String, stop: set<String>): (r: real)
    ensures 0.0 <= r <= 1.0
    ensures WordSet(text1, stop) == {} && WordSet(text2, stop) == {} ==> r == 0.0
    ensures r == 1.0 <==> WordSet(text1, stop) == WordSet(text2, stop) != {}
    ensures r == 0.0 <==> WordSet(text1, stop) * WordSet(text2, stop) == {}
  {
    Jaccard(WordSet(text1, stop), WordSet(text2, stop))
  }

  /** `intersection / union if union > 0 else 0.0` for two word sets. */
  function Jaccard(a: set<String>, b: set<String>): (r: real)
    ensures 0.0 <= r <= 1.0
    ensures r == 1.0 <==> a == b != {}
    ensures r == 0.0 <==> a * b == {}
  {
    var intersection := |a * b|;
    var union := |a + b|;
    JaccardBounds(a, b);
    if union > 0 then
      RatioBounds(intersection, union);
      intersection as real / union as real
    else 0.0
  }

  lemma JaccardBounds(a: set<String>, b: set<String>)
    ensures |a * b| <= |a + b|
    ensures |a + b| == 0 <==> a == {} && b == {}
    ensures |a * b| == |a + b| <==> a == b
    ensures |a * b| == 0 <==> a * b == {}
  {
    assert |a + b| == |a - b| + |b - a| + |a * b| by {
      assert a + b == (a - b) + (b - a) + (a * b);
      assert (a - b) * (b - a) == {};
      assert ((a - b) + (b - a)) * (a * b) == {};
    }
    if |a * b| == |a + b| {
      assert a - b == {};
      assert b - a == {};
    }
    if a == b {
      assert a * b == a + b;
    }
  }

  /** A count over a positive total lies in [0, 1], reaching 1 exactly at the total and 0 exactly at 0. */
  lemma RatioBounds(part: nat, total: nat)
    requires 0 < total && part <= total
    ensures 0.0 <= part as real / total as real <= 1.0
    ensures part as real / total as real == 1.0 <==> part == total
    ensures part as real / total as real == 0.0 <==> part == 0
  {
    var r := part as real / total as real;
    assert r * total as real == part as real;
  }

  /** `calculate_similarity` does not depend on the order of its arguments. */
  lemma SimilaritySymmetric(text1: String, text2: String, stop: set<String>)
    ensures CalculateSimilarity(text1, text2, stop) == CalculateSimilarity(text2, text1, stop)
  {
    var a := WordSet(text1, stop);
    var b := WordSet(text2, stop);
    assert a * b == b * a && a + b == b + a;
  }
}

=== FILE: pystr.dfy ===
/**
 * Python `str` primitives used by the text processors: character classes,
 * `lower`, `split()` on whitespace, `strip()`, `split(sep)`, `sep.join`,
 * `replace` of one character, and the `in` test between strings.
 * Character classes follow Python on ASCII.
 */
module PyStr {
  import opened Seqs

  type String = seq<char>

  /** `str.isspace` on ASCII: tab, line feed, vertical tab, form feed, carriage return, the separators 0x1C-0x1F, space. */
  predicate IsSpace(c: char) {
    9 <= c as int <= 13 || 28 <= c as int <= 32
  }

  predicate NotSpace(c: char) { !IsSpace(c) }

  predicate IsUpper(c: char) { 'A' <= c <= 'Z' }

  predicate IsAlpha(c: char) { 'a' <= c <= 'z' || 'A' <= c <= 'Z' }

  predicate IsDigit(c: char) { '0' <= c <= '9' }

  /** The regular-expression class `\w`. */
  predicate IsWordChar(c: char) { IsAlpha(c) || IsDigit(c) || c == '_' }

  function LowerChar(c: char): (d: char)
    ensures !IsUpper(d)
    ensures !IsUpper(c) ==> d == c
    ensures IsSpace(d) == IsSpace(c) && IsAlpha(d) == IsAlpha(c) && IsDigit(d) == IsDigit(c)
    ensures IsWordChar(d) == IsWordChar(c)
  {
    if IsUpper(c) then (c as int + 32) as char else c
  }

  predicate NoUpper(s: String) {
    forall i :: 0 <= i < |s| ==> !IsUpper(s[i])
  }

  /** `str.lower()`: no upper-case letter is left, and every other character is kept. */
  function Lower(s: String): (r: String)
    ensures |r| == |s| && NoUpper(r)
    ensures forall i :: 0 <= i < |s| ==> r[i] == LowerChar(s[i])
  {
    seq(|s|, i requires 0 <= i < |s| => LowerChar(s[i]))
  }

  lemma LowerAppend(a: String, b: String)
    ensures Lower(a + b) == Lower(a) + Lower(b)
  {
    assert Lower(a + b) == Lower(a) + Lower(b);
  }

  /** `str.isalpha()`: non-empty and alphabetic throughout. */
  predicate IsAlphaWord(w: String) {
    |w| > 0 && forall i :: 0 <= i < |w| ==> IsAlpha(w[i])
  }

  /** `str.isalnum()`: non-empty and alphanumeric throughout. */
  predicate IsAlnumWord(w: String) {
    |w| > 0 && forall i :: 0 <= i < |w| ==> IsAlpha(w[i]) || IsDigit(w[i])
  }

  predicate IsBlank(s: String) {
    forall i :: 0 <= i < |s| ==> IsSpace(s[i])
  }

  /** A token of `split()`: non-empty, no whitespace. */
  predicate IsToken(w: String) {
    |w| > 0 && forall i :: 0 <= i < |w| ==> !IsSpace(w[i])
  }

  /** Length of the leading run of non-whitespace characters. */
  function WordEnd(s: String): (k: nat)
    ensures k <= |s|
    ensures forall i :: 0 <= i < k ==> !IsSpace(s[i])
    ensures k == |s| || IsSpace(s[k])
  {
    if s == [] || IsSpace(s[0]) then 0 else 1 + WordEnd(s[1..])
  }

  /** `str.split()` with no argument: the maximal runs of non-whitespace characters, in order. */
  function Split(s: String): (words: seq<String>)
    ensures forall i :: 0 <= i < |words| ==> IsToken(words[i])
    decreases |s|
  {
    if s == [] then []
    else if IsSpace(s[0]) then Split(s[1..])
    else
      var k := WordEnd(s);
      [s[..k]] + Split(s[k..])
  }

  lemma {:induction false} WordEndAppend(a: String, t: String)
    requires t != [] && IsSpace(t[0])
    ensures WordEnd(a + t) == WordEnd(a)
    decreases |a|
  {
    if a != [] && !IsSpace(a[0]) {
      assert (a + t)[1..] == a[1..] + t;
      WordEndAppend(a[1..], t);
    }
  }

  /** Splitting around one whitespace character splits each side separately. */
  lemma {:induction false} SplitAround(a: String, c: char, b: String)
    requires IsSpace(c)
    ensures Split(a + [c] + b) == Split(a) + Split(b)
    decreases |a|
  {
    var s := a + [c] + b;
    if a == [] {
      assert s[1..] == b;
    } else if IsSpace(a[0]) {
      assert s[1..] == a[1..] + [c] + b;
      SplitAround(a[1..], c, b);
    } else {
      var k := WordEnd(a);
      WordEndAppend(a, [c] + b);
      assert s == a + ([c] + b);
      assert s[..k] == a[..k];
      assert s[k..] == a[k..] + [c] + b;
      SplitAround(a[k..], c, b);
    }
  }

  /** A string with no whitespace is its own single token. */
  lemma SplitToken(w: String)
    requires IsToken(w)
    ensures Split(w) == [w]
  {
    assert WordEnd(w) == |w|;
    assert w[..|w|] == w;
    assert w[|w|..] == [];
  }

  /** `sep.join(parts)`. */
  function Join(parts: seq<String>, sep: String): (r: String)
  {
    if |parts| == 0 then []
    else if |parts| == 1 then parts[0]
    else Join(parts[..|parts| - 1], sep) + sep + parts[|parts| - 1]
  }

  lemma {:induction false} JoinCons(p: String, ps: seq<String>, sep: String)
    requires ps != []
    ensures Join([p] + ps, sep) == p + sep + Join(ps, sep)
    decreases |ps|
  {
    var qs := [p] + ps;
    if |ps| > 1 {
      assert qs[..|qs| - 1] == [p] + ps[..|ps| - 1];
      JoinCons(p, ps[..|ps| - 1], sep);
    }
  }

  /** A character in neither the separator nor any part is not in the joined text. */
  lemma {:induction false} JoinExcludes(parts: seq<String>, sep: String, c: char)
    requires c !in sep && forall i :: 0 <= i < |parts| ==> c !in parts[i]
    ensures c !in Join(parts, sep)
    decreases |parts|
  {
    if |parts| > 1 {
      JoinExcludes(parts[..|parts| - 1], sep, c);
    }
  }

  /** The joined text is at least as long as its first part. */
  lemma {:induction false} JoinFirst(parts: seq<String>, sep: String)
    requires parts != []
    ensures |Join(parts, sep)| >= |parts[0]|
    decreases |parts|
  {
    if |parts| > 1 {
      JoinFirst(parts[..|parts| - 1], sep);
    }
  }

  /** A character that is once in the separator and never in a part occurs once between each two parts. */
  lemma {:induction false} JoinCountSep(parts: seq<String>, sep: String, c: char)
    requires parts != [] && Count(sep, c) == 1
    requires forall i :: 0 <= i < |parts| ==> c !in parts[i]
    ensures Count(Join(parts, sep), c) == |parts| - 1
    decreases |parts|
  {
    if |parts| > 1 {
      var init := parts[..|parts| - 1];
      JoinCountSep(init, sep, c);
      CountAppend(Join(init, sep), sep, c);
      CountAppend(Join(init, sep) + sep, parts[|parts| - 1], c);
    }
  }

  /** A character once in every part and never in the separator occurs once per part. */
  lemma {:induction false} JoinCountEach(parts: seq<String>, sep: String, c: char)
    requires Count(sep, c) == 0
    requires forall i :: 0 <= i < |parts| ==> Count(parts[i], c) == 1
    ensures Count(Join(parts, sep), c) == |parts|
    decreases |parts|
  {
    if |parts| > 1 {
      var init := parts[..|parts| - 1];
      JoinCountEach(init, sep, c);
      CountAppend(Join(init, sep), sep, c);
      CountAppend(Join(init, sep) + sep, parts[|parts| - 1], c);
    }
  }

  /** Lower-casing a joined text lower-cases each part and the separator. */
  lemma {:induction false} LowerJoin(parts: seq<String>, sep: String)
    ensures Lower(Join(parts, sep)) == Join(seq(|parts|, i requires 0 <= i < |parts| => Lower(parts[i])), Lower(sep))
    decreases |parts|
  {
    var lowered := seq(|parts|, i requires 0 <= i < |parts| => Lower(parts[i]));
    if |parts| > 1 {
      var init := parts[..|parts| - 1];
      LowerJoin(init, sep);
      LowerAppend(Join(init, sep), sep);
      LowerAppend(Join(init, sep) + sep, parts[|parts| - 1]);
      assert lowered[..|lowered| - 1] == seq(|init|, i requires 0 <= i < |init| => Lower(init[i]));
    }
  }

  /** The words of a space-joined list are the words of its parts, in order. */
  lemma {:induction false} SplitJoin(parts: seq<String>)
    ensures Split(Join(parts, " ")) == Flatten(seq(|parts|, i requires 0 <= i < |parts| => Split(parts[i])))
    decreases |parts|
  {
    var ws := seq(|parts|, i requires 0 <= i < |parts| => Split(parts[i]));
    if |parts| == 1 {
      assert Flatten(ws) == Flatten(ws[..0]) + ws[0];
    } else if |parts| > 1 {
      var init := parts[..|parts| - 1];
      SplitJoin(init);
      SplitAround(Join(init, " "), ' ', parts[|parts| - 1]);
      assert ws[..|ws| - 1] == seq(|init|, i requires 0 <= i < |init| => Split(init[i]));
    }
  }

  /** Number of leading whitespace characters. */
  function LeadingSpace(s: String): (n: nat)
    ensures n <= |s|
    ensures forall i :: 0 <= i < n ==> IsSpace(s[i])
    ensures n < |s| ==> !IsSpace(s[n])
  {
    if s != [] && IsSpace(s[0]) then 1 + LeadingSpace(s[1..]) else 0
  }

  /** Number of trailing whitespace characters. */
  function TrailingSpace(s: String): (n: nat)
    ensures n <= |s|
    ensures forall i :: |s| - n <= i < |s| ==> IsSpace(s[i])
    ensures n < |s| ==> !IsSpace(s[|s| - 1 - n])
  {
    if s != [] && IsSpace(s[|s| - 1]) then 1 + TrailingSpace(s[..|s| - 1]) else 0
  }

  /** `str.strip()`: the text between the leading and the trailing whitespace. */
  function Strip(s: String): (r: String)
    ensures exists i, j :: 0 <= i <= j <= |s| && r == s[i..j] && IsBlank(s[..i]) && IsBlank(s[j..])
    ensures r == [] <==> IsBlank(s)
    ensures r != [] ==> !IsSpace(r[0]) && !IsSpace(r[|r| - 1])
    ensures forall i :: 0 <= i < |r| ==> r[i] in s
    ensures (s == [] || (!IsSpace(s[0]) && !IsSpace(s[|s| - 1]))) ==> r == s
  {
    var a := LeadingSpace(s);
    if a == |s| then
      assert [] == s[a..a] && IsBlank(s[..a]) && IsBlank(s[a..]);
      []
    else
      var t := TrailingSpace(s);
      assert a < |s| - t;
      var r := s[a..|s| - t];
      assert forall i :: 0 <= i < |r| ==> r[i] == s[a + i];
      assert IsBlank(s[..a]) && IsBlank(s[|s| - t..]);
      r
  }

  /** `str.split(sep)` for a one-character separator: the pieces between separators, empty ones included. */
  function SplitOn(s: String, sep: char): (pieces: seq<String>)
    ensures |pieces| >= 1
    ensures forall i :: 0 <= i < |pieces| ==> sep !in pieces[i]
    ensures forall i, j :: 0 <= i < |pieces| && 0 <= j < |pieces[i]| ==> pieces[i][j] in s
    decreases |s|
  {
    if sep !in s then [s]
    else
      var k := IndexOf(s, sep);
      var rest := SplitOn(s[k + 1..], sep);
      assert forall j :: 0 <= j < k ==> s[..k][j] == s[j];
      [s[..k]] + rest
  }

  /** There is one more piece than separators. */
  lemma {:induction false} SplitOnCount(s: String, sep: char)
    ensures |SplitOn(s, sep)| == 1 + Count(s, sep)
    decreases |s|
  {
    if sep in s {
      var k := IndexOf(s, sep);
      var pre, post := s[..k], s[k + 1..];
      SplitOnCount(post, sep);
      assert SplitOn(s, sep) == [pre] + SplitOn(post, sep);
      Around(s, k);
      CountAppend(pre + [sep], post, sep);
      CountAppend(pre, [sep], sep);
      assert sep !in pre;
      assert Count([sep], sep) == 1;
    } else {
      assert Count(s, sep) == 0;
    }
  }

  /** Joining the pieces with the separator gives the text back. */
  lemma {:induction false} JoinSplitOn(s: String, sep: char)
    ensures Join(SplitOn(s, sep), [sep]) == s
    decreases |s|
  {
    if sep in s {
      var k := IndexOf(s, sep);
      var pre, post := s[..k], s[k + 1..];
      JoinSplitOn(post, sep);
      assert SplitOn(s, sep) == [pre] + SplitOn(post, sep);
      JoinCons(pre, SplitOn(post, sep), [sep]);
      Around(s, k);
    } else {
      assert SplitOn(s, sep) == [s];
    }
  }

  /** `str.replace(a, b)` for single characters. */
  function ReplaceChar(s: String, a: char, b: char): (r: String)
    ensures |r| == |s|
    ensures a != b ==> a !in r
    ensures forall i :: 0 <= i < |s| ==> r[i] == if s[i] == a then b else s[i]
  {
    seq(|s|, i requires 0 <= i < |s| => if s[i] == a then b else s[i])
  }

  /** After the replacement, `b` occurs once for each former `a` or `b`. */
  lemma {:induction false} ReplaceCharCount(s: String, a: char, b: char)
    requires a != b
    ensures Count(ReplaceChar(s, a, b), b) == Count(s, a) + Count(s, b)
    decreases |s|
  {
    if s != [] {
      var s' := s[..|s| - 1];
      ReplaceCharCount(s', a, b);
      var r := ReplaceChar(s, a, b);
      var last := s[|s| - 1];
      assert r[..|s| - 1] == ReplaceChar(s', a, b);
      assert r[|s| - 1] == if last == a then b else last;
      assert Count(s, a) == Count(s', a) + (if last == a then 1 else 0);
      assert Count(s, b) == Count(s', b) + (if last == b then 1 else 0);
      assert Count(r, b) == Count(ReplaceChar(s', a, b), b) + (if r[|s| - 1] == b then 1 else 0);
    }
  }

  lemma {:induction false} ReplaceCharCountOther(s: String, a: char, b: char, c: char)
    requires c != a && c != b
    ensures Count(ReplaceChar(s, a, b), c) == Count(s, c)
    decreases |s|
  {
    if s != [] {
      var s' := s[..|s| - 1];
      ReplaceCharCountOther(s', a, b, c);
      var r := ReplaceChar(s, a, b);
      var last := s[|s| - 1];
      assert r[..|s| - 1] == ReplaceChar(s', a, b);
      assert r[|s| - 1] == if last == a then b else last;
      assert Count(s, c) == Count(s', c) + (if last == c then 1 else 0);
      assert Count(r, c) == Count(ReplaceChar(s', a, b), c) + (if r[|s| - 1] == c then 1 else 0);
    }
  }

  predicate IsPrefix(x: String, y: String) {
    |x| <= |y| && y[..|x|] == x
  }

  /** Python's `x in y` between strings: `x` occurs in `y` as a contiguous block. */
  predicate Contains(y: String, x: String)
    decreases |y|
  {
    IsPrefix(x, y) || (y != [] && Contains(y[1..], x))
  }

  /** The test against an empty haystack: only the empty string occurs in it. */
  lemma ContainsInEmpty(x: String)
    ensures Contains([], x) <==> x == []
  {
  }
}

=== FILE: ranking.dfy ===
/**
 * Stable sorting by a descending key (Python's `sorted(..., key=..., reverse=True)`
 * and `list.sort(key=..., reverse=True)`), and the top-k selection built on it.
 */
module Ranking {
  import opened Seqs

  /** Places `x` after every element of `s` with a larger key and before the rest. */
  function Insert<T(==)>(x: T, s: seq<T>, key: T -> real): (r: seq<T>)
    ensures |r| == |s| + 1
    ensures multiset(r) == multiset(s) + multiset{x}
  {
    if s == [] || key(s[0]) <= key(x) then [x] + s
    else
      assert s == [s[0]] + s[1..];
      [s[0]] + Insert(x, s[1..], key)
  }

  /** Stable sort by descending key: among equal keys the original order is kept. */
  function SortDesc<T(==)>(xs: seq<T>, key: T -> real): (r: seq<T>)
    ensures |r| == |xs| && multiset(r) == multiset(xs)
  {
    if xs == [] then []
    else
      assert xs == [xs[0]] + xs[1..];
      Insert(xs[0], SortDesc(xs[1..], key), key)
  }

  predicate NonIncreasing<T>(s: seq<T>, key: T -> real) {
    forall i, j :: 0 <= i < j < |s| ==> key(s[i]) >= key(s[j])
  }

  /** `x` lands at position `p`: everything before has a strictly larger key, everything after a key no larger. */
  lemma {:induction false} InsertAt<T>(x: T, s: seq<T>, key: T -> real) returns (p: nat)
    requires NonIncreasing(s, key)
    ensures p <= |s| && Insert(x, s, key)[p] == x
    ensures forall q :: 0 <= q < p ==> Insert(x, s, key)[q] == s[q] && key(s[q]) > key(x)
    ensures forall q :: p <= q < |s| ==> Insert(x, s, key)[q + 1] == s[q] && key(s[q]) <= key(x)
    decreases |s|
  {
    if s == [] || key(s[0]) <= key(x) {
      p := 0;
      assert forall q :: 0 <= q < |s| ==> key(s[q]) <= key(s[0]);
    } else {
      var t := s[1..];
      assert NonIncreasing(t, key) by {
        forall i, j | 0 <= i < j < |t| ensures key(t[i]) >= key(t[j]) {
          assert t[i] == s[i + 1] && t[j] == s[j + 1];
        }
      }
      var p' := InsertAt(x, t, key);
      p := p' + 1;
      var r := Insert(x, s, key);
      assert r == [s[0]] + Insert(x, t, key);
      forall q | 0 < q < p ensures r[q] == s[q] && key(s[q]) > key(x) {
        assert r[q] == Insert(x, t, key)[q - 1] && t[q - 1] == s[q];
      }
      forall q | p <= q < |s| ensures r[q + 1] == s[q] && key(s[q]) <= key(x) {
        assert r[q + 1] == Insert(x, t, key)[q] && t[q - 1] == s[q];
      }
    }
  }

  lemma {:induction false} SortDescSorted<T>(xs: seq<T>, key: T -> real)
    ensures NonIncreasing(SortDesc(xs, key), key)
    decreases |xs|
  {
    if xs != [] {
      var rest := SortDesc(xs[1..], key);
      SortDescSorted(xs[1..], key);
      var p := InsertAt(xs[0], rest, key);
      var r := SortDesc(xs, key);
      assert r == Insert(xs[0], rest, key);
      forall i, j | 0 <= i < j < |r| ensures key(r[i]) >= key(r[j]) {
        if j < p {
          assert r[i] == rest[i] && r[j] == rest[j];
        } else if j == p {
          assert r[i] == rest[i];
        } else if i < p {
          assert r[i] == rest[i] && r[j] == rest[j - 1];
        } else if i == p {
          assert r[j] == rest[j - 1];
        } else {
          assert r[i] == rest[i - 1] && r[j] == rest[j - 1];
        }
      }
    }
  }

  lemma SortDescMembers<T>(xs: seq<T>, key: T -> real)
    ensures forall i :: 0 <= i < |SortDesc(xs, key)| ==> SortDesc(xs, key)[i] in xs
    ensures forall i :: 0 <= i < |xs| ==> xs[i] in SortDesc(xs, key)
  {
    var r := SortDesc(xs, key);
    forall i | 0 <= i < |r| ensures r[i] in xs {
      assert r[i] in multiset(r);
    }
    forall i | 0 <= i < |xs| ensures xs[i] in r {
      assert xs[i] in multiset(xs);
    }
  }

  lemma {:induction false} SortDescNoDup<T>(xs: seq<T>, key: T -> real)
    requires NoDup(xs)
    ensures NoDup(SortDesc(xs, key))
  {
    var r := SortDesc(xs, key);
    forall i, j | 0 <= i < j < |r| ensures r[i] != r[j] {
      if r[i] == r[j] {
        TwoOccurrences(r, i, j);
        NoDupMultiplicity(xs, r[i]);
        assert false;
      }
    }
  }

  lemma TwoOccurrences<T>(s: seq<T>, i: nat, j: nat)
    requires i < j < |s| && s[i] == s[j]
    ensures multiset(s)[s[i]] >= 2
  {
    var x := s[i];
    var a, b, c := s[..i], s[i + 1..j], s[j + 1..];
    assert s == a + [x] + b + [x] + c;
    assert multiset(s) == multiset(a) + multiset{x} + multiset(b) + multiset{x} + multiset(c);
  }

  lemma {:induction false} NoDupMultiplicity<T>(xs: seq<T>, x: T)
    requires NoDup(xs)
    ensures multiset(xs)[x] <= 1
    decreases |xs|
  {
    if xs != [] {
      assert xs == [xs[0]] + xs[1..];
      NoDupMultiplicity(xs[1..], x);
      if xs[0] == x {
        assert x !in xs[1..];
      }
    }
  }

  /** Every element of `r` is in `xs`, and elements of `r` with equal keys appear in their `xs` order. */
  predicate StableWrt<T(==)>(r: seq<T>, xs: seq<T>, key: T -> real) {
    && (forall i :: 0 <= i < |r| ==> r[i] in xs)
    && (forall i, j :: 0 <= i < j < |r| && key(r[i]) == key(r[j]) ==> IndexOf(xs, r[i]) < IndexOf(xs, r[j]))
  }

  lemma IndexOfTail<T>(xs: seq<T>, y: T)
    requires NoDup(xs) && xs != [] && y in xs[1..]
    ensures y != xs[0] && IndexOf(xs, y) == 1 + IndexOf(xs[1..], y)
  {
    assert xs[1 + IndexOf(xs[1..], y)] == y;
  }

  /** Ties keep their original order: of two elements with equal keys, the one earlier in `xs` comes first. */
  lemma {:induction false} SortDescStable<T>(xs: seq<T>, key: T -> real)
    requires NoDup(xs)
    ensures StableWrt(SortDesc(xs, key), xs, key)
    decreases |xs|
  {
    SortDescMembers(xs, key);
    if xs != [] {
      var tail := xs[1..];
      var rest := SortDesc(tail, key);
      SortDescStable(tail, key);
      SortDescSorted(tail, key);
      var p := InsertAt(xs[0], rest, key);
      var r := SortDesc(xs, key);
      assert r == Insert(xs[0], rest, key);
      forall i, j | 0 <= i < j < |r| && key(r[i]) == key(r[j])
        ensures IndexOf(xs, r[i]) < IndexOf(xs, r[j])
      {
        StableStep(xs, key, rest, r, p, i, j);
      }
    }
  }

  lemma StableStep<T>(xs: seq<T>, key: T -> real, rest: seq<T>, r: seq<T>, p: nat, i: nat, j: nat)
    requires NoDup(xs) && xs != [] && |rest| == |xs| - 1 && |r| == |xs|
    requires StableWrt(rest, xs[1..], key)
    requires p <= |rest| && r[p] == xs[0]
    requires forall q :: 0 <= q < p ==> r[q] == rest[q] && key(rest[q]) > key(xs[0])
    requires forall q :: p <= q < |rest| ==> r[q + 1] == rest[q]
    requires 0 <= i < j < |r| && key(r[i]) == key(r[j])
    ensures r[i] in xs && r[j] in xs && IndexOf(xs, r[i]) < IndexOf(xs, r[j])
  {
    if j < p {
      IndexOfTail(xs, rest[i]);
      IndexOfTail(xs, rest[j]);
    } else if i < p && p < j {
      IndexOfTail(xs, rest[i]);
      IndexOfTail(xs, rest[j - 1]);
    } else if i == p {
      IndexOfTail(xs, rest[j - 1]);
    } else if p < i {
      IndexOfTail(xs, rest[i - 1]);
      IndexOfTail(xs, rest[j - 1]);
    }
  }

  /** Two keys that agree on the elements give the same order. */
  lemma {:induction false} SortDescCongruent<T>(xs: seq<T>, k1: T -> real, k2: T -> real)
    requires forall i :: 0 <= i < |xs| ==> k1(xs[i]) == k2(xs[i])
    ensures SortDesc(xs, k1) == SortDesc(xs, k2)
    decreases |xs|
  {
    if xs != [] {
      SortDescCongruent(xs[1..], k1, k2);
      SortDescMembers(xs[1..], k1);
      InsertCongruent(xs[0], SortDesc(xs[1..], k1), k1, k2);
    }
  }

  lemma {:induction false} InsertCongruent<T>(x: T, s: seq<T>, k1: T -> real, k2: T -> real)
    requires k1(x) == k2(x) && forall i :: 0 <= i < |s| ==> k1(s[i]) == k2(s[i])
    ensures Insert(x, s, k1) == Insert(x, s, k2)
    decreases |s|
  {
    if s != [] {
      InsertCongruent(x, s[1..], k1, k2);
    }
  }

  /** Key of an index: its score, so that sorting `range(n)` sorts positions by score. */
  function ScoreKey(scores: seq<real>): (key: nat -> real)
  {
    (i: nat) => if i < |scores| then scores[i] else 0.0
  }

  /** Python's `sorted` on a list of indices: ascending. */
  function SortAsc(xs: seq<nat>): (r: seq<nat>)
    ensures |r| == |xs| && multiset(r) == multiset(xs)
    ensures forall i, j :: 0 <= i < j < |r| ==> r[i] <= r[j]
  {
    var r := SortDesc(xs, (i: nat) => -(i as real));
    SortDescSorted(xs, (i: nat) => -(i as real));
    r
  }

  /**
   * `sel` lists, in ascending order, `min(k, n)` positions (`k` as in Python's `[:k]`)
   * that outrank every position left out: a higher score, or an equal score and a lower
   * position.
   */
  predicate IsTopSelection(scores: seq<real>, k: int, sel: seq<nat>) {
    && |sel| == SliceLen(|scores|, k)
    && (forall a, b :: 0 <= a < b < |sel| ==> sel[a] < sel[b])
    && (forall a :: 0 <= a < |sel| ==> sel[a] < |scores|)
    && (forall i, j :: i in sel && 0 <= j < |scores| && j !in sel ==>
          scores[i] > scores[j] || (scores[i] == scores[j] && i < j))
  }

  /**
   * The indices of the top `k` scores (`k` as in Python's `[:k]`), ties going to the
   * lower index, listed in ascending order: positions ranked by a stable descending
   * sort, cut to `k`, and re-sorted.
   */
  function TopIndices(scores: seq<real>, k: int): (sel: seq<nat>)
    ensures IsTopSelection(scores, k, sel)
    ensures |sel| == SliceLen(|scores|, k)
    ensures forall a, b :: 0 <= a < b < |sel| ==> sel[a] < sel[b]
    ensures forall a :: 0 <= a < |sel| ==> sel[a] < |scores|
    ensures forall i, j :: i in sel && 0 <= j < |scores| && j !in sel ==>
              scores[i] > scores[j] || (scores[i] == scores[j] && i < j)
  {
    var n := |scores|;
    var ranked := SortDesc(Range(n), ScoreKey(scores));
    var chosen := Slice(ranked, k);
    var sel := SortAsc(chosen);
    TopIndicesProperties(scores, k, ranked, chosen, sel);
    sel
  }

  /** Sorting distinct indices gives a strictly increasing sequence with the same members. */
  lemma SortAscDistinct(xs: seq<nat>)
    requires NoDup(xs)
    ensures forall a, b :: 0 <= a < b < |SortAsc(xs)| ==> SortAsc(xs)[a] < SortAsc(xs)[b]
    ensures forall x :: x in SortAsc(xs) <==> x in xs
  {
    var r := SortAsc(xs);
    SortDescNoDup(xs, (i: nat) => -(i as real));
    forall x ensures x in r <==> x in xs {
      assert x in r <==> x in multiset(r);
      assert x in xs <==> x in multiset(xs);
    }
  }

  /** Each chosen index outranks each index left out: a higher score, or an equal score and a lower index. */
  lemma TopChosen(scores: seq<real>, ranked: seq<nat>, m: nat, i: nat, j: nat)
    requires ranked == SortDesc(Range(|scores|), ScoreKey(scores)) && m <= |ranked|
    requires i in ranked[..m] && i < |scores| && j < |scores| && j !in ranked[..m]
    ensures scores[i] > scores[j] || (scores[i] == scores[j] && i < j)
  {
    var n := |scores|;
    var key := ScoreKey(scores);
    var p, q := RankPositions(scores, ranked, m, i, j);
    SortDescSorted(Range(n), key);
    assert key(ranked[p]) >= key(ranked[q]);
    if scores[i] == scores[j] {
      SortDescStable(Range(n), key);
      assert key(ranked[p]) == key(ranked[q]);
      IndexOfNoDup(Range(n), i);
      IndexOfNoDup(Range(n), j);
    }
  }

  /** A chosen index is ranked before an index left out. */
  lemma RankPositions(scores: seq<real>, ranked: seq<nat>, m: nat, i: nat, j: nat) returns (p: nat, q: nat)
    requires ranked == SortDesc(Range(|scores|), ScoreKey(scores)) && m <= |ranked|
    requires i in ranked[..m] && j < |scores| && j !in ranked[..m]
    ensures p < q < |ranked| && ranked[p] == i && ranked[q] == j
  {
    SortDescMembers(Range(|scores|), ScoreKey(scores));
    p :| 0 <= p < m && ranked[..m][p] == i;
    assert Range(|scores|)[j] == j;
    q :| 0 <= q < |ranked| && ranked[q] == j;
  }

  lemma TopIndicesProperties(scores: seq<real>, k: int, ranked: seq<nat>, chosen: seq<nat>, sel: seq<nat>)
    requires ranked == SortDesc(Range(|scores|), ScoreKey(scores))
    requires chosen == Slice(ranked, k) && sel == SortAsc(chosen)
    ensures forall a, b :: 0 <= a < b < |sel| ==> sel[a] < sel[b]
    ensures forall a :: 0 <= a < |sel| ==> sel[a] < |scores|
    ensures forall i, j :: i in sel && 0 <= j < |scores| && j !in sel ==>
              scores[i] > scores[j] || (scores[i] == scores[j] && i < j)
  {
    var n := |scores|;
    var key := ScoreKey(scores);
    SortDescNoDup(Range(n), key);
    SortDescMembers(Range(n), key);
    assert chosen == ranked[..|chosen|];
    assert NoDup(chosen);
    SortAscDistinct(chosen);
    forall a | 0 <= a < |sel| ensures sel[a] < n {
      assert sel[a] in chosen;
      var t :| 0 <= t < |chosen| && chosen[t] == sel[a];
      assert ranked[t] == sel[a];
      assert ranked[t] in Range(n);
    }
    forall i, j | i in sel && 0 <= j < n && j !in sel
      ensures scores[i] > scores[j] || (scores[i] == scores[j] && i < j)
    {
      TopChosen(scores, ranked, |chosen|, i, j);
    }
  }

  /** There is only one top selection: the top `k` positions are fixed by the scores. */
  lemma TopSelectionUnique(scores: seq<real>, k: int, s1: seq<nat>, s2: seq<nat>)
    requires IsTopSelection(scores, k, s1) && IsTopSelection(scores, k, s2)
    ensures s1 == s2
  {
    forall x | x in s2 ensures x in s1 {
      TopContained(scores, k, s1, s2, x);
    }
    IncreasingCard(s1);
    IncreasingCard(s2);
    SubsetSameSize(Members(s2), Members(s1));
    IncreasingSameMembers(s1, s2);
  }

  lemma TopContained(scores: seq<real>, k: int, s1: seq<nat>, s2: seq<nat>, x: nat)
    requires IsTopSelection(scores, k, s1) && IsTopSelection(scores, k, s2) && x in s2
    ensures x in s1
  {
    if x !in s1 {
      var j := OutsideOther(s2, s1);
      assert false;
    }
  }

  /** Of two selections of equal length where one has an element the other lacks, the other has one too. */
  lemma OutsideOther(s1: seq<nat>, s2: seq<nat>) returns (j: nat)
    requires |s1| == |s2|
    requires forall a, b :: 0 <= a < b < |s1| ==> s1[a] < s1[b]
    requires forall a, b :: 0 <= a < b < |s2| ==> s2[a] < s2[b]
    requires exists x :: x in s1 && x !in s2
    ensures j in s2 && j !in s1
  {
    var m1 := Members(s1);
    var m2 := Members(s2);
    IncreasingCard(s1);
    IncreasingCard(s2);
    var x :| x in s1 && x !in s2;
    assert x in m1 && x !in m2;
    if m2 <= m1 {
      SubsetSameSize(m2, m1);
      assert false;
    }
    j :| j in m2 && j !in m1;
  }

  /** The members of `s`, as a set. */
  function Members(s: seq<nat>): (m: set<nat>)
    ensures forall x :: x in m <==> x in s
  {
    if s == [] then {}
    else
      MembersSnoc(s);
      Members(s[..|s| - 1]) + {s[|s| - 1]}
  }

  /** A strictly increasing sequence has as many members as elements. */
  lemma {:induction false} IncreasingCard(s: seq<nat>)
    requires forall a, b :: 0 <= a < b < |s| ==> s[a] < s[b]
    ensures |Members(s)| == |s|
    decreases |s|
  {
    if s != [] {
      var t := s[..|s| - 1];
      var last := s[|s| - 1];
      IncreasingCard(t);
      assert last !in Members(t) by {
        forall i | 0 <= i < |t| ensures t[i] != last {
          assert t[i] == s[i];
        }
      }
    }
  }

  /** A subset as large as its superset is the whole superset. */
  lemma {:induction false} SubsetSameSize<T>(a: set<T>, b: set<T>)
    requires a <= b && |a| == |b|
    ensures a == b
    decreases |b|
  {
    if b != {} {
      var x :| x in b;
      if x in a {
        SubsetSameSize(a - {x}, b - {x});
        assert a == (a - {x}) + {x} && b == (b - {x}) + {x};
      } else {
        SubsetSmaller(a, b - {x});
      }
    }
  }

  lemma {:induction false} SubsetSmaller<T>(a: set<T>, b: set<T>)
    requires a <= b
    ensures |a| <= |b|
    decreases |b|
  {
    if b != {} {
      var x :| x in b;
      SubsetSmaller(a - {x}, b - {x});
    }
  }

  /** Two strictly increasing sequences with the same members are equal. */
  lemma {:induction false} IncreasingSameMembers(s1: seq<nat>, s2: seq<nat>)
    requires forall a, b :: 0 <= a < b < |s1| ==> s1[a] < s1[b]
    requires forall a, b :: 0 <= a < b < |s2| ==> s2[a] < s2[b]
    requires forall x :: x in s1 <==> x in s2
    ensures s1 == s2
    decreases |s1|
  {
    assert s1 != [] <==> s2 != [] by {
      if s1 != [] {
        assert s1[0] in s2;
      }
      if s2 != [] {
        assert s2[0] in s1;
      }
    }
    if s1 != [] {
      assert s1[0] == s2[0] by {
        FirstIsLeast(s1, s2[0]);
        FirstIsLeast(s2, s1[0]);
      }
      forall x ensures x in s1[1..] <==> x in s2[1..] {
        if x in s1[1..] {
          TailMember(s1, s2, x);
        }
        if x in s2[1..] {
          TailMember(s2, s1, x);
        }
      }
      IncreasingSameMembers(s1[1..], s2[1..]);
      assert s1 == [s1[0]] + s1[1..] && s2 == [s2[0]] + s2[1..];
    }
  }

  /** The first element of a strictly increasing sequence is its least. */
  lemma FirstIsLeast(s: seq<nat>, x: nat)
    requires forall a, b :: 0 <= a < b < |s| ==> s[a] < s[b]
    requires x in s
    ensures s[0] <= x
  {
    var i :| 0 <= i < |s| && s[i] == x;
  }

  lemma TailMember(s1: seq<nat>, s2: seq<nat>, x: nat)
    requires forall a, b :: 0 <= a < b < |s1| ==> s1[a] < s1[b]
    requires forall a, b :: 0 <= a < b < |s2| ==> s2[a] < s2[b]
    requires forall x :: x in s1 <==> x in s2
    requires s1 != [] && s2 != [] && s1[0] == s2[0] && x in s1[1..]
    ensures x in s2[1..]
  {
    var i :| 0 <= i < |s1| - 1 && s1[1..][i] == x;
    assert s1[i + 1] == x && s1[0] < x;
    assert x in s2;
    var j :| 0 <= j < |s2| && s2[j] == x;
    assert j != 0;
    assert s2[1..][j - 1] == x;
  }
}

=== FILE: rounding.dfy ===
/** Python's built-in `round` applied to an exact rational value, and `max`/`min` on integers. */
module Rounding {

  /** `max(a, b)` on two integers. */
  function Max(a: int, b: int): int { if a < b then b else a }

  /** `min(a, b)` on two integers. */
  function Min(a: int, b: int): int { if a < b then a else b }

  /** `round(x)`: the nearest integer, a tie going to the even neighbour. */
  function RoundHalfEven(x: real): (r: int)
    ensures x - 0.5 <= r as real <= x + 0.5
    ensures (r as real == x - 0.5 || r as real == x + 0.5) ==> r % 2 == 0
  {
    var f := x.Floor;
    var d := x - f as real;
    if d < 0.5 then f
    else if d > 0.5 then f + 1
    else if f % 2 == 0 then f
    else f + 1
  }

  /** Rounding never reverses an order. */
  lemma RoundMonotone(x: real, y: real)
    requires x <= y
    ensures RoundHalfEven(x) <= RoundHalfEven(y)
  {
  }

  /** Rounding an integer gives it back. */
  lemma RoundInteger(n: int)
    ensures RoundHalfEven(n as real) == n
  {
  }

  /** An integer within 0.5 of `x`, even at an exact half, is `round(x)`: the two clauses fix it. */
  lemma RoundUnique(x: real, k: int)
    requires x - 0.5 <= k as real <= x + 0.5
    requires (k as real == x - 0.5 || k as real == x + 0.5) ==> k % 2 == 0
    ensures k == RoundHalfEven(x)
  {
  }

  /** The same for `min(n, round(x))`: at most `n`, within 0.5 of `x` below `n`, even at a half. */
  lemma CappedRoundUnique(x: real, n: int, k: int)
    requires k <= n && k as real <= x + 0.5
    requires k < n ==> x - 0.5 <= k as real
    requires k as real == x + 0.5 ==> k % 2 == 0
    requires k < n && k as real == x - 0.5 ==> k % 2 == 0
    ensures Min(n, RoundHalfEven(x)) == k
  {
    if k < n {
      RoundUnique(x, k);
    }
  }
}

=== FILE: run_analyzer.dfy ===
/**
 * The analysis steps of `DefenseNewsAnalyzer` in run_analyzer.py that need neither the network
 * nor the file system: keyword counting across articles, the common keywords and common
 * themes, the pairwise similarity report, the empty-input guards and the site name of a URL.
 */
module RunAnalyzer {
  import opened Wrappers
  import opened Seqs
  import opened PyStr
  import opened Ranking
  import opened Counter
  import Processor

  /** The fields of a processed article the analysis reads. */
  datatype Article = Article(title: String, content: String, keywords: seq<String>)

  /** The positions `(i, j)` of two articles. */
  type IndexPair = (nat, nat)

  /** One entry of `similar_pairs`. */
  datatype SimilarPair = SimilarPair(article1: String, article2: String, similarity: real)

  /** The dictionary of `analyze_articles`, without the two `np.mean` averages. */
  datatype Analysis = Analysis(totalArticles: nat, commonKeywords: seq<(String, nat)>)

  /** The dictionary of `compare_articles`. */
  datatype Comparison = Comparison(similarPairs: seq<SimilarPair>, commonThemes: seq<(String, nat)>)

  /** `[kw for a in articles for kw in a["keywords"]]`: every keyword of every article, in order. */
  function AllKeywords(articles: seq<Article>): (all: seq<String>)
  {
    if articles == [] then [] else AllKeywords(articles[..|articles| - 1]) + articles[|articles| - 1].keywords
  }

  /** A `defaultdict(int)` of counts: its keys in insertion order, and its contents. */
  datatype Dict = Dict(keys: seq<String>, freq: map<String, nat>)

  /** `d[w] += 1`: a missing key is first inserted, after the others, with count 0. */
  function Bump(d: Dict, w: String): (r: Dict)
  {
    Dict(if w in d.freq then d.keys else d.keys + [w], d.freq[w := (if w in d.freq then d.freq[w] else 0) + 1])
  }

  /** `for w in s: d[w] += 1`. */
  function BumpAll(d: Dict, s: seq<String>): (r: Dict)
  {
    if s == [] then d else Bump(BumpAll(d, s[..|s| - 1]), s[|s| - 1])
  }

  /** Counting `s` and then `t` is counting `s + t`. */
  lemma {:induction false} BumpAllAppend(d: Dict, s: seq<String>, t: seq<String>)
    ensures BumpAll(BumpAll(d, s), t) == BumpAll(d, s + t)
    decreases |t|
  {
    if t == [] {
      assert s + t == s;
    } else {
      BumpAllAppend(d, s, t[..|t| - 1]);
      assert (s + t)[..|s + t| - 1] == s + t[..|t| - 1];
    }
  }

  /** The dictionary after counting the words of `s` from empty. */
  function Tally(s: seq<String>): (d: Dict)
  {
    BumpAll(Dict([], map[]), s)
  }

  /**
   * The counting dictionary maps exactly the words of `s`, each to its number of
   * occurrences, and holds its keys in order of first occurrence.
   */
  lemma {:induction false} TallyCounts(s: seq<String>)
    ensures forall k :: k in Tally(s).freq <==> k in s
    ensures forall k :: k in Tally(s).freq ==> Tally(s).freq[k] == Count(s, k)
    ensures Tally(s).keys == Distinct(s)
  {
    if s != [] {
      var t := s[..|s| - 1];
      TallyCounts(t);
      MembersSnoc(s);
      DistinctSnoc(s);
    }
  }

  /**
   * `for kw in words: keyword_freq[kw] += 1` on a dictionary `d0` that may already hold
   * counts.
   */
  method TallyInto(d0: Dict, words: seq<String>) returns (d: Dict)
    ensures d == BumpAll(d0, words)
  {
    d := d0;
    for i := 0 to |words|
      invariant d == BumpAll(d0, words[..i])
    {
      var kw := words[i];
      assert words[..i + 1][..i] == words[..i];
      if kw !in d.freq {
        d := d.(keys := d.keys + [kw]);
        d := d.(freq := d.freq[kw := 1]);
      } else {
        d := d.(freq := d.freq[kw := d.freq[kw] + 1]);
      }
    }
    assert words[..|words|] == words;
  }

  /** The nested counting loops of `_get_common_keywords`: articles, then their keywords. */
  method CountKeywords(articles: seq<Article>) returns (d: Dict)
    ensures d == Tally(AllKeywords(articles))
  {
    d := Dict([], map[]);
    for i := 0 to |articles|
      invariant d == Tally(AllKeywords(articles[..i]))
    {
      assert articles[..i + 1][..i] == articles[..i];
      BumpAllAppend(Dict([], map[]), AllKeywords(articles[..i]), articles[i].keywords);
      d := TallyInto(d, articles[i].keywords);
    }
    assert articles[..|articles|] == articles;
  }

  /** The count stored in the dictionary, as a sort key. */
  function FreqKey(freq: map<String, nat>): (key: String -> real)
  {
    (k: String) => if k in freq then freq[k] as real else 0.0
  }

  /** A dictionary that tallies `s` sorts its keys as `Counter(s)` does. */
  lemma TalliedSort(keys: seq<String>, freq: map<String, nat>, s: seq<String>)
    requires Dict(keys, freq) == Tally(s)
    ensures SortDesc(keys, FreqKey(freq)) == SortDesc(Distinct(s), CountKey(s))
  {
    TallyCounts(s);
    forall i | 0 <= i < |keys| ensures FreqKey(freq)(keys[i]) == CountKey(s)(keys[i]) {
      assert keys[i] in s;
    }
    SortDescCongruent(keys, FreqKey(freq), CountKey(s));
  }

  /** Each key with its number of occurrences in `s`. */
  function CountsOf(ks: seq<String>, s: seq<String>): (items: seq<(String, nat)>)
    ensures |items| == |ks|
    ensures forall i :: 0 <= i < |ks| ==> items[i].0 == ks[i] && items[i].1 == Count(s, ks[i])
  {
    seq(|ks|, i requires 0 <= i < |ks| => (ks[i], Count(s, ks[i])))
  }

  /** `[(k, v) ...]`: each key with the count the dictionary holds for it. */
  function WithCounts(ks: seq<String>, freq: map<String, nat>): (items: seq<(String, nat)>)
    requires forall i :: 0 <= i < |ks| ==> ks[i] in freq
  {
    seq(|ks|, i requires 0 <= i < |ks| => (ks[i], freq[ks[i]]))
  }

  /** Keys of a dictionary that tallies `s`, paired with their stored counts, carry their counts in `s`. */
  lemma WithCountsTallied(ks: seq<String>, keys: seq<String>, freq: map<String, nat>, s: seq<String>)
    requires Dict(keys, freq) == Tally(s)
    requires forall i :: 0 <= i < |ks| ==> ks[i] in s
    ensures forall i :: 0 <= i < |ks| ==> ks[i] in freq
    ensures WithCounts(ks, freq) == CountsOf(ks, s)
  {
    TallyCounts(s);
  }

  /** The ten keys of largest stored count are `MostCommon(s, 10)`, with their counts in `s`. */
  lemma CommonTallied(keys: seq<String>, freq: map<String, nat>, s: seq<String>)
    requires Dict(keys, freq) == Tally(s)
    ensures var top := Slice(SortDesc(keys, FreqKey(freq)), 10);
            (forall i :: 0 <= i < |top| ==> top[i] in freq) &&
            WithCounts(top, freq) == CountsOf(MostCommon(s, 10), s)
  {
    TalliedSort(keys, freq, s);
    var top := Slice(SortDesc(keys, FreqKey(freq)), 10);
    assert top == MostCommon(s, 10);
    WithCountsTallied(top, keys, freq, s);
  }

  /**
   * `_get_common_keywords`: the ten most frequent keywords over all articles with their
   * counts; the keys are `MostCommon(all, 10)` (descending count, ties by first appearance,
   * none left out counted more than one kept).
   */
  method GetCommonKeywords(articles: seq<Article>) returns (common: seq<(String, nat)>)
    ensures common == CountsOf(MostCommon(AllKeywords(articles), 10), AllKeywords(articles))
    ensures |common| <= 10
  {
    var d := CountKeywords(articles);
    CommonTallied(d.keys, d.freq, AllKeywords(articles));
    common := WithCounts(Slice(SortDesc(d.keys, FreqKey(d.freq)), 10), d.freq);
  }

  /**
   * `analyze_articles`: `{}` (here `None`) for no articles; otherwise the article count and
   * the common keywords.
   */
  method AnalyzeArticles(articles: seq<Article>) returns (r: Option<Analysis>)
    ensures articles == [] <==> r == None
    ensures r.Some? ==> r.value.totalArticles == |articles|
    ensures r.Some? ==> r.value.commonKeywords == CountsOf(MostCommon(AllKeywords(articles), 10), AllKeywords(articles))
  {
    if articles == [] {
      return None;
    }
    var common := GetCommonKeywords(articles);
    r := Some(Analysis(|articles|, common));
  }

  /** Whether a keyword occurs more than once in `s`. */
  function IsRepeated(s: seq<String>): (p: String -> bool)
  {
    (k: String) => Count(s, k) > 1
  }

  /** Whether the dictionary counts a keyword more than once (`v > 1`). */
  function FreqRepeated(freq: map<String, nat>): (p: String -> bool)
  {
    (k: String) => k in freq && freq[k] > 1
  }

  /** The keys of `common_themes`: the repeated keywords by descending count, stable. */
  function ThemeKeys(all: seq<String>): (ks: seq<String>)
  {
    SortDesc(Filter(Distinct(all), IsRepeated(all)), CountKey(all))
  }

  /** `common_themes`: each repeated keyword with its count. */
  function Themes(all: seq<String>): (themes: seq<(String, nat)>)
  {
    CountsOf(ThemeKeys(all), all)
  }

  /** `common_themes` holds exactly the keywords counted more than once, each with its count. */
  lemma ThemesMembership(all: seq<String>, k: String, c: nat)
    ensures (k, c) in Themes(all) <==> Count(all, k) > 1 && c == Count(all, k)
  {
    ThemeKeysMembership(all, k);
    CountsOfMembership(ThemeKeys(all), all, k, c);
  }

  lemma ThemeKeysMembership(all: seq<String>, k: String)
    ensures k in ThemeKeys(all) <==> Count(all, k) > 1
  {
    var candidates := Filter(Distinct(all), IsRepeated(all));
    var ks := ThemeKeys(all);
    SortDescMembers(candidates, CountKey(all));
    FilterMembership(Distinct(all), IsRepeated(all), k);
    if k in ks {
      var i :| 0 <= i < |ks| && ks[i] == k;
      assert ks[i] in candidates;
    }
    if Count(all, k) > 1 {
      InDistinct(all, k);
      var i :| 0 <= i < |candidates| && candidates[i] == k;
    }
  }

  /** A `(key, count)` pair is listed exactly when the key is listed, with its count. */
  lemma CountsOfMembership(ks: seq<String>, s: seq<String>, k: String, c: nat)
    ensures (k, c) in CountsOf(ks, s) <==> k in ks && c == Count(s, k)
  {
    var items := CountsOf(ks, s);
    if (k, c) in items {
      var i :| 0 <= i < |items| && items[i] == (k, c);
    }
    if k in ks && c == Count(s, k) {
      var i :| 0 <= i < |ks| && ks[i] == k;
      assert items[i] == (k, c);
    }
  }

  /** `common_themes` is sorted by non-increasing count. */
  lemma ThemesOrdered(all: seq<String>)
    ensures forall i, j :: 0 <= i < j < |Themes(all)| ==> Themes(all)[i].1 >= Themes(all)[j].1
  {
    var candidates := Filter(Distinct(all), IsRepeated(all));
    var ks := ThemeKeys(all);
    SortDescSorted(candidates, CountKey(all));
    forall i, j | 0 <= i < j < |ks| ensures Count(all, ks[i]) >= Count(all, ks[j]) {
      assert CountKey(all)(ks[i]) >= CountKey(all)(ks[j]);
    }
  }

  /** No keyword appears twice in `common_themes`. */
  lemma ThemesDistinct(all: seq<String>)
    ensures forall i, j :: 0 <= i < j < |Themes(all)| ==> Themes(all)[i].0 != Themes(all)[j].0
  {
    var candidates := Filter(Distinct(all), IsRepeated(all));
    FilterNoDup(Distinct(all), IsRepeated(all));
    SortDescNoDup(candidates, CountKey(all));
  }

  /** The themes step of `compare_articles`: count, keep counts above one, sort descending. */
  method CommonThemes(articles: seq<Article>) returns (themes: seq<(String, nat)>)
    ensures themes == Themes(AllKeywords(articles))
  {
    var all := AllKeywords(articles);
    var d := TallyInto(Dict([], map[]), all);
    var sorted := SortDesc(Filter(d.keys, FreqRepeated(d.freq)), FreqKey(d.freq));
    TalliedThemes(d.keys, d.freq, all);
    themes := WithCounts(sorted, d.freq);
  }

  /** Sorting the dictionary's repeated keys by their stored counts gives the theme keys. */
  lemma TalliedThemes(keys: seq<String>, freq: map<String, nat>, all: seq<String>)
    requires Dict(keys, freq) == Tally(all)
    ensures var sorted := SortDesc(Filter(keys, FreqRepeated(freq)), FreqKey(freq));
            (forall i :: 0 <= i < |sorted| ==> sorted[i] in freq) && WithCounts(sorted, freq) == Themes(all)
  {
    TallyCounts(all);
    var candidates := Filter(keys, FreqRepeated(freq));
    forall i | 0 <= i < |keys| ensures FreqRepeated(freq)(keys[i]) == IsRepeated(all)(keys[i]) {
      assert keys[i] in all;
    }
    FilterCongruent(keys, FreqRepeated(freq), IsRepeated(all));
    forall i | 0 <= i < |candidates| ensures FreqKey(freq)(candidates[i]) == CountKey(all)(candidates[i]) {
      FilterMembership(keys, FreqRepeated(freq), candidates[i]);
    }
    SortDescCongruent(candidates, FreqKey(freq), CountKey(all));
    var sorted := SortDesc(candidates, FreqKey(freq));
    SortDescMembers(candidates, FreqKey(freq));
    forall i | 0 <= i < |sorted| ensures sorted[i] in all {
      FilterMembership(keys, FreqRepeated(freq), sorted[i]);
    }
    WithCountsTallied(sorted, keys, freq, all);
  }

  /** The pairs `(i, j)` for `i < j < n` with a fixed first index `i`, in increasing `j`. */
  function RowPairs(i: nat, n: nat): (row: seq<(nat, nat)>)
    ensures forall t :: 0 <= t < |row| ==> row[t] == (i, i + 1 + t) && i + 1 + t < n
    ensures |row| == if i < n then n - i - 1 else 0
  {
    seq(if i < n then n - i - 1 else 0, t requires 0 <= t < (if i < n then n - i - 1 else 0) => (i, i + 1 + t))
  }

  /** Strict lexicographic order on index pairs. */
  predicate LexLess(p: (nat, nat), q: (nat, nat)) {
    p.0 < q.0 || (p.0 == q.0 && p.1 < q.1)
  }

  /** The pairs the nested loops visit in their first `i` outer rounds. */
  function PairsUpTo(i: nat, n: nat): (ps: seq<IndexPair>)
  {
    if i == 0 then [] else PairsUpTo(i - 1, n) + RowPairs(i - 1, n)
  }

  /** The visited pairs each have `p.0 < p.1 < n` and `p.0 < i`. */
  lemma {:induction false} PairsUpToBounds(i: nat, n: nat)
    ensures forall a :: 0 <= a < |PairsUpTo(i, n)| ==>
              PairsUpTo(i, n)[a].0 < PairsUpTo(i, n)[a].1 < n && PairsUpTo(i, n)[a].0 < i
  {
    if i > 0 {
      PairsUpToBounds(i - 1, n);
      var before := PairsUpTo(i - 1, n);
      var row := RowPairs(i - 1, n);
      var ps := before + row;
      assert PairsUpTo(i, n) == ps;
      forall a | 0 <= a < |ps| ensures ps[a].0 < ps[a].1 < n && ps[a].0 < i {
        if a >= |before| {
          assert ps[a] == row[a - |before|];
        } else {
          assert ps[a] == before[a];
        }
      }
    }
  }

  /** The visited pairs come in strictly increasing lexicographic order, so no pair is visited twice. */
  lemma {:induction false} PairsUpToOrdered(i: nat, n: nat)
    ensures forall a, b :: 0 <= a < b < |PairsUpTo(i, n)| ==> LexLess(PairsUpTo(i, n)[a], PairsUpTo(i, n)[b])
  {
    if i > 0 {
      PairsUpToOrdered(i - 1, n);
      PairsUpToBounds(i - 1, n);
      var before := PairsUpTo(i - 1, n);
      var row := RowPairs(i - 1, n);
      var ps := before + row;
      assert PairsUpTo(i, n) == ps;
      forall a, b | 0 <= a < b < |ps| ensures LexLess(ps[a], ps[b]) {
        if b < |before| {
          assert ps[a] == before[a] && ps[b] == before[b];
        } else if a < |before| {
          assert ps[a] == before[a] && ps[b] == row[b - |before|];
        } else {
          assert ps[a] == row[a - |before|] && ps[b] == row[b - |before|];
        }
      }
    }
  }

  /** Every pair `i < j < n` is visited. */
  lemma {:induction false} PairsUpToComplete(i: nat, n: nat, p: (nat, nat))
    requires p.0 < p.1 < n && p.0 < i
    ensures p in PairsUpTo(i, n)
  {
    if p.0 < i - 1 {
      PairsUpToComplete(i - 1, n, p);
    } else {
      var row := RowPairs(i - 1, n);
      assert row[p.1 - i] == p;
    }
  }

  /** The nested loops visit each unordered pair of distinct articles exactly once, as `(i, j)` with `i < j`. */
  lemma AllPairsMembership(n: nat, p: (nat, nat))
    ensures p in PairsUpTo(n, n) <==> p.0 < p.1 < n
  {
    PairsUpToBounds(n, n);
    if p.0 < p.1 < n {
      PairsUpToComplete(n, n, p);
    }
  }

  /** `calculate_similarity` of the contents of two articles. */
  function Similarity(a: Article, b: Article, stop: set<String>): (r: real)
    ensures 0.0 <= r <= 1.0
  {
    Processor.CalculateSimilarity(a.content, b.content, stop)
  }

  /** Whether articles `p.0` and `p.1` are more than 0.3 similar. */
  function IsSimilar(articles: seq<Article>, stop: set<String>): (q: IndexPair -> bool)
  {
    (p: IndexPair) => p.0 < |articles| && p.1 < |articles| &&
      Similarity(articles[p.0], articles[p.1], stop) > 0.3
  }

  /** The `similar_pairs` entry of a pair of articles. */
  function PairRecord(articles: seq<Article>, stop: set<String>, p: (nat, nat)): (r: SimilarPair)
    requires p.0 < |articles| && p.1 < |articles|
  {
    SimilarPair(articles[p.0].title, articles[p.1].title, Similarity(articles[p.0], articles[p.1], stop))
  }

  /** The entries of the similar pairs among `ps`, in the order of `ps`. */
  function Report(articles: seq<Article>, stop: set<String>, ps: seq<(nat, nat)>): (r: seq<SimilarPair>)
    ensures forall a :: 0 <= a < |r| ==> r[a].similarity > 0.3
  {
    var similar := Filter(ps, IsSimilar(articles, stop));
    assert forall a :: 0 <= a < |similar| ==> IsSimilar(articles, stop)(similar[a]);
    seq(|similar|, a requires 0 <= a < |similar| => PairRecord(articles, stop, similar[a]))
  }

  /** Visiting one more pair adds its entry exactly when the pair is similar. */
  lemma ReportStep(articles: seq<Article>, stop: set<String>, ps: seq<(nat, nat)>, p: (nat, nat))
    requires p.0 < |articles| && p.1 < |articles|
    ensures Report(articles, stop, ps + [p]) ==
      Report(articles, stop, ps) + (if IsSimilar(articles, stop)(p) then [PairRecord(articles, stop, p)] else [])
  {
    var t := ps + [p];
    assert t[..|t| - 1] == ps;
  }

  lemma RowPrefixStep(before: seq<IndexPair>, i: nat, j: nat, n: nat)
    requires i < j < n
    ensures before + RowPairs(i, n)[..j - i] == (before + RowPairs(i, n)[..j - i - 1]) + [(i, j)]
  {
    var row := RowPairs(i, n);
    assert row[j - i - 1] == (i, j);
    assert row[..j - i] == row[..j - i - 1] + [(i, j)];
  }

  /** `similar_pairs`: the nested loop over `i` and `j > i`, keeping pairs more than 0.3 similar. */
  method SimilarPairs(articles: seq<Article>, stop: set<String>) returns (pairs: seq<SimilarPair>)
    ensures pairs == Report(articles, stop, PairsUpTo(|articles|, |articles|))
  {
    var n := |articles|;
    pairs := [];
    for i := 0 to n
      invariant pairs == Report(articles, stop, PairsUpTo(i, n))
    {
      pairs := SimilarInRow(articles, stop, i, PairsUpTo(i, n), pairs);
    }
  }

  /** The inner loop of `similar_pairs` for article `i`: the pairs `(i, j)` for `j > i`. */
  method SimilarInRow(articles: seq<Article>, stop: set<String>, i: nat, before: seq<IndexPair>,
                      pairs0: seq<SimilarPair>) returns (pairs: seq<SimilarPair>)
    requires i < |articles| && pairs0 == Report(articles, stop, before)
    ensures pairs == Report(articles, stop, before + RowPairs(i, |articles|))
  {
    var n := |articles|;
    ghost var row := RowPairs(i, n);
    pairs := pairs0;
    assert before + row[..0] == before;
    for j := i + 1 to n
      invariant pairs == Report(articles, stop, before + row[..j - i - 1])
    {
      var similarity := Similarity(articles[i], articles[j], stop);
      RowPrefixStep(before, i, j, n);
      ReportStep(articles, stop, before + row[..j - i - 1], (i, j));
      if similarity > 0.3 {
        pairs := pairs + [SimilarPair(articles[i].title, articles[j].title, similarity)];
      }
    }
    assert row[..n - i - 1] == row;
  }

  /** Every reported entry is a pair `i < j` of articles more than 0.3 similar, and every such pair is reported. */
  lemma SimilarPairsMembership(articles: seq<Article>, stop: set<String>, p: (nat, nat))
    ensures p in Filter(PairsUpTo(|articles|, |articles|), IsSimilar(articles, stop)) <==>
      p.0 < p.1 < |articles| && Similarity(articles[p.0], articles[p.1], stop) > 0.3
  {
    FilterMembership(PairsUpTo(|articles|, |articles|), IsSimilar(articles, stop), p);
    AllPairsMembership(|articles|, p);
  }

  /**
   * `compare_articles`: `{}` (here `None`) for no articles; otherwise the similar pairs and
   * the common themes.
   */
  method CompareArticles(articles: seq<Article>, stop: set<String>) returns (r: Option<Comparison>)
    ensures articles == [] <==> r == None
    ensures r.Some? ==> r.value.similarPairs == Report(articles, stop, PairsUpTo(|articles|, |articles|))
    ensures r.Some? ==> r.value.commonThemes == Themes(AllKeywords(articles))
  {
    if articles == [] {
      return None;
    }
    var pairs := SimilarPairs(articles, stop);
    var themes := CommonThemes(articles);
    r := Some(Comparison(pairs, themes));
  }

  /** `len(s.split("/")[0])`: the position of the first `/`, or the length when there is none. */
  function FirstSlash(s: String): (k: nat)
    ensures k <= |s| && '/' !in s[..k]
    ensures k < |s| ==> s[k] == '/'
  {
    if s == [] || s[0] == '/' then 0 else 1 + FirstSlash(s[1..])
  }

  /** The position of the first `//` in `s`, if any. */
  function FindDoubleSlash(s: String): (r: Option<nat>)
    ensures r.Some? ==> r.value + 1 < |s| && s[r.value] == '/' && s[r.value + 1] == '/'
    ensures r.Some? ==> forall i :: 0 <= i < r.value ==> !(s[i] == '/' && s[i + 1] == '/')
    ensures r.None? ==> forall i :: 0 <= i < |s| - 1 ==> !(s[i] == '/' && s[i + 1] == '/')
  {
    if |s| < 2 then None
    else if s[0] == '/' && s[1] == '/' then Some(0)
    else
      match FindDoubleSlash(s[1..])
      case None => None
      case Some(k) => Some(k + 1)
  }

  /**
   * `website.split("//")[1].split("/")[0]`: the piece between the first and the second `//`,
   * cut at its first `/`. A URL without `//` has no piece 1 (an `IndexError`): `None`.
   */
  function SiteName(url: String): (r: Option<String>)
    ensures r.None? <==> FindDoubleSlash(url).None?
    ensures r.Some? ==> '/' !in r.value
  {
    match FindDoubleSlash(url)
    case None => None
    case Some(k) =>
      var after := url[k + 2..];
      var piece := match FindDoubleSlash(after) case None => after case Some(m) => after[..m];
      Some(piece[..FirstSlash(piece)])
  }

  /** The site name is the text after the first `//` up to the next `/` (or the end). */
  lemma SiteNameUpToSlash(url: String)
    requires FindDoubleSlash(url).Some?
    ensures var after := url[FindDoubleSlash(url).value + 2..];
            SiteName(url) == Some(after[..FirstSlash(after)])
  {
    var after := url[FindDoubleSlash(url).value + 2..];
    match FindDoubleSlash(after)
    case None =>
    case Some(m) =>
      var piece := after[..m];
      assert after[m] == '/';
      assert FirstSlash(after) <= m;
      SlashPrefix(after, m);
  }

  /** Cutting a text before its first `/` is the same before or after cutting at any later point. */
  lemma {:induction false} SlashPrefix(s: String, m: nat)
    requires m <= |s| && FirstSlash(s) <= m
    ensures s[..m][..FirstSlash(s[..m])] == s[..FirstSlash(s)]
  {
    if s != [] && s[0] != '/' && m > 0 {
      SlashPrefix(s[1..], m - 1);
      assert s[..m][1..] == s[1..][..m - 1];
    }
  }

  /** The site name of `https://idrw.org` is `idrw.org`. */
  lemma SiteNameExample()
    ensures SiteName("https://idrw.org") == Some("idrw.org")
  {
    assert "https://idrw.org" == "https:" + "//" + "idrw.org";
    SiteNameOfHost("https:", "idrw.org");
  }

  /** A URL `head//host` with no `/` in `head` or `host` has the site name `host`. */
  lemma SiteNameOfHost(head: String, host: String)
    requires '/' !in head && '/' !in host
    ensures SiteName(head + "//" + host) == Some(host)
  {
    var url := head + "//" + host;
    DoubleSlashAfter(head, host);
    SiteNameUpToSlash(url);
    assert url[|head| + 2..] == host;
    NoSlash(host);
    assert host[..|host|] == host;
  }

  /** In `head + "//" + rest` with no `/` in `head`, the first `//` follows `head`. */
  lemma DoubleSlashAfter(head: String, rest: String)
    requires '/' !in head
    ensures FindDoubleSlash(head + "//" + rest) == Some(|head|)
  {
    var s := head + "//" + rest;
    assert s[|head|] == '/' && s[|head| + 1] == '/';
    assert forall i :: 0 <= i < |head| ==> s[i] == head[i];
  }

  /** A text without `/` is its own first piece. */
  lemma NoSlash(s: String)
    requires '/' !in s
    ensures FirstSlash(s) == |s|
  {
  }

  /** A URL without `//` has no site name. */
  lemma SiteNameMissing()
    ensures SiteName("idrw.org") == None
  {
    assert FindDoubleSlash("idrw.org") == None by {
      assert '/' !in "idrw.org";
    }
  }
}

=== FILE: seqs.dfy ===
/** Generic sequence helpers: counting, first-occurrence order, Python slicing and filtering. */
module Seqs {

  /** Number of occurrences of `x` in `s` (what a `Counter` stores for `x`). */
  function Count<T(==)>(s: seq<T>, x: T): (n: nat)
    ensures n <= |s|
    ensures n == 0 <==> x !in s
  {
    if s == [] then 0
    else Count(s[..|s| - 1], x) + (if s[|s| - 1] == x then 1 else 0)
  }

  /** A non-empty sequence is its part before the last element, followed by that element. */
  lemma LastSplit<T>(s: seq<T>)
    requires s != []
    ensures s == s[..|s| - 1] + [s[|s| - 1]]
  {
  }

  /** A sequence is its part before position `k`, the element at `k`, and its part after. */
  lemma Around<T>(s: seq<T>, k: nat)
    requires k < |s|
    ensures s == s[..k] + [s[k]] + s[k + 1..]
  {
  }

  lemma {:induction false} CountAppend<T>(s: seq<T>, t: seq<T>, x: T)
    ensures Count(s + t, x) == Count(s, x) + Count(t, x)
    decreases |t|
  {
    if t == [] {
      assert s + t == s;
    } else {
      assert (s + t)[..|s + t| - 1] == s + t[..|t| - 1];
      CountAppend(s, t[..|t| - 1], x);
    }
  }

  predicate NoDup<T(==)>(s: seq<T>) {
    forall i, j :: 0 <= i < j < |s| ==> s[i] != s[j]
  }

  /** Position of the first occurrence of `x` (Python's `list.index`). */
  function IndexOf<T(==)>(s: seq<T>, x: T): (k: nat)
    requires x in s
    ensures k < |s| && s[k] == x
    ensures forall i :: 0 <= i < k ==> s[i] != x
  {
    if s[0] == x then 0 else 1 + IndexOf(s[1..], x)
  }

  lemma IndexOfNoDup<T>(s: seq<T>, k: nat)
    requires NoDup(s) && k < |s|
    ensures IndexOf(s, s[k]) == k
  {
  }

  /** The distinct elements of `s`, in order of first occurrence (the key order of a dict filled from `s`). */
  function Distinct<T(==)>(s: seq<T>): (d: seq<T>)
    ensures NoDup(d)
    ensures forall i :: 0 <= i < |d| ==> d[i] in s
    ensures forall i :: 0 <= i < |s| ==> s[i] in d
    ensures |d| <= |s|
  {
    if s == [] then []
    else
      var d := Distinct(s[..|s| - 1]);
      assert forall i :: 0 <= i < |s| - 1 ==> s[i] == s[..|s| - 1][i];
      if s[|s| - 1] in d then d else d + [s[|s| - 1]]
  }

  /** `Distinct` lists elements in the order in which they first occur in `s`. */
  lemma {:induction false} DistinctOrder<T>(s: seq<T>, x: T, y: T)
    requires x in s && y in s
    ensures IndexOf(Distinct(s), x) < IndexOf(Distinct(s), y) <==> IndexOf(s, x) < IndexOf(s, y)
    decreases |s|
  {
    var p := s[..|s| - 1];
    var last := s[|s| - 1];
    DistinctSnoc(s);
    if x in p && y in p {
      DistinctOrder(p, x, y);
      InDistinct(p, x);
      InDistinct(p, y);
      IndexOfPrefix(p, [last], x);
      IndexOfPrefix(p, [last], y);
      IndexOfPrefix(Distinct(p), [last], x);
      IndexOfPrefix(Distinct(p), [last], y);
    } else if x in p {
      IndexOfBeforeNew(p, last, x, y);
      InDistinct(p, x);
      NotInDistinct(p, y);
      IndexOfBeforeNew(Distinct(p), last, x, y);
    } else if y in p {
      IndexOfBeforeNew(p, last, y, x);
      InDistinct(p, y);
      NotInDistinct(p, x);
      IndexOfBeforeNew(Distinct(p), last, y, x);
    }
  }

  /** `Distinct` of a sequence is `Distinct` of all but its last element, extended by that element when new. */
  lemma DistinctSnoc<T>(s: seq<T>)
    requires s != []
    ensures s == s[..|s| - 1] + [s[|s| - 1]]
    ensures s[|s| - 1] in Distinct(s[..|s| - 1]) ==> Distinct(s) == Distinct(s[..|s| - 1])
    ensures s[|s| - 1] !in Distinct(s[..|s| - 1]) ==> Distinct(s) == Distinct(s[..|s| - 1]) + [s[|s| - 1]]
  {
    LastSplit(s);
  }

  /** The members of a non-empty sequence: those of all but its last element, and that element. */
  lemma MembersSnoc<T>(s: seq<T>)
    requires s != []
    ensures forall k :: k in s <==> k in s[..|s| - 1] || k == s[|s| - 1]
  {
    forall k ensures k in s <==> k in s[..|s| - 1] || k == s[|s| - 1] {
      if k in s {
        var i :| 0 <= i < |s| && s[i] == k;
        if i < |s| - 1 {
          assert s[..|s| - 1][i] == k;
        }
      }
    }
  }

  lemma InDistinct<T>(s: seq<T>, x: T)
    requires x in s
    ensures x in Distinct(s)
  {
    assert s[IndexOf(s, x)] == x;
  }

  lemma NotInDistinct<T>(s: seq<T>, x: T)
    requires x !in s
    ensures x !in Distinct(s)
  {
  }

  /** In `s + [y]` with `y` new, an element `x` of `s` comes first, whether or not `x` appears again. */
  lemma IndexOfBeforeNew<T>(s: seq<T>, last: T, x: T, y: T)
    requires x in s && y !in s && y == last
    ensures IndexOf(s + [last], x) == IndexOf(s, x) < |s| == IndexOf(s + [last], y)
  {
    IndexOfPrefix(s, [last], x);
    assert (s + [last])[|s|] == y;
  }

  lemma IndexOfPrefix<T>(s: seq<T>, t: seq<T>, x: T)
    requires x in s
    ensures x in s + t && IndexOf(s + t, x) == IndexOf(s, x)
  {
    var k := IndexOf(s, x);
    assert (s + t)[k] == x;
    var k' := IndexOf(s + t, x);
    assert k' <= k;
    assert s[k'] == x;
  }

  /** Python's `xs[:k]` for an integer `k`: a negative `k` drops `-k` elements from the end. */
  function Slice<T>(xs: seq<T>, k: int): (r: seq<T>)
    ensures |r| == SliceLen(|xs|, k)
    ensures r == xs[..|r|]
  {
    xs[..SliceLen(|xs|, k)]
  }

  /** Length of `xs[:k]` when `|xs| == n`. */
  function SliceLen(n: nat, k: int): (m: nat)
    ensures m <= n
    ensures 0 <= k ==> m == if k < n then k else n
    ensures k < 0 ==> m == if n + k < 0 then 0 else n + k
  {
    if 0 <= k then (if k < n then k else n)
    else if n + k < 0 then 0 else n + k
  }

  /** Asking for at least the whole length returns the whole sequence. */
  lemma SliceAll<T>(xs: seq<T>, k: int)
    requires |xs| <= k
    ensures Slice(xs, k) == xs
  {
  }

  /** For `0 < j`, `xs[:-j]` followed by the last `j` elements gives `xs` back (`xs[:-0]` is empty). */
  lemma SliceDropLast<T>(xs: seq<T>, j: int)
    requires 0 < j <= |xs|
    ensures Slice(xs, -j) + xs[|xs| - j..] == xs
  {
    assert Slice(xs, -j) == xs[..|xs| - j];
  }

  /** `[0, 1, ..., n - 1]` (Python's `range(n)`). */
  function Range(n: nat): (r: seq<nat>)
    ensures |r| == n && forall i :: 0 <= i < n ==> r[i] == i
  {
    seq(n, i requires 0 <= i < n => i)
  }

  /** The elements of `s` satisfying `p`, in order (a list comprehension with an `if`). */
  function Filter<T>(s: seq<T>, p: T -> bool): (r: seq<T>)
    ensures |r| <= |s|
    ensures forall i :: 0 <= i < |r| ==> p(r[i])
  {
    if s == [] then []
    else Filter(s[..|s| - 1], p) + (if p(s[|s| - 1]) then [s[|s| - 1]] else [])
  }

  lemma {:induction false} FilterMembership<T>(s: seq<T>, p: T -> bool, x: T)
    ensures x in Filter(s, p) <==> x in s && p(x)
    decreases |s|
  {
    if s != [] {
      FilterMembership(s[..|s| - 1], p, x);
      LastSplit(s);
    }
  }

  lemma {:induction false} FilterAppend<T>(s: seq<T>, t: seq<T>, p: T -> bool)
    ensures Filter(s + t, p) == Filter(s, p) + Filter(t, p)
    decreases |t|
  {
    if t == [] {
      assert s + t == s;
    } else {
      assert (s + t)[..|s + t| - 1] == s + t[..|t| - 1];
      FilterAppend(s, t[..|t| - 1], p);
    }
  }

  /** Filtering a one-element sequence keeps it exactly when it passes. */
  lemma FilterSingle<T>(x: T, p: T -> bool)
    ensures Filter([x], p) == if p(x) then [x] else []
  {
    assert [x][..0] == [];
  }

  /** Filtering a non-empty sequence: filter all but the last element, then the last one. */
  lemma FilterLast<T>(s: seq<T>, p: T -> bool)
    requires s != []
    ensures Filter(s, p) == Filter(s[..|s| - 1], p) + (if p(s[|s| - 1]) then [s[|s| - 1]] else [])
  {
  }

  /** Filtering keeps every occurrence of an element that passes, and none of one that fails. */
  lemma {:induction false} FilterCount<T>(s: seq<T>, p: T -> bool, x: T)
    ensures Count(Filter(s, p), x) == if p(x) then Count(s, x) else 0
    decreases |s|
  {
    if s != [] {
      var init := s[..|s| - 1];
      var last := s[|s| - 1];
      FilterCount(init, p, x);
      CountAppend(Filter(init, p), if p(last) then [last] else [], x);
      LastSplit(s);
      CountAppend(init, [last], x);
    }
  }

  /** A filter that holds everywhere keeps everything. */
  lemma {:induction false} FilterAll<T>(s: seq<T>, p: T -> bool)
    requires forall i :: 0 <= i < |s| ==> p(s[i])
    ensures Filter(s, p) == s
    decreases |s|
  {
    if s != [] {
      FilterAll(s[..|s| - 1], p);
    }
  }

  /** Filtering by a stronger condition after a weaker one is filtering by the stronger one alone. */
  lemma {:induction false} FilterFilter<T>(s: seq<T>, p: T -> bool, q: T -> bool)
    requires forall i :: 0 <= i < |s| && q(s[i]) ==> p(s[i])
    ensures Filter(Filter(s, p), q) == Filter(s, q)
    decreases |s|
  {
    if s != [] {
      FilterFilter(s[..|s| - 1], p, q);
      var x := s[|s| - 1];
      if p(x) {
        assert Filter(s, p) == Filter(s[..|s| - 1], p) + [x];
        assert Filter(s, p)[..|Filter(s, p)| - 1] == Filter(s[..|s| - 1], p);
      } else {
        assert !q(s[|s| - 1]);
        assert Filter(s, p) == Filter(s[..|s| - 1], p);
      }
    }
  }

  /** Filtering by `p` and then by `q` is filtering once by any `r` that is `p && q`. */
  lemma {:induction false} FilterAnd<T>(s: seq<T>, p: T -> bool, q: T -> bool, r: T -> bool)
    requires forall i :: 0 <= i < |s| ==> (r(s[i]) <==> p(s[i]) && q(s[i]))
    ensures Filter(Filter(s, p), q) == Filter(s, r)
    decreases |s|
  {
    if s != [] {
      var init := s[..|s| - 1];
      FilterAnd(init, p, q, r);
      FilterAppend(Filter(init, p), if p(s[|s| - 1]) then [s[|s| - 1]] else [], q);
    }
  }

  /** Two tests that agree on every element filter alike. */
  lemma {:induction false} FilterCongruent<T>(s: seq<T>, p: T -> bool, q: T -> bool)
    requires forall i :: 0 <= i < |s| ==> (p(s[i]) <==> q(s[i]))
    ensures Filter(s, p) == Filter(s, q)
    decreases |s|
  {
    if s != [] {
      FilterCongruent(s[..|s| - 1], p, q);
    }
  }

  lemma {:induction false} FilterNoDup<T>(s: seq<T>, p: T -> bool)
    requires NoDup(s)
    ensures NoDup(Filter(s, p))
    decreases |s|
  {
    if s != [] {
      var q := s[..|s| - 1];
      FilterNoDup(q, p);
      FilterMembership(q, p, s[|s| - 1]);
    }
  }

  /** `a` is obtained from `b` by deleting elements, keeping the order of the rest. */
  predicate IsSubsequence<T(==)>(a: seq<T>, b: seq<T>)
    decreases |b|
  {
    if a == [] then true
    else if b == [] then false
    else if a[|a| - 1] == b[|b| - 1] then IsSubsequence(a[..|a| - 1], b[..|b| - 1])
    else IsSubsequence(a, b[..|b| - 1])
  }

  lemma {:induction false} FilterIsSubsequence<T>(s: seq<T>, p: T -> bool)
    ensures IsSubsequence(Filter(s, p), s)
    decreases |s|
  {
    if s != [] {
      var q := s[..|s| - 1];
      FilterIsSubsequence(q, p);
      if !p(s[|s| - 1]) {
        assert Filter(s, p) == Filter(q, p);
        SubsequenceExtend(Filter(q, p), q, s[|s| - 1]);
      } else {
        var f := Filter(s, p);
        assert f[..|f| - 1] == Filter(q, p);
      }
    }
  }

  lemma {:induction false} SubsequenceExtend<T>(a: seq<T>, b: seq<T>, x: T)
    requires IsSubsequence(a, b)
    ensures IsSubsequence(a, b + [x])
    decreases |b|, 1
  {
    if a != [] {
      var b' := b + [x];
      assert b'[..|b'| - 1] == b;
      if a[|a| - 1] == x {
        SubsequenceDrop(a, b);
      }
    }
  }

  /** Dropping the last element of a subsequence keeps it a subsequence. */
  lemma {:induction false} SubsequenceDrop<T>(a: seq<T>, b: seq<T>)
    requires a != [] && IsSubsequence(a, b)
    ensures IsSubsequence(a[..|a| - 1], b)
    decreases |b|, 0
  {
    var a' := a[..|a| - 1];
    var b' := b[..|b| - 1];
    assert b' + [b[|b| - 1]] == b;
    if a[|a| - 1] == b[|b| - 1] {
      if a' != [] {
        SubsequenceExtend(a', b', b[|b| - 1]);
      }
    } else {
      SubsequenceDrop(a, b');
      if a' != [] {
        SubsequenceExtend(a', b', b[|b| - 1]);
      }
    }
  }

  /** Concatenation of a sequence of sequences, front to back. */
  function Flatten<T>(ss: seq<seq<T>>): (r: seq<T>)
  {
    if ss == [] then [] else Flatten(ss[..|ss| - 1]) + ss[|ss| - 1]
  }

  /** Every element of every part is an element of the concatenation. */
  lemma {:induction false} FlattenMember<T>(ss: seq<seq<T>>, i: nat, x: T)
    requires i < |ss| && x in ss[i]
    ensures x in Flatten(ss)
    decreases |ss|
  {
    if i < |ss| - 1 {
      FlattenMember(ss[..|ss| - 1], i, x);
    }
  }

  /** The elements at the positions `sel`, in the order of `sel` (`[s[i] for i in sel]`). */
  function Pick<T>(s: seq<T>, sel: seq<nat>): (r: seq<T>)
    requires forall a :: 0 <= a < |sel| ==> sel[a] < |s|
    ensures |r| == |sel|
  {
    seq(|sel|, a requires 0 <= a < |sel| => s[sel[a]])
  }

  /** Picking the positions `range(m)` is the slice `s[:m]`. */
  lemma PickRange<T>(s: seq<T>, m: nat)
    requires m <= |s|
    ensures Pick(s, Range(m)) == Slice(s, m)
  {
  }

  /** `[f(x) for x in s]`. */
  function Map<T, U>(f: T -> U, s: seq<T>): (r: seq<U>)
    ensures |r| == |s| && forall i :: 0 <= i < |s| ==> r[i] == f(s[i])
  {
    seq(|s|, i requires 0 <= i < |s| => f(s[i]))
  }

  lemma MapAppend<T, U>(f: T -> U, u: seq<T>, v: seq<T>)
    ensures Map(f, u + v) == Map(f, u) + Map(f, v)
  {
    var w := u + v;
    assert forall i :: 0 <= i < |w| ==> w[i] == if i < |u| then u[i] else v[i - |u|];
  }

  /** Mapping the elements of `s` is mapping those before `p`, the one at `p` and those after it. */
  lemma MapRemove<T, U>(f: T -> U, s: seq<T>, p: nat)
    requires p < |s|
    ensures multiset(Map(f, s)) == multiset(Map(f, s[..p] + s[p + 1..])) + multiset{f(s[p])}
  {
    var pre, post := s[..p], s[p + 1..];
    assert s == pre + [s[p]] + post;
    MapAppend(f, pre + [s[p]], post);
    MapAppend(f, pre, [s[p]]);
    MapAppend(f, pre, post);
    assert Map(f, [s[p]]) == [f(s[p])];
  }

  /** Taking the last element off one sequence and an equal element off a permutation of it leaves permutations. */
  lemma PermutationRemove<T>(a: seq<T>, b: seq<T>, p: nat)
    requires multiset(a) == multiset(b) && a != [] && p < |b| && b[p] == a[|a| - 1]
    ensures multiset(a[..|a| - 1]) == multiset(b[..p] + b[p + 1..])
  {
    var init, x := a[..|a| - 1], a[|a| - 1];
    var pre, post := b[..p], b[p + 1..];
    assert a == init + [x];
    assert b == pre + [x] + post;
    forall y ensures multiset(init)[y] == multiset(pre + post)[y] {
      assert multiset(a)[y] == multiset(init)[y] + multiset([x])[y];
      assert multiset(b)[y] == multiset(pre)[y] + multiset([x])[y] + multiset(post)[y];
    }
  }

  /** Mapping a permutation gives a permutation of the mapped sequence. */
  lemma {:induction false} MapPermutation<T, U>(f: T -> U, a: seq<T>, b: seq<T>)
    requires multiset(a) == multiset(b)
    ensures multiset(Map(f, a)) == multiset(Map(f, b))
    decreases |a|
  {
    if a == [] {
      assert |b| == |multiset(b)|;
    } else {
      var x := a[|a| - 1];
      assert x in multiset(b) by {
        assert a == a[..|a| - 1] + [x];
      }
      var p :| 0 <= p < |b| && b[p] == x;
      PermutationRemove(a, b, p);
      MapPermutation(f, a[..|a| - 1], b[..p] + b[p + 1..]);
      MapRemove(f, a, |a| - 1);
      MapRemove(f, b, p);
      assert a[..|a| - 1] + a[|a|..] == a[..|a| - 1];
    }
  }

  /** Picking at strictly increasing positions deletes elements and keeps the order of the rest. */
  lemma {:induction false} IncreasingPickSubsequence<T>(s: seq<T>, sel: seq<nat>)
    requires forall a, b :: 0 <= a < b < |sel| ==> sel[a] < sel[b]
    requires forall a :: 0 <= a < |sel| ==> sel[a] < |s|
    ensures IsSubsequence(Pick(s, sel), s)
    decreases |s|
  {
    var r := Pick(s, sel);
    if sel != [] {
      assert sel[0] < |s|;
      var m := |s| - 1;
      var init := sel[..|sel| - 1];
      assert forall a :: 0 <= a < |init| ==> init[a] < sel[|sel| - 1] <= m;
      assert Pick(s[..m], init) == r[..|r| - 1];
      if sel[|sel| - 1] == m {
        IncreasingPickSubsequence(s[..m], init);
      } else {
        assert Pick(s[..m], sel) == r;
        IncreasingPickSubsequence(s[..m], sel);
        if r[|r| - 1] == s[m] {
          SubsequenceDrop(r, s[..m]);
        }
      }
    }
  }
}

=== FILE: stats.dfy ===
/** The dictionaries `get_text_stats` and `get_summary_stats` build, and the arithmetic in them. */
module Stats {
  import opened Rounding

  /** The `get_text_stats` dictionary. */
  datatype TextStats = TextStats(numSentences: nat, numWords: nat, avgSentenceLength: real, readingTime: int)

  /** The `get_summary_stats` dictionary. */
  datatype SummaryStats = SummaryStats(
    originalLength: nat, summaryLength: nat, compressionRatio: real,
    originalReadingTime: int, summaryReadingTime: int)

  /**
   * `max(1, round(words / 200))`: whole minutes at 200 words a minute, never below one.
   * Above 100 words it is the nearest whole number of minutes, an exact half going to the
   * even one.
   */
  function ReadingTime(numWords: nat): (t: int)
    ensures t >= 1
    ensures numWords <= 100 ==> t == 1
    ensures numWords > 100 ==> 200 * t - 100 <= numWords <= 200 * t + 100
    ensures numWords > 100 && (numWords == 200 * t - 100 || numWords == 200 * t + 100) ==> t % 2 == 0
  {
    var r := RoundHalfEven(numWords as real / 200.0);
    if 1 < r then r else 1
  }

  /** The statistics of a text with `numSentences` sentences and `numWords` words. */
  function MakeTextStats(numSentences: nat, numWords: nat): (st: TextStats)
    ensures st.numSentences == numSentences && st.numWords == numWords
    ensures numSentences == 0 ==> st.avgSentenceLength == 0.0
    ensures numSentences > 0 ==> st.avgSentenceLength * numSentences as real == numWords as real
    ensures st.readingTime >= 1 && st.readingTime == ReadingTime(numWords)
  {
    var avg := if numSentences > 0 then numWords as real / numSentences as real else 0.0;
    TextStats(numSentences, numWords, avg, ReadingTime(numWords))
  }

  /** Summary words per original word; 0 for an original without words. */
  function CompressionRatio(summaryWords: nat, originalWords: nat): (r: real)
    ensures originalWords == 0 ==> r == 0.0
    ensures originalWords > 0 ==> r * originalWords as real == summaryWords as real
    ensures 0.0 <= r
    ensures summaryWords <= originalWords ==> r <= 1.0
  {
    if originalWords > 0 then summaryWords as real / originalWords as real else 0.0
  }

  /** The comparison of the statistics of an original text and of its summary. */
  function MakeSummaryStats(original: TextStats, summary: TextStats): (st: SummaryStats)
    ensures st.originalLength == original.numWords && st.summaryLength == summary.numWords
    ensures original.numWords == 0 ==> st.compressionRatio == 0.0
    ensures original.numWords > 0 ==> st.compressionRatio * original.numWords as real == summary.numWords as real
    ensures st.originalReadingTime == original.readingTime && st.summaryReadingTime == summary.readingTime
  {
    SummaryStats(original.numWords, summary.numWords, CompressionRatio(summary.numWords, original.numWords),
                 original.readingTime, summary.readingTime)
  }
}

=== FILE: storage.dfy ===
/**
 * The two pure fragments of `DataStorage` in src/storage.py: the in-memory filter applied to
 * loaded articles (`_apply_filters`) and the WHERE clause `_load_sqlite` builds from the filters.
 * An article is a map from field names to the `str()` of their values; the filters are the
 * `(key, str(value))` pairs of the filter dictionary in its iteration order.
 */
module Storage {
  import opened Seqs
  import opened PyStr

  /** An article record, each value given by its `str()` text. */
  type Record = map<String, String>

  /** One filter entry: a key and the `str()` of its value. */
  type FilterEntry = (String, String)

  /** `str(article.get(key, ''))`. */
  function Get(article: Record, key: String): (v: String)
    ensures key !in article ==> v == []
  {
    if key in article then article[key] else []
  }

  /** The test of one filter: the lower-cased value occurs in the lower-cased field. */
  predicate Matches(article: Record, f: FilterEntry) {
    Contains(Lower(Get(article, f.0)), Lower(f.1))
  }

  /** The test of one filter, as a list-comprehension condition. */
  function MatchesFilter(f: FilterEntry): (p: Record -> bool)
  {
    (article: Record) => Matches(article, f)
  }

  /** The conjunction of the filters. */
  function MatchesAll(filters: seq<FilterEntry>): (p: Record -> bool)
  {
    (article: Record) => forall i :: 0 <= i < |filters| ==> Matches(article, filters[i])
  }

  /** The articles that pass every filter, in their original order. */
  function Filtered(articles: seq<Record>, filters: seq<FilterEntry>): (r: seq<Record>)
    ensures forall a, i :: 0 <= a < |r| && 0 <= i < |filters| ==> Matches(r[a], filters[i])
  {
    var r := Filter(articles, MatchesAll(filters));
    assert forall a :: 0 <= a < |r| ==> MatchesAll(filters)(r[a]);
    r
  }

  /** `_apply_filters`: one list comprehension per filter, in the dictionary's order. */
  method ApplyFilters(articles: seq<Record>, filters: seq<FilterEntry>) returns (filtered: seq<Record>)
    ensures filtered == Filtered(articles, filters)
  {
    filtered := articles;
    FilterAll(articles, MatchesAll([]));
    for i := 0 to |filters|
      invariant filtered == Filter(articles, MatchesAll(filters[..i]))
    {
      FilterStep(articles, filters, i);
      filtered := Filter(filtered, MatchesFilter(filters[i]));
    }
    assert filters[..|filters|] == filters;
  }

  /** Filtering by the first `i` filters and then by filter `i` is filtering by the first `i + 1`. */
  lemma FilterStep(articles: seq<Record>, filters: seq<FilterEntry>, i: nat)
    requires i < |filters|
    ensures Filter(Filter(articles, MatchesAll(filters[..i])), MatchesFilter(filters[i]))
         == Filter(articles, MatchesAll(filters[..i + 1]))
  {
    forall a | 0 <= a < |articles|
      ensures MatchesAll(filters[..i + 1])(articles[a]) <==>
        MatchesAll(filters[..i])(articles[a]) && MatchesFilter(filters[i])(articles[a])
    {
      assert forall j :: 0 <= j < i ==> filters[..i + 1][j] == filters[..i][j];
      assert filters[..i + 1][i] == filters[i];
    }
    FilterAnd(articles, MatchesAll(filters[..i]), MatchesFilter(filters[i]), MatchesAll(filters[..i + 1]));
  }

  /** The filtered list keeps articles in their original order and invents none. */
  lemma FilteredSubsequence(articles: seq<Record>, filters: seq<FilterEntry>)
    ensures IsSubsequence(Filtered(articles, filters), articles)
    ensures |Filtered(articles, filters)| <= |articles|
  {
    FilterIsSubsequence(articles, MatchesAll(filters));
  }

  /** An article is kept exactly when it is one of the input and passes every filter. */
  lemma FilteredMembership(articles: seq<Record>, filters: seq<FilterEntry>, article: Record)
    ensures article in Filtered(articles, filters) <==>
      article in articles && forall i :: 0 <= i < |filters| ==> Matches(article, filters[i])
  {
    FilterMembership(articles, MatchesAll(filters), article);
  }

  /** Without filters the list comes back unchanged. */
  lemma NoFilters(articles: seq<Record>)
    ensures Filtered(articles, []) == articles
  {
    FilterAll(articles, MatchesAll([]));
  }

  /** Filters form a conjunction: listing the same filters in another order keeps the same articles. */
  lemma FilterOrderIrrelevant(articles: seq<Record>, filters1: seq<FilterEntry>, filters2: seq<FilterEntry>)
    requires forall f :: f in filters1 <==> f in filters2
    ensures Filtered(articles, filters1) == Filtered(articles, filters2)
  {
    forall a | 0 <= a < |articles|
      ensures MatchesAll(filters1)(articles[a]) <==> MatchesAll(filters2)(articles[a])
    {
      if MatchesAll(filters1)(articles[a]) {
        forall i | 0 <= i < |filters2| ensures Matches(articles[a], filters2[i]) {
          assert filters2[i] in filters1;
        }
      }
      if MatchesAll(filters2)(articles[a]) {
        forall i | 0 <= i < |filters1| ensures Matches(articles[a], filters1[i]) {
          assert filters1[i] in filters2;
        }
      }
    }
    FilterCongruent(articles, MatchesAll(filters1), MatchesAll(filters2));
  }

  /** A filter on a field the article lacks keeps it only when the filter value's text is empty. */
  lemma MissingKey(article: Record, key: String, value: String)
    requires key !in article
    ensures Matches(article, (key, value)) <==> value == []
  {
    ContainsInEmpty(Lower(value));
  }

  /** The filter keys `_load_sqlite` turns into SQL conditions. */
  predicate IsSearchable(f: FilterEntry) {
    f.0 == "url" || f.0 == "title" || f.0 == "author"
  }

  /** The condition for one searchable filter. */
  function Condition(f: FilterEntry): (c: String)
  {
    f.0 + " LIKE ?"
  }

  /** The parameter for one searchable filter: the value between `%` wildcards. */
  function Parameter(f: FilterEntry): (p: String)
  {
    "%" + f.1 + "%"
  }

  /** The query text for the given conditions: a WHERE clause only when there is one. */
  function Query(conditions: seq<String>): (q: String)
  {
    "SELECT * FROM articles" + (if conditions == [] then "" else " WHERE " + Join(conditions, " AND "))
  }

  /**
   * The query of `_load_sqlite`: one condition and one parameter per filter on `url`,
   * `title` or `author`, in the filters' order, and any other filter ignored.
   */
  method BuildQuery(filters: seq<FilterEntry>) returns (query: String, params: seq<String>)
    ensures var searchable := Filter(filters, IsSearchable);
            |params| == |searchable| &&
            (forall i :: 0 <= i < |params| ==> params[i] == Parameter(searchable[i])) &&
            query == Query(seq(|searchable|, i requires 0 <= i < |searchable| => Condition(searchable[i])))
  {
    query := "SELECT * FROM articles";
    params := [];
    var conditions: seq<String> := [];
    if filters != [] {
      for i := 0 to |filters|
        invariant var searchable := Filter(filters[..i], IsSearchable);
                  |params| == |conditions| == |searchable| &&
                  (forall j :: 0 <= j < |params| ==> params[j] == Parameter(searchable[j])) &&
                  (forall j :: 0 <= j < |conditions| ==> conditions[j] == Condition(searchable[j]))
      {
        SearchableStep(filters, i);
        var f := filters[i];
        if f.0 == "url" || f.0 == "title" || f.0 == "author" {
          conditions := conditions + [f.0 + " LIKE ?"];
          params := params + ["%" + f.1 + "%"];
        }
      }
      assert filters[..|filters|] == filters;
      if conditions != [] {
        query := query + " WHERE " + Join(conditions, " AND ");
      }
    }
    var searchable := Filter(filters, IsSearchable);
    assert conditions == seq(|searchable|, i requires 0 <= i < |searchable| => Condition(searchable[i]));
  }

  lemma SearchableStep(filters: seq<FilterEntry>, i: nat)
    requires i < |filters|
    ensures Filter(filters[..i + 1], IsSearchable) ==
      Filter(filters[..i], IsSearchable) + (if IsSearchable(filters[i]) then [filters[i]] else [])
  {
    assert filters[..i + 1][..i] == filters[..i];
  }

  /** Without a filter on `url`, `title` or `author` the query has no WHERE clause. */
  lemma NoSearchableFilter(filters: seq<FilterEntry>)
    requires forall i :: 0 <= i < |filters| ==> !IsSearchable(filters[i])
    ensures var searchable := Filter(filters, IsSearchable);
            Query(seq(|searchable|, i requires 0 <= i < |searchable| => Condition(searchable[i]))) == "SELECT * FROM articles"
  {
    var searchable := Filter(filters, IsSearchable);
    if searchable != [] {
      assert IsSearchable(searchable[0]);
      FilterMembership(filters, IsSearchable, searchable[0]);
    }
  }

  /** The query has exactly one `?` placeholder per parameter. */
  lemma PlaceholdersMatchParameters(filters: seq<FilterEntry>)
    ensures var searchable := Filter(filters, IsSearchable);
            Count(Query(seq(|searchable|, i requires 0 <= i < |searchable| => Condition(searchable[i]))), '?') == |searchable|
  {
    var searchable := Filter(filters, IsSearchable);
    var conditions := seq(|searchable|, i requires 0 <= i < |searchable| => Condition(searchable[i]));
    var base := "SELECT * FROM articles";
    NoPlaceholder(base);
    if conditions != [] {
      forall i | 0 <= i < |conditions| ensures Count(conditions[i], '?') == 1 {
        ConditionPlaceholder(searchable[i]);
      }
      NoPlaceholder(" AND ");
      JoinCountEach(conditions, " AND ", '?');
      NoPlaceholder(" WHERE ");
      CountAppend(" WHERE ", Join(conditions, " AND "), '?');
      CountAppend(base, " WHERE " + Join(conditions, " AND "), '?');
    } else {
      assert Query(conditions) == base + "";
      assert base + "" == base;
    }
  }

  /** The condition for a filter on `url`, `title` or `author` holds one placeholder. */
  lemma ConditionPlaceholder(f: FilterEntry)
    requires IsSearchable(f)
    ensures Count(Condition(f), '?') == 1
  {
    assert '?' !in f.0;
    CountAppend(f.0, " LIKE ?", '?');
    assert Count(" LIKE ?", '?') == 1;
  }

  lemma NoPlaceholder(s: String)
    requires s == "SELECT * FROM articles" || s == " AND " || s == " WHERE "
    ensures Count(s, '?') == 0
  {
    assert '?' !in s;
  }
}

=== FILE: summarizer.dfy ===
/**
 * `ArticleSummarizer` of src/summarizer.py: a frequency-scored method ("gensim"), a
 * heuristic-scored method ("extractive"), a positional fallback and summary statistics,
 * all on the sentences of src/processor.py. The NLTK stopword list is the parameter `stop`.
 */
module Summarizer {
  import opened Wrappers
  import opened Seqs
  import opened PyStr
  import opened Rounding
  import opened Ranking
  import opened Stats
  import Processor

  /** The `ValueError` raised for an empty text. */
  datatype SummarizeError = EmptyText

  /** The filter of `_calculate_word_freq`: alphanumeric and not a stopword. */
  function IsFreqWord(stop: set<String>): (p: String -> bool)
  {
    (w: String) => IsAlnumWord(w) && w !in stop
  }

  /**
   * The words `_calculate_word_freq` counts, in text order: lower-cased tokens that are
   * alphanumeric and not stopwords. The frequency of `w` is `Count(FreqWords(text, stop), w)`.
   */
  function FreqWords(text: String, stop: set<String>): (words: seq<String>)
    ensures forall i :: 0 <= i < |words| ==> IsAlnumWord(words[i]) && words[i] !in stop
    ensures forall w :: w in words <==> w in Split(Lower(text)) && IsAlnumWord(w) && w !in stop
  {
    var words := Filter(Split(Lower(text)), IsFreqWord(stop));
    forall w ensures w in words <==> w in Split(Lower(text)) && IsAlnumWord(w) && w !in stop {
      FilterMembership(Split(Lower(text)), IsFreqWord(stop), w);
    }
    words
  }

  /** Whether a word of a sentence adds to its score: alphanumeric and counted. */
  predicate Scores(w: String, freq: seq<String>) {
    IsAlnumWord(w) && w in freq
  }

  /**
   * `sum(word_freq[word] for word in words if word.isalnum())`: zero exactly when no word
   * of `words` is an alphanumeric counted word.
   */
  function FreqSum(words: seq<String>, freq: seq<String>): (total: nat)
    ensures total == 0 <==> forall i :: 0 <= i < |words| ==> !Scores(words[i], freq)
  {
    if words == [] then 0
    else
      var w := words[|words| - 1];
      FreqSum(words[..|words| - 1], freq) + (if IsAlnumWord(w) then Count(freq, w) else 0)
  }

  /**
   * `_score_sentence`: the summed frequencies of the sentence's alphanumeric words per word,
   * 0 for a sentence without words. It is never negative, and 0 exactly when no word of the
   * sentence is counted.
   */
  function ScoreSentence(sentence: String, freq: seq<String>): (r: real)
    ensures r >= 0.0
    ensures Split(Lower(sentence)) == [] ==> r == 0.0
    ensures r == 0.0 <==> forall i :: 0 <= i < |Split(Lower(sentence))| ==> !Scores(Split(Lower(sentence))[i], freq)
  {
    var words := Split(Lower(sentence));
    if words == [] then 0.0
    else
      var total := FreqSum(words, freq);
      assert total == 0 <==> forall i :: 0 <= i < |words| ==> !Scores(words[i], freq);
      var r := total as real / |words| as real;
      assert r == 0.0 <==> total == 0 by {
        assert r * |words| as real == total as real;
      }
      assert words == Split(Lower(sentence));
      assert r == 0.0 <==> forall i :: 0 <= i < |Split(Lower(sentence))| ==> !Scores(Split(Lower(sentence))[i], freq);
      r
  }

  /** The number of words of every sentence together (`sum(len(s.split()) for s in sentences)`). */
  function TotalWords(sentences: seq<String>): (total: nat)
  {
    if sentences == [] then 0 else TotalWords(sentences[..|sentences| - 1]) + |Split(sentences[|sentences| - 1])|
  }

  /** Sentences of more than three words each have more than three words per sentence together. */
  lemma {:induction false} TotalWordsLong(sentences: seq<String>)
    requires forall i :: 0 <= i < |sentences| ==> |Split(sentences[i])| > 3
    ensures TotalWords(sentences) >= 4 * |sentences|
  {
    if sentences != [] {
      TotalWordsLong(sentences[..|sentences| - 1]);
    }
  }

  /**
   * `round(word_count / (total / n))` capped at `n`; a division by zero (no words) is `None`.
   * Never above the nearest whole number to `word_count * n / total` (an exact half going to
   * the even one), and equal to it below `n`; a negative `word_count` gives no more than 0:
   * there is no lower bound.
   */
  function WordTarget(n: nat, totalWords: nat, wordCount: int): (k: Option<int>)
    ensures totalWords == 0 <==> k == None
    ensures k.Some? ==> k.value <= n
    ensures k.Some? ==>
      var x := wordCount as real * n as real / totalWords as real; k.value as real <= x + 0.5
    ensures k.Some? && k.value < n ==>
      var x := wordCount as real * n as real / totalWords as real; x - 0.5 <= k.value as real
    ensures k.Some? ==>
      var x := wordCount as real * n as real / totalWords as real; k.value as real == x + 0.5 ==> k.value % 2 == 0
    ensures k.Some? && k.value < n ==>
      var x := wordCount as real * n as real / totalWords as real; k.value as real == x - 0.5 ==> k.value % 2 == 0
    ensures k.Some? && wordCount <= 0 ==> k.value <= 0
  {
    if totalWords == 0 then None
    else
      var p := wordCount as real * n as real;
      assert wordCount <= 0 ==> p <= 0.0;
      var x := p / totalWords as real;
      assert wordCount <= 0 ==> x <= 0.0;
      var r := RoundHalfEven(x);
      assert n < r ==> n as real <= x - 0.5;
      Some(Min(n, r))
  }

  /** The clauses of `WordTarget`'s contract leave one value: any `k` meeting them is the target. */
  lemma WordTargetPinned(n: nat, totalWords: nat, wordCount: int, k: int)
    requires totalWords > 0
    requires k <= n
    requires var x := wordCount as real * n as real / totalWords as real; k as real <= x + 0.5
    requires var x := wordCount as real * n as real / totalWords as real; k < n ==> x - 0.5 <= k as real
    requires var x := wordCount as real * n as real / totalWords as real; k as real == x + 0.5 ==> k % 2 == 0
    requires var x := wordCount as real * n as real / totalWords as real; k < n && k as real == x - 0.5 ==> k % 2 == 0
    ensures WordTarget(n, totalWords, wordCount) == Some(k)
  {
    var x := wordCount as real * n as real / totalWords as real;
    assert WordTarget(n, totalWords, wordCount) == Some(Min(n, RoundHalfEven(x)));
    CappedRoundUnique(x, n, k);
  }

  /**
   * `max(1, round(n * ratio))`: one up to `n * ratio == 0.5`, above that the nearest whole
   * number to `n * ratio`, an exact half going to the even one.
   */
  function RatioTarget(n: nat, ratio: real): (k: int)
    ensures k >= 1
    ensures n as real * ratio <= 0.5 ==> k == 1
    ensures n as real * ratio > 0.5 ==> n as real * ratio - 0.5 <= k as real <= n as real * ratio + 0.5
    ensures n as real * ratio > 0.5 && (k as real == n as real * ratio - 0.5 || k as real == n as real * ratio + 0.5) ==> k % 2 == 0
  {
    Max(1, RoundHalfEven(n as real * ratio))
  }

  /** A larger ratio never asks for fewer sentences. */
  lemma RatioTargetMonotone(n: nat, ratio1: real, ratio2: real)
    requires ratio1 <= ratio2
    ensures RatioTarget(n, ratio1) <= RatioTarget(n, ratio2)
  {
    var d := ratio2 - ratio1;
    assert n as real * d >= 0.0;
    assert n as real * ratio2 == n as real * ratio1 + n as real * d;
    RoundMonotone(n as real * ratio1, n as real * ratio2);
  }

  /**
   * `num_sentences` of both methods: a non-zero `word_count` takes precedence (`if word_count:`,
   * so 0 counts as absent); `None` is the division by zero when there are no words.
   */
  function TargetCount(n: nat, totalWords: nat, ratio: real, wordCount: Option<int>): (k: Option<int>)
    ensures (wordCount == None || wordCount == Some(0)) ==> k == Some(RatioTarget(n, ratio))
    ensures wordCount.Some? && wordCount.value != 0 ==> k == WordTarget(n, totalWords, wordCount.value)
  {
    match wordCount
    case Some(w) => if w != 0 then WordTarget(n, totalWords, w) else Some(RatioTarget(n, ratio))
    case None => Some(RatioTarget(n, ratio))
  }

  /**
   * The positions `_gensim_summarize` joins: the `(sentence, score)` list sorted by descending
   * score (stable), cut to `k`, each sentence mapped back by `sentences.index`, sorted. A
   * sentence text that occurs twice therefore always maps to its first position.
   */
  function GensimSelection(sentences: seq<String>, scores: seq<real>, k: int): (idx: seq<nat>)
    requires |scores| == |sentences|
    ensures |idx| == SliceLen(|sentences|, k)
    ensures forall a, b :: 0 <= a < b < |idx| ==> idx[a] <= idx[b]
    ensures forall a :: 0 <= a < |idx| ==> idx[a] < |sentences|
    ensures forall a, j :: 0 <= a < |idx| && 0 <= j < idx[a] ==> sentences[j] != sentences[idx[a]]
  {
    var top := RankedTop(scores, k);
    var firsts := FirstPositions(sentences, top);
    var idx := SortAsc(firsts);
    forall a | 0 <= a < |idx|
      ensures idx[a] < |sentences| && forall j :: 0 <= j < idx[a] ==> sentences[j] != sentences[idx[a]]
    {
      assert idx[a] in multiset(firsts);
      var i :| 0 <= i < |firsts| && firsts[i] == idx[a];
    }
    idx
  }

  /**
   * The gensim positions, as a multiset, are the first occurrences of the top `k` positions by
   * score (ties to the lower position); being sorted, they are fixed by that multiset.
   */
  lemma GensimSelectionTop(sentences: seq<String>, scores: seq<real>, k: int)
    requires |scores| == |sentences|
    ensures multiset(GensimSelection(sentences, scores, k)) == multiset(FirstPositions(sentences, TopIndices(scores, k)))
  {
    var top := RankedTop(scores, k);
    var firsts := FirstPositions(sentences, top);
    assert GensimSelection(sentences, scores, k) == SortAsc(firsts);
    FirstPositionsPermutation(sentences, top, TopIndices(scores, k));
  }

  /** The positions ranked by a stable descending sort on their scores, cut to `k`. */
  function RankedTop(scores: seq<real>, k: int): (top: seq<nat>)
    ensures |top| == SliceLen(|scores|, k)
    ensures forall i :: 0 <= i < |top| ==> top[i] < |scores|
    ensures multiset(top) == multiset(TopIndices(scores, k))
  {
    var ranked := SortDesc(Range(|scores|), ScoreKey(scores));
    SortDescMembers(Range(|scores|), ScoreKey(scores));
    var top := Slice(ranked, k);
    assert forall i :: 0 <= i < |top| ==> top[i] < |scores| by {
      forall i | 0 <= i < |top| ensures top[i] < |scores| {
        assert top[i] == ranked[i] && ranked[i] in Range(|scores|);
      }
    }
    top
  }

  /** `sentences.index(sentence)` for the sentence at each position: its first occurrence. */
  function FirstPositions(sentences: seq<String>, top: seq<nat>): (firsts: seq<nat>)
    requires forall i :: 0 <= i < |top| ==> top[i] < |sentences|
    ensures |firsts| == |top|
    ensures forall i :: 0 <= i < |top| ==> firsts[i] <= top[i] && sentences[firsts[i]] == sentences[top[i]]
    ensures forall i, j :: 0 <= i < |top| && 0 <= j < firsts[i] ==> sentences[j] != sentences[firsts[i]]
  {
    seq(|top|, i requires 0 <= i < |top| => IndexOf(sentences, sentences[top[i]]))
  }

  /** `sentences.index(sentences[i])` as a function of the position `i`. */
  function FirstOf(sentences: seq<String>): (f: nat -> nat)
  {
    (i: nat) => if i < |sentences| then IndexOf(sentences, sentences[i]) else 0
  }

  /** Mapping positions through `sentences.index` maps a permutation to a permutation. */
  lemma FirstPositionsPermutation(sentences: seq<String>, a: seq<nat>, b: seq<nat>)
    requires forall i :: 0 <= i < |a| ==> a[i] < |sentences|
    requires multiset(a) == multiset(b)
    ensures forall i :: 0 <= i < |b| ==> b[i] < |sentences|
    ensures multiset(FirstPositions(sentences, a)) == multiset(FirstPositions(sentences, b))
  {
    forall i | 0 <= i < |b| ensures b[i] < |sentences| {
      assert b[i] in multiset(a);
      var j :| 0 <= j < |a| && a[j] == b[i];
    }
    MapPermutation(FirstOf(sentences), a, b);
    assert FirstPositions(sentences, a) == Map(FirstOf(sentences), a);
    assert FirstPositions(sentences, b) == Map(FirstOf(sentences), b);
  }

  /** With no repeated sentence, the gensim positions are the top `k` positions by score. */
  lemma GensimDistinct(sentences: seq<String>, scores: seq<real>, k: int)
    requires |scores| == |sentences| && NoDup(sentences)
    ensures GensimSelection(sentences, scores, k) == TopIndices(scores, k)
  {
    var top := RankedTop(scores, k);
    var firsts := FirstPositions(sentences, top);
    forall i | 0 <= i < |top| ensures firsts[i] == top[i] {
      IndexOfNoDup(sentences, top[i]);
    }
    assert firsts == top;
  }

  /** `' '.join` of the sentences at `idx`. */
  function JoinAt(sentences: seq<String>, idx: seq<nat>): (r: String)
    requires forall a :: 0 <= a < |idx| ==> idx[a] < |sentences|
    ensures Split(r) == Flatten(seq(|idx|, a requires 0 <= a < |idx| => Split(sentences[idx[a]])))
  {
    var picked := Pick(sentences, idx);
    SplitJoin(picked);
    assert seq(|picked|, a requires 0 <= a < |picked| => Split(picked[a]))
        == seq(|idx|, a requires 0 <= a < |idx| => Split(sentences[idx[a]]));
    Join(picked, " ")
  }

  /** Joining sentences of src/processor.py with spaces never brings in a `.`, `!` or `?`. */
  lemma JoinAtNoTerminator(text: String, idx: seq<nat>)
    requires forall a :: 0 <= a < |idx| ==> idx[a] < |Processor.Sentences(text)|
    ensures var r := JoinAt(Processor.Sentences(text), idx); '.' !in r && '!' !in r && '?' !in r
  {
    var sentences := Processor.Sentences(text);
    Processor.SentencesWellFormed(text);
    PickedNoTerminator(sentences, idx);
  }

  lemma PickedNoTerminator(sentences: seq<String>, idx: seq<nat>)
    requires forall i :: 0 <= i < |sentences| ==> Processor.WellFormedSentence(sentences[i])
    requires forall a :: 0 <= a < |idx| ==> idx[a] < |sentences|
    ensures var r := Join(Pick(sentences, idx), " "); '.' !in r && '!' !in r && '?' !in r
  {
    var picked := Pick(sentences, idx);
    assert forall a :: 0 <= a < |picked| ==> Processor.WellFormedSentence(picked[a]);
    JoinExcludes(picked, " ", '.');
    JoinExcludes(picked, " ", '!');
    JoinExcludes(picked, " ", '?');
  }

  /**
   * `_gensim_summarize`: no sentences give ""; otherwise the sentences are scored by word
   * frequency, the gensim positions are joined with spaces, and an empty join or a failure
   * (a division by zero in the length target) falls back to `_fallback_summarize`.
   */
  function GensimSummarize(text: String, ratio: real, wordCount: Option<int>, stop: set<String>): (r: String)
    ensures Processor.Sentences(text) == [] ==> r == []
    ensures Processor.Sentences(text) != [] ==> r != []
    ensures '.' !in r && '!' !in r && '?' !in r
  {
    var sentences := Processor.Sentences(text);
    if sentences == [] then []
    else
      var scores := FrequencyScores(sentences, FreqWords(text, stop));
      match TargetCount(|sentences|, |Split(text)|, ratio, wordCount)
      case None => Fallback(text, ratio)
      case Some(k) =>
        var idx := GensimSelection(sentences, scores, k);
        var summary := JoinAt(sentences, idx);
        JoinAtNoTerminator(text, idx);
        if summary != [] then summary else Fallback(text, ratio)
  }

  /** `_score_sentence` of every sentence against the counted words `freq`. */
  function FrequencyScores(sentences: seq<String>, freq: seq<String>): (scores: seq<real>)
    ensures |scores| == |sentences|
    ensures forall i :: 0 <= i < |sentences| ==> scores[i] == ScoreSentence(sentences[i], freq)
  {
    seq(|sentences|, i requires 0 <= i < |sentences| => ScoreSentence(sentences[i], freq))
  }

  /**
   * When some gensim position is chosen, the gensim summary is the sentences at those
   * positions joined with spaces, so its words are theirs, in order.
   */
  lemma GensimWords(text: String, ratio: real, wordCount: Option<int>, stop: set<String>,
                    sentences: seq<String>, k: int, idx: seq<nat>)
    requires sentences == Processor.Sentences(text) && sentences != []
    requires TargetCount(|sentences|, |Split(text)|, ratio, wordCount) == Some(k)
    requires idx == GensimSelection(sentences, FrequencyScores(sentences, FreqWords(text, stop)), k) && idx != []
    ensures GensimSummarize(text, ratio, wordCount, stop) == Join(Pick(sentences, idx), " ")
    ensures Split(GensimSummarize(text, ratio, wordCount, stop))
         == Flatten(seq(|idx|, a requires 0 <= a < |idx| => Split(sentences[idx[a]])))
  {
    JoinedNonEmpty(text, idx);
    var summary := JoinAt(sentences, idx);
    assert summary == Join(Pick(sentences, idx), " ");
    assert GensimSummarize(text, ratio, wordCount, stop) == summary;
  }

  /** Without a length target, or with no position chosen, gensim gives the positional fallback. */
  lemma GensimFallback(text: String, ratio: real, wordCount: Option<int>, stop: set<String>, sentences: seq<String>)
    requires sentences == Processor.Sentences(text) && sentences != []
    requires match TargetCount(|sentences|, |Split(text)|, ratio, wordCount)
             case None => true
             case Some(k) => SliceLen(|sentences|, k) == 0
    ensures GensimSummarize(text, ratio, wordCount, stop) == Fallback(text, ratio)
  {
    match TargetCount(|sentences|, |Split(text)|, ratio, wordCount)
    case None =>
    case Some(k) =>
      var scores := FrequencyScores(sentences, FreqWords(text, stop));
      EmptyJoin(sentences, GensimSelection(sentences, scores, k));
  }

  lemma EmptyJoin(sentences: seq<String>, idx: seq<nat>)
    requires idx == []
    ensures JoinAt(sentences, idx) == []
  {
    assert Pick(sentences, idx) == [];
  }

  /** Joining at least one sentence of src/processor.py gives a non-empty text: each has words. */
  lemma JoinedNonEmpty(text: String, idx: seq<nat>)
    requires idx != [] && forall a :: 0 <= a < |idx| ==> idx[a] < |Processor.Sentences(text)|
    ensures JoinAt(Processor.Sentences(text), idx) != []
  {
    var sentences := Processor.Sentences(text);
    Processor.SentencesWellFormed(text);
    var ss := seq(|idx|, a requires 0 <= a < |idx| => Split(sentences[idx[a]]));
    assert ss[|ss| - 1] != [];
    assert Flatten(ss) == Flatten(ss[..|ss| - 1]) + ss[|ss| - 1];
    assert Split(JoinAt(sentences, idx)) != [];
  }

  /** The position test `i < n * 0.2 or i > n * 0.8`, on exact rationals. */
  predicate PositionBonus(i: nat, n: nat) {
    5 * i < n || 5 * i > 4 * n
  }

  /** The first sentence always gets the position bonus; the last one only alone or among more than five. */
  lemma PositionBonusEnds(n: nat)
    requires n >= 1
    ensures PositionBonus(0, n)
    ensures PositionBonus(n - 1, n) <==> n == 1 || n > 5
  {
  }

  /** `len(extract_keywords(sentence, 10))`: the number of keywords of one sentence, at most 10. */
  function KeywordCount(sentence: String, stop: set<String>): (c: nat)
    ensures c <= 10
  {
    |Processor.ExtractKeywords(sentence, 10, stop)|
  }

  /**
   * The `_score_sentences` score of sentence `i`, in tenths: 3 for 5 to 25 words, 3 for
   * the position bonus, 1 per keyword (at most 10); so a whole number of tenths in [0, 16].
   */
  function SentenceScore(sentences: seq<String>, i: nat, stop: set<String>): (score: int)
    requires i < |sentences|
    ensures 0 <= score <= 16
    ensures PositionBonus(i, |sentences|) ==> score >= 3
    ensures 5 <= |Split(sentences[i])| <= 25 ==> score >= 3
    ensures !PositionBonus(i, |sentences|) && !(5 <= |Split(sentences[i])| <= 25) ==> score <= 10
  {
    var words := |Split(sentences[i])|;
    (if 5 <= words <= 25 then 3 else 0)
    + (if PositionBonus(i, |sentences|) then 3 else 0)
    + KeywordCount(sentences[i], stop)
  }

  /** `_score_sentences`: the loop over the sentences, one score (in tenths) per sentence. */
  method ScoreSentences(sentences: seq<String>, stop: set<String>) returns (scores: seq<int>)
    ensures |scores| == |sentences|
    ensures forall i :: 0 <= i < |sentences| ==> scores[i] == SentenceScore(sentences, i, stop)
    ensures forall i :: 0 <= i < |sentences| ==> 0 <= scores[i] <= 16
  {
    scores := [];
    for i := 0 to |sentences|
      invariant |scores| == i
      invariant forall j :: 0 <= j < i ==> scores[j] == SentenceScore(sentences, j, stop)
    {
      var words := |Split(sentences[i])|;
      var score := 0;
      if 5 <= words <= 25 {
        score := score + 3;
      }
      if 5 * i < |sentences| || 5 * i > 4 * |sentences| {
        score := score + 3;
      }
      score := score + KeywordCount(sentences[i], stop);
      ScoredExtend(sentences, stop, scores, score);
      scores := scores + [score];
    }
  }

  lemma ScoredExtend(sentences: seq<String>, stop: set<String>, scores: seq<int>, score: int)
    requires |scores| < |sentences|
    requires forall j :: 0 <= j < |scores| ==> scores[j] == SentenceScore(sentences, j, stop)
    requires score == SentenceScore(sentences, |scores|, stop)
    ensures forall j :: 0 <= j <= |scores| ==> (scores + [score])[j] == SentenceScore(sentences, j, stop)
  {
  }

  /** The scores of every sentence, as the ranking compares them. */
  function SentenceScores(sentences: seq<String>, stop: set<String>): (scores: seq<real>)
    ensures |scores| == |sentences|
    ensures forall i :: 0 <= i < |sentences| ==> scores[i] == SentenceScore(sentences, i, stop) as real
  {
    seq(|sentences|, i requires 0 <= i < |sentences| => SentenceScore(sentences, i, stop) as real)
  }

  /**
   * `_select_sentences`: the sentences at the top `k` positions (ties to the lower position),
   * in their original order; a subsequence of the input of length `min(k, n)` for `k >= 0`.
   * The positions are the only top selection (`TopSelectionUnique`).
   */
  function SelectSentences(sentences: seq<String>, scores: seq<real>, k: int): (r: seq<String>)
    requires |scores| == |sentences|
    ensures |r| == SliceLen(|sentences|, k)
    ensures IsSubsequence(r, sentences)
    ensures exists sel :: IsTopSelection(scores, k, sel) && r == Pick(sentences, sel)
  {
    var sel := TopIndices(scores, k);
    IncreasingPickSubsequence(sentences, sel);
    Pick(sentences, sel)
  }

  /**
   * `_extractive_summarize`: no sentences give ""; otherwise the selected sentences joined
   * with spaces. `None` stands for an exception; it never happens, because every sentence has
   * more than three words.
   */
  function ExtractiveSummarize(text: String, ratio: real, wordCount: Option<int>, stop: set<String>): (r: Option<String>)
    ensures r.Some?
    ensures Processor.Sentences(text) == [] ==> r == Some([])
    ensures '.' !in r.value && '!' !in r.value && '?' !in r.value
  {
    var sentences := Processor.Sentences(text);
    if sentences == [] then Some([])
    else
      Processor.SentencesWellFormed(text);
      TotalWordsLong(sentences);
      match TargetCount(|sentences|, TotalWords(sentences), ratio, wordCount)
      case None => None
      case Some(k) =>
        var sel := TopIndices(SentenceScores(sentences, stop), k);
        JoinAtNoTerminator(text, sel);
        Some(JoinAt(sentences, sel))
  }

  /**
   * The extractive summary is the `_select_sentences` choice joined with spaces, so its words
   * are those of the chosen sentences, in order. The length target always exists, since every
   * sentence has words.
   */
  lemma ExtractiveSelects(text: String, ratio: real, wordCount: Option<int>, stop: set<String>)
    requires Processor.Sentences(text) != []
    ensures var sentences := Processor.Sentences(text);
            var k := TargetCount(|sentences|, TotalWords(sentences), ratio, wordCount);
            k.Some? &&
            var chosen := SelectSentences(sentences, SentenceScores(sentences, stop), k.value);
            ExtractiveSummarize(text, ratio, wordCount, stop).value == Join(chosen, " ") &&
            Split(ExtractiveSummarize(text, ratio, wordCount, stop).value)
              == Flatten(seq(|chosen|, a requires 0 <= a < |chosen| => Split(chosen[a])))
  {
    var sentences := Processor.Sentences(text);
    Processor.SentencesWellFormed(text);
    TotalWordsLong(sentences);
    var k := TargetCount(|sentences|, TotalWords(sentences), ratio, wordCount).value;
    var sel := TopIndices(SentenceScores(sentences, stop), k);
    assert ExtractiveSummarize(text, ratio, wordCount, stop).value == JoinAt(sentences, sel);
    JoinAtPick(sentences, sel);
  }

  /** The words of the sentences at `idx` joined with spaces are those of the picked sentences. */
  lemma JoinAtPick(sentences: seq<String>, idx: seq<nat>)
    requires forall a :: 0 <= a < |idx| ==> idx[a] < |sentences|
    ensures var picked := Pick(sentences, idx);
            Split(JoinAt(sentences, idx)) == Flatten(seq(|picked|, a requires 0 <= a < |picked| => Split(picked[a])))
  {
    var picked := Pick(sentences, idx);
    assert seq(|picked|, a requires 0 <= a < |picked| => Split(picked[a]))
        == seq(|idx|, a requires 0 <= a < |idx| => Split(sentences[idx[a]]));
  }

  /**
   * A word count whose target rounds to zero sentences selects nothing: the extractive
   * method then returns "", while the empty gensim summary falls back to the positional one.
   */
  lemma ZeroTargetExtractive(text: String, ratio: real, w: int, stop: set<String>)
    requires Processor.Sentences(text) != [] && w != 0
    requires TargetCount(|Processor.Sentences(text)|, TotalWords(Processor.Sentences(text)), ratio, Some(w)) == Some(0)
    ensures ExtractiveSummarize(text, ratio, Some(w), stop) == Some([])
  {
  }

  lemma ZeroTargetGensim(text: String, ratio: real, w: int, stop: set<String>)
    requires Processor.Sentences(text) != [] && w != 0
    requires TargetCount(|Processor.Sentences(text)|, |Split(text)|, ratio, Some(w)) == Some(0)
    ensures GensimSummarize(text, ratio, Some(w), stop) == Fallback(text, ratio)
  {
  }

  /** `_fallback_summarize`: the first `max(1, round(n * ratio))` sentences joined with spaces. */
  function Fallback(text: String, ratio: real): (r: String)
    ensures Processor.Sentences(text) == [] ==> r == []
    ensures Processor.Sentences(text) != [] ==> r != []
    ensures '.' !in r && '!' !in r && '?' !in r
  {
    var sentences := Processor.Sentences(text);
    if sentences == [] then []
    else
      var idx := Range(SliceLen(|sentences|, RatioTarget(|sentences|, ratio)));
      JoinAtNoTerminator(text, idx);
      var r := JoinAt(sentences, idx);
      Processor.SentencesWellFormed(text);
      JoinFirst(Pick(sentences, idx), " ");
      r
  }

  /**
   * The fallback summary is `' '.join(sentences[:num_sentences])`, at least one sentence, so
   * its words are the words of the first sentences, in order.
   */
  lemma FallbackWords(text: String, ratio: real)
    requires Processor.Sentences(text) != []
    ensures var sentences := Processor.Sentences(text);
            Fallback(text, ratio) == Join(Slice(sentences, RatioTarget(|sentences|, ratio)), " ")
    ensures var sentences := Processor.Sentences(text);
            var m := SliceLen(|sentences|, RatioTarget(|sentences|, ratio));
            1 <= m && Split(Fallback(text, ratio)) == Flatten(seq(m, a requires 0 <= a < m => Split(sentences[a])))
  {
    var sentences := Processor.Sentences(text);
    var m := SliceLen(|sentences|, RatioTarget(|sentences|, ratio));
    assert Fallback(text, ratio) == JoinAt(sentences, Range(m));
    PickRange(sentences, m);
    JoinFirstWords(sentences, m);
  }

  /** The words of the first `m` sentences joined with spaces are theirs, in order. */
  lemma JoinFirstWords(sentences: seq<String>, m: nat)
    requires m <= |sentences|
    ensures Split(JoinAt(sentences, Range(m))) == Flatten(seq(m, a requires 0 <= a < m => Split(sentences[a])))
  {
    var idx := Range(m);
    assert seq(|idx|, a requires 0 <= a < |idx| => Split(sentences[idx[a]])) == seq(m, a requires 0 <= a < m => Split(sentences[a]));
  }

  /**
   * `summarize`: an empty text is an error; otherwise the text is cleaned and summarised by
   * the named method, and an unknown method or an exception falls back to the positional
   * summary. No summary contains `.`, `!` or `?`.
   */
  function Summarize(text: String, ratio: real, wordCount: Option<int>, summaryMethod: String, stop: set<String>): (r: Result<String, SummarizeError>)
    ensures r.Failure? <==> text == []
    ensures text != [] && summaryMethod != "gensim" && summaryMethod != "extractive" ==> r == Success(Fallback(Processor.Clean(text), ratio))
    ensures text != [] && summaryMethod == "gensim" ==> r == Success(GensimSummarize(Processor.Clean(text), ratio, wordCount, stop))
    ensures text != [] && summaryMethod == "extractive" ==> r == Success(ExtractiveSummarize(Processor.Clean(text), ratio, wordCount, stop).value)
    ensures r.Success? ==> '.' !in r.value && '!' !in r.value && '?' !in r.value
  {
    if text == [] then Failure(EmptyText)
    else
      var cleaned := Processor.Clean(text);
      if summaryMethod == "gensim" then Success(GensimSummarize(cleaned, ratio, wordCount, stop))
      else if summaryMethod == "extractive" then
        match ExtractiveSummarize(cleaned, ratio, wordCount, stop)
        case Some(s) => Success(s)
        case None => Success(Fallback(cleaned, ratio))
      else Success(Fallback(cleaned, ratio))
  }

  /**
   * `get_summary_stats`: word counts of both texts, their ratio (0 for an original without
   * words) and the reading times of both word counts.
   */
  function GetSummaryStats(original: String, summary: String): (st: SummaryStats)
    ensures st.originalLength == |Split(original)| && st.summaryLength == |Split(summary)|
    ensures |Split(original)| == 0 ==> st.compressionRatio == 0.0
    ensures |Split(original)| > 0 ==> st.compressionRatio == |Split(summary)| as real / |Split(original)| as real
    ensures st.originalReadingTime == ReadingTime(|Split(original)|)
    ensures st.summaryReadingTime == ReadingTime(|Split(summary)|)
  {
    MakeSummaryStats(Processor.GetTextStats(original), Processor.GetTextStats(summary))
  }
}

=== FILE: text_processor.dfy ===
/**
 * `TextProcessor` of src/text_processor.py: the same cleaning without paragraph
 * normalisation, a sentence splitter without a length filter, keyword extraction against
 * a fixed list of 25 stopwords, and text statistics.
 */
module TextProcessor {
  import opened Seqs
  import opened PyStr
  import opened Normalize
  import opened Stats
  import Processor
  import Counter

  /** The fixed stopword list of the constructor. */
  const Stopwords: set<String> := {
    "a", "an", "and", "are", "as", "at", "be", "by", "for", "from",
    "has", "he", "in", "is", "it", "its", "of", "on", "that", "the",
    "to", "was", "were", "will", "with"
  }

  /**
   * `clean`: the empty text stays empty; otherwise lower-case, remove tags and entities,
   * collapse whitespace, drop special characters, strip. The result is lower-case, has no
   * line break, tab, `<`, `>` or `&`, and no space at either end.
   */
  function Clean(text: String): (r: String)
    ensures text == [] ==> r == []
    ensures Processor.Cleaned(text, r)
  {
    if text == [] then []
    else
      var s := Scrub(text);
      Processor.NormalizeParagraphsInert(s);
      var r := Strip(s);
      Processor.CleanCharsKept(text, s, r);
      r
  }

  /** The two cleaners agree on every text: the extra paragraph step of src/processor.py never fires. */
  lemma CleanersAgree(text: String)
    ensures Clean(text) == Processor.Clean(text)
  {
    if text != [] {
      Processor.NormalizeParagraphsInert(Scrub(text));
    }
  }

  predicate NonEmpty(s: String) {
    s != []
  }

  /**
   * `split_into_sentences`: `!` and `?` become `.`, the text is cut at every `.`, and every
   * piece that is not blank is kept, stripped, in order.
   */
  function Sentences(text: String): (r: seq<String>)
    ensures forall i :: 0 <= i < |r| ==> r[i] != [] && !IsSpace(r[i][0]) && !IsSpace(r[i][|r[i]| - 1])
    ensures forall i :: 0 <= i < |r| ==> '.' !in r[i] && '!' !in r[i] && '?' !in r[i]
  {
    var pieces := TerminatorPieces(text);
    var r := Filter(StripAll(pieces), NonEmpty);
    KeptPiecesWellFormed(pieces, r);
    r
  }

  lemma KeptPiecesWellFormed(pieces: seq<String>, r: seq<String>)
    requires forall i :: 0 <= i < |pieces| ==> '.' !in pieces[i] && '!' !in pieces[i] && '?' !in pieces[i]
    requires r == Filter(StripAll(pieces), NonEmpty)
    ensures forall i :: 0 <= i < |r| ==> r[i] != [] && !IsSpace(r[i][0]) && !IsSpace(r[i][|r[i]| - 1])
    ensures forall i :: 0 <= i < |r| ==> '.' !in r[i] && '!' !in r[i] && '?' !in r[i]
  {
    forall i | 0 <= i < |r|
      ensures r[i] != [] && !IsSpace(r[i][0]) && !IsSpace(r[i][|r[i]| - 1])
      ensures '.' !in r[i] && '!' !in r[i] && '?' !in r[i]
    {
      assert NonEmpty(r[i]);
      FilterMembership(StripAll(pieces), NonEmpty, r[i]);
      var j :| 0 <= j < |pieces| && StripAll(pieces)[j] == r[i];
      assert r[i] == Strip(pieces[j]);
    }
  }

  /** A stripped piece is a sentence exactly when it is not empty. */
  lemma SentencesMembership(text: String, s: String)
    ensures s in Sentences(text) <==> s != [] && s in StripAll(TerminatorPieces(text))
  {
    FilterMembership(StripAll(TerminatorPieces(text)), NonEmpty, s);
  }

  /** There are never more sentences than `.`, `!` and `?` plus one. */
  lemma SentencesCount(text: String)
    ensures |Sentences(text)| <= 1 + Count(text, '.') + Count(text, '!') + Count(text, '?')
  {
    TerminatorPiecesCount(text);
  }

  /** A text that is not blank and has no `.`, `!` or `?` is one sentence: itself, stripped. */
  lemma SentencesSingle(text: String)
    requires !IsBlank(text) && '.' !in text && '!' !in text && '?' !in text
    ensures Sentences(text) == [Strip(text)]
  {
    TerminatorPiecesNone(text);
    assert StripAll([text]) == [Strip(text)];
    assert [Strip(text)][..0] == [];
  }

  /**
   * The splitter of src/processor.py keeps exactly the sentences of this one that have more
   * than three words, in the same order.
   */
  lemma SplittersAgree(text: String)
    ensures Processor.Sentences(text) == Filter(Sentences(text), Processor.IsLongSentence)
  {
    var stripped := StripAll(TerminatorPieces(text));
    Processor.KeepSentencesFilter(TerminatorPieces(text));
    FilterFilter(stripped, NonEmpty, Processor.IsLongSentence);
  }

  /**
   * `extract_keywords` with the fixed stopwords: `min(n, d)` of the `d` distinct alphabetic
   * tokens of the lower-cased text outside the list, by descending count, equal counts in
   * order of first occurrence; every word left out is outranked by every word kept.
   */
  function ExtractKeywords(text: String, n: int): (r: seq<String>)
    ensures n <= 0 ==> r == []
    ensures |r| == if n <= 0 then 0 else SliceLen(|Distinct(Processor.KeywordCandidates(text, Stopwords))|, n)
    ensures NoDup(r)
    ensures forall i :: 0 <= i < |r| ==> IsAlphaWord(r[i]) && r[i] !in Stopwords && r[i] in Split(Lower(text))
    ensures forall i, j :: 0 <= i < j < |r| ==>
      Count(Processor.KeywordCandidates(text, Stopwords), r[i]) >= Count(Processor.KeywordCandidates(text, Stopwords), r[j])
    ensures forall i, j :: 0 <= i < j < |r| && Count(Processor.KeywordCandidates(text, Stopwords), r[i]) == Count(Processor.KeywordCandidates(text, Stopwords), r[j]) ==>
      IndexOf(Processor.KeywordCandidates(text, Stopwords), r[i]) < IndexOf(Processor.KeywordCandidates(text, Stopwords), r[j])
    ensures forall w, i :: w in Processor.KeywordCandidates(text, Stopwords) && w !in r && 0 <= i < |r| ==>
      Counter.Outranks(Processor.KeywordCandidates(text, Stopwords), r[i], w)
  {
    Processor.ExtractKeywords(text, n, Stopwords)
  }

  /**
   * `get_text_stats`: the sentence count of this splitter, the whitespace-token count, words
   * per sentence (0 without sentences) and the reading time of that many words.
   */
  function GetTextStats(text: String): (st: TextStats)
    ensures st.numSentences == |Sentences(text)| && st.numWords == |Split(text)|
    ensures st.numSentences == 0 ==> st.avgSentenceLength == 0.0
    ensures st.numSentences > 0 ==> st.avgSentenceLength == st.numWords as real / st.numSentences as real
    ensures st.readingTime == ReadingTime(st.numWords)
    ensures st.readingTime >= 1
    ensures st.numWords <= 100 ==> st.readingTime == 1
  {
    MakeTextStats(|Sentences(text)|, |Split(text)|)
  }
}

=== FILE: text_summarizer.dfy ===
/**
 * `TextSummarizer` of src/text_summarizer.py: frequency, position and length scores over
 * the sentences of `TextProcessor`, the top sentences in text order joined with ". ", and
 * summary statistics. Scores are exact rationals.
 */
module TextSummarizer {
  import opened Seqs
  import opened PyStr
  import opened Rounding
  import opened Ranking
  import opened Stats
  import TextProcessor
  import Summarizer

  /** `' '.join(sentences).lower().split()`: every word of every sentence, lower-cased, in order. */
  function AllWords(sentences: seq<String>): (words: seq<String>)
  {
    Split(Lower(Join(sentences, " ")))
  }

  /** Every lower-cased word of a sentence is among the words counted for the whole list. */
  lemma AllWordsMember(sentences: seq<String>, i: nat, w: String)
    requires i < |sentences| && w in Split(Lower(sentences[i]))
    ensures w in AllWords(sentences)
  {
    var lowered := seq(|sentences|, j requires 0 <= j < |sentences| => Lower(sentences[j]));
    LowerJoin(sentences, " ");
    assert Lower(" ") == " ";
    SplitJoin(lowered);
    var ws := seq(|lowered|, j requires 0 <= j < |lowered| => Split(lowered[j]));
    assert ws[i] == Split(Lower(sentences[i]));
    FlattenMember(ws, i, w);
  }

  /** `sum(word_freq[word] for word in words)` with `word_freq = Counter(all)`. */
  function FreqTotal(words: seq<String>, all: seq<String>): (total: nat)
  {
    if words == [] then 0 else FreqTotal(words[..|words| - 1], all) + Count(all, words[|words| - 1])
  }

  /** When every word is counted, each adds at least one, so the sum is at least the number of words. */
  lemma {:induction false} FreqTotalAtLeast(words: seq<String>, all: seq<String>)
    requires forall i :: 0 <= i < |words| ==> words[i] in all
    ensures FreqTotal(words, all) >= |words|
  {
    if words != [] {
      FreqTotalAtLeast(words[..|words| - 1], all);
    }
  }

  /** The position score: 0.3 in the first fifth, else 0.2 in the last fifth, else nothing. */
  function PositionScore(i: nat, n: nat): (r: real)
    ensures r == 0.3 <==> 5 * i < n
    ensures r == 0.2 <==> 4 * n < 5 * i && n <= 5 * i
    ensures r == 0.0 <==> n <= 5 * i <= 4 * n
  {
    if 5 * i < n then 0.3 else if 5 * i > 4 * n then 0.2 else 0.0
  }

  /**
   * The first sentence gets the early bonus; the last one the early bonus when it is alone,
   * the late bonus among more than five, and none among two to five.
   */
  lemma PositionScoreEnds(n: nat)
    requires n >= 1
    ensures PositionScore(0, n) == 0.3
    ensures n == 1 ==> PositionScore(n - 1, n) == 0.3
    ensures n > 5 ==> PositionScore(n - 1, n) == 0.2
    ensures 2 <= n <= 5 ==> PositionScore(n - 1, n) == 0.0
  {
  }

  /**
   * The `_score_sentences` score of sentence `i`: half the mean frequency of its words, plus
   * the position score, plus 0.2 for 10 to 30 words. Each word is counted at least once, so a
   * sentence with words scores at least one half.
   */
  function SentenceScore(sentences: seq<String>, i: nat): (score: real)
    requires i < |sentences|
    ensures score >= PositionScore(i, |sentences|) >= 0.0
    ensures Split(Lower(sentences[i])) != [] ==> score >= 0.5 + PositionScore(i, |sentences|)
  {
    var words := Split(Lower(sentences[i]));
    var all := AllWords(sentences);
    var wordScore := if words != [] then FreqTotal(words, all) as real / |words| as real else 0.0;
    var lengthScore := if 10 <= |words| <= 30 then 0.2 else 0.0;
    WordScoreAtLeastOne(sentences, i);
    wordScore * 0.5 + PositionScore(i, |sentences|) + lengthScore
  }

  /** Every word of a sentence is counted at least once, so its mean frequency is at least one. */
  lemma WordScoreAtLeastOne(sentences: seq<String>, i: nat)
    requires i < |sentences|
    ensures var words := Split(Lower(sentences[i]));
            words != [] ==> FreqTotal(words, AllWords(sentences)) as real / |words| as real >= 1.0
  {
    var words := Split(Lower(sentences[i]));
    var all := AllWords(sentences);
    if words != [] {
      SentenceWordsCounted(sentences, i);
      FreqTotalAtLeast(words, all);
      MeanAtLeastOne(FreqTotal(words, all), |words|);
    }
  }

  lemma MeanAtLeastOne(total: nat, count: nat)
    requires 0 < count <= total
    ensures total as real / count as real >= 1.0
  {
    var mean := total as real / count as real;
    assert mean * count as real == total as real;
    if mean < 1.0 {
      ScaleStrict(mean, 1.0, count as real);
    }
  }

  lemma ScaleStrict(a: real, b: real, c: real)
    requires a < b && c > 0.0
    ensures a * c < b * c
  {
    var d := b - a;
    assert b * c == a * c + d * c;
    assert d * c > 0.0;
  }

  lemma SentenceWordsCounted(sentences: seq<String>, i: nat)
    requires i < |sentences|
    ensures forall j :: 0 <= j < |Split(Lower(sentences[i]))| ==> Split(Lower(sentences[i]))[j] in AllWords(sentences)
  {
    var words := Split(Lower(sentences[i]));
    forall j | 0 <= j < |words| ensures words[j] in AllWords(sentences) {
      AllWordsMember(sentences, i, words[j]);
    }
  }

  /** `_score_sentences`: the loop over the sentences, one score per sentence. */
  method ScoreSentences(sentences: seq<String>) returns (scores: seq<real>)
    ensures |scores| == |sentences|
    ensures forall i :: 0 <= i < |sentences| ==> scores[i] == SentenceScore(sentences, i)
  {
    var all := AllWords(sentences);
    scores := [];
    for i := 0 to |sentences|
      invariant |scores| == i
      invariant forall j :: 0 <= j < i ==> scores[j] == SentenceScore(sentences, j)
    {
      var score := 0.0;
      var words := Split(Lower(sentences[i]));
      var wordScore := if words != [] then FreqTotal(words, all) as real / |words| as real else 0.0;
      score := score + wordScore * 0.5;
      if 5 * i < |sentences| {
        score := score + 0.3;
      } else if 5 * i > 4 * |sentences| {
        score := score + 0.2;
      }
      if 10 <= |words| <= 30 {
        score := score + 0.2;
      }
      ScoredExtend(sentences, scores, score);
      scores := scores + [score];
    }
  }

  lemma ScoredExtend(sentences: seq<String>, scores: seq<real>, score: real)
    requires |scores| < |sentences|
    requires forall j :: 0 <= j < |scores| ==> scores[j] == SentenceScore(sentences, j)
    requires score == SentenceScore(sentences, |scores|)
    ensures forall j :: 0 <= j <= |scores| ==> (scores + [score])[j] == SentenceScore(sentences, j)
  {
  }

  /** The scores of every sentence. */
  function SentenceScores(sentences: seq<String>): (scores: seq<real>)
    ensures |scores| == |sentences|
    ensures forall i :: 0 <= i < |sentences| ==> scores[i] == SentenceScore(sentences, i)
  {
    seq(|sentences|, i requires 0 <= i < |sentences| => SentenceScore(sentences, i))
  }

  /**
   * `min(max(min_sentences, round(n * ratio)), n)`: between `min_sentences` and `n`, the
   * nearest whole number to `n * ratio`, an exact half going to the even one; a rounded
   * value below `min_sentences` is raised to it and one above `n` is cut to `n`.
   */
  function TargetCount(n: nat, ratio: real, minSentences: int): (k: int)
    ensures k <= n
    ensures k >= Min(minSentences, n)
    ensures RoundHalfEven(n as real * ratio) <= minSentences ==> k == Min(minSentences, n)
    ensures RoundHalfEven(n as real * ratio) >= n ==> k == n
    ensures minSentences <= RoundHalfEven(n as real * ratio) <= n ==> n as real * ratio - 0.5 <= k as real <= n as real * ratio + 0.5
    ensures minSentences <= RoundHalfEven(n as real * ratio) <= n ==>
              (k as real == n as real * ratio - 0.5 || k as real == n as real * ratio + 0.5) ==> k % 2 == 0
  {
    Min(Max(minSentences, RoundHalfEven(n as real * ratio)), n)
  }

  /** The clauses of `TargetCount`'s contract leave one value: any `k` meeting them is the count. */
  lemma TargetCountPinned(n: nat, ratio: real, minSentences: int, k: int)
    requires k <= n && k >= Min(minSentences, n)
    requires RoundHalfEven(n as real * ratio) <= minSentences ==> k == Min(minSentences, n)
    requires RoundHalfEven(n as real * ratio) >= n ==> k == n
    requires minSentences <= RoundHalfEven(n as real * ratio) <= n ==> n as real * ratio - 0.5 <= k as real <= n as real * ratio + 0.5
    requires minSentences <= RoundHalfEven(n as real * ratio) <= n ==>
               (k as real == n as real * ratio - 0.5 || k as real == n as real * ratio + 0.5) ==> k % 2 == 0
    ensures TargetCount(n, ratio, minSentences) == k
  {
    var r := RoundHalfEven(n as real * ratio);
    if minSentences < r < n {
      RoundUnique(n as real * ratio, k);
    }
  }

  /** A larger ratio never selects fewer sentences. */
  lemma TargetCountMonotone(n: nat, ratio1: real, ratio2: real, minSentences: int)
    requires ratio1 <= ratio2
    ensures TargetCount(n, ratio1, minSentences) <= TargetCount(n, ratio2, minSentences)
  {
    var d := ratio2 - ratio1;
    assert n as real * d >= 0.0;
    assert n as real * ratio2 == n as real * ratio1 + n as real * d;
    RoundMonotone(n as real * ratio1, n as real * ratio2);
  }

  /** With the defaults (ratio 0.3, at least 3), ten sentences give three and twenty give six. */
  lemma TargetCountDefaults()
    ensures TargetCount(10, 0.3, 3) == 3
    ensures TargetCount(20, 0.3, 3) == 6
    ensures TargetCount(2, 0.3, 3) == 2
  {
    RoundInteger(3);
    RoundInteger(6);
    assert 20 as real * 0.3 == 6 as real;
    assert 2 as real * 0.3 < 1.0;
  }

  /** Whether a text ends with a full stop (`str.endswith('.')`). */
  predicate EndsWithDot(s: String) {
    s != [] && s[|s| - 1] == '.'
  }

  /**
   * `summarize`: "" for an empty text or one without sentences; otherwise the top sentences
   * in text order joined with ". ", with a final "." added. Since no sentence holds a `.`,
   * the summary ends with one, and holds one per selected sentence (one when none is selected).
   */
  function Summarize(text: String, ratio: real, minSentences: int): (r: String)
    ensures text == [] ==> r == []
    ensures TextProcessor.Sentences(TextProcessor.Clean(text)) == [] ==> r == []
    ensures r != [] ==> EndsWithDot(r)
    ensures var sentences := TextProcessor.Sentences(TextProcessor.Clean(text));
            text != [] && sentences != [] ==>
            exists sel :: IsTopSelection(SentenceScores(sentences), TargetCount(|sentences|, ratio, minSentences), sel)
                          && r == Join(Pick(sentences, sel), ". ") + ['.']
    ensures var sentences := TextProcessor.Sentences(TextProcessor.Clean(text));
            text != [] && sentences != [] ==>
            Count(r, '.') == Max(1, SliceLen(|sentences|, TargetCount(|sentences|, ratio, minSentences)))
  {
    if text == [] then []
    else
      var sentences := TextProcessor.Sentences(TextProcessor.Clean(text));
      if sentences == [] then []
      else SummaryOf(sentences, TargetCount(|sentences|, ratio, minSentences))
  }

  /**
   * The `k` best-scored sentences in text order, joined with ". " and given a final ".":
   * the final "." is always added, since no sentence ends with one. It ends with a `.` and
   * holds one per selected sentence (one when none is selected).
   */
  function SummaryOf(sentences: seq<String>, k: int): (r: String)
    requires forall i :: 0 <= i < |sentences| ==> sentences[i] != [] && '.' !in sentences[i]
    ensures exists sel :: IsTopSelection(SentenceScores(sentences), k, sel) && r == Join(Pick(sentences, sel), ". ") + ['.']
    ensures EndsWithDot(r) && Count(r, '.') == Max(1, SliceLen(|sentences|, k))
  {
    var selected := TopIndices(SentenceScores(sentences), k);
    var parts := Pick(sentences, selected);
    var summary := Join(parts, ". ");
    var r := summary + (if EndsWithDot(summary) then [] else ".");
    SummaryDots(parts, summary, r);
    r
  }

  /** Selecting no sentence leaves only the added full stop. */
  lemma ZeroTargetDot(sentences: seq<String>)
    requires forall i :: 0 <= i < |sentences| ==> sentences[i] != [] && '.' !in sentences[i]
    ensures SummaryOf(sentences, 0) == "."
  {
    assert TopIndices(SentenceScores(sentences), 0) == [];
    assert Join([], ". ") == [];
  }

  /** The summary of sentences without `.` never ends with one; the added `.` is its last. */
  lemma SummaryDots(parts: seq<String>, summary: String, r: String)
    requires forall a :: 0 <= a < |parts| ==> parts[a] != [] && '.' !in parts[a]
    requires summary == Join(parts, ". ") && r == summary + (if EndsWithDot(summary) then [] else ".")
    ensures EndsWithDot(r) && Count(r, '.') == Max(1, |parts|)
  {
    CountAppend(summary, ".", '.');
    if parts == [] {
      assert summary == [];
    } else {
      assert !EndsWithDot(summary) by {
        var last := parts[|parts| - 1];
        if |parts| > 1 {
          assert summary == Join(parts[..|parts| - 1], ". ") + ". " + last;
        }
        assert summary[|summary| - 1] == last[|last| - 1];
      }
      assert Count(". ", '.') == 1;
      JoinCountSep(parts, ". ", '.');
    }
  }

  /**
   * `get_summary_stats` over the `TextProcessor` statistics: word counts, their ratio (0 for
   * an original without words) and the reading times of both word counts.
   */
  function GetSummaryStats(original: String, summary: String): (st: SummaryStats)
    ensures st.originalLength == |Split(original)| && st.summaryLength == |Split(summary)|
    ensures |Split(original)| == 0 ==> st.compressionRatio == 0.0
    ensures |Split(original)| > 0 ==> st.compressionRatio == |Split(summary)| as real / |Split(original)| as real
    ensures st.originalReadingTime == ReadingTime(|Split(original)|)
    ensures st.summaryReadingTime == ReadingTime(|Split(summary)|)
  {
    MakeSummaryStats(TextProcessor.GetTextStats(original), TextProcessor.GetTextStats(summary))
  }

  /** The two summarizers report the same statistics: only word counts enter them. */
  lemma SummaryStatsAgree(original: String, summary: String)
    ensures GetSummaryStats(original, summary) == Summarizer.GetSummaryStats(original, summary)
  {
  }
}

=== FILE: wrappers.dfy ===
/** Option and Result, used where the Python code returns None, raises, or falls back. */
module Wrappers {
  datatype Option<+T> = None | Some(value: T)

  datatype Result<+R, +E> = Success(value: R) | Failure(error: E)
}
